=== FILE: README.md ===
# A verified model of a small compiler back end

This project models the back end of a compiler for a small imperative
teaching language in Dafny. The back end has five parts:

- **Syntax tree** (`ast.c`): fixed-arity nodes, the arity and symbol guards
  every stage applies, and the disassembler that prints a tree back as
  source text.
- **Symbol table** (`hash.c`): 997 chained buckets, keyed by exact spelling.
  Insertion is idempotent. The two setters change an entry's kind and type
  or its declaration link. Counters generate temporaries and labels.
- **Type checker** (`semantic.c`): marks declarations, types expressions,
  counts mixed-type arithmetic operands, and counts call arity and
  argument-type errors.
- **IR builder** (`tac.c`): lowers the tree to three-address instructions.
  Fragments are spliced by their tails, child fragments are compacted, and
  every construct has its own lowering.
- **Assembly emission** (`asm.c`): x86-64 lines for every instruction, the
  data section for every table entry, and the trailer of format strings.

Everything is a pure function over immutable values:

- The tree is a `Node` datatype whose children are `seq<Option<Node>>`.
- The table is a `seq<seq<Entry>>` of exactly 997 buckets.
- A fragment is a `seq<Instr>`; the NULL fragment is `[]`.
- Output is a `seq<Asm>` of abstract assembly lines.
- The C program's static counters become explicit state: `DUMMYCT` and
  `LABELCT` in `Lowering.Gen`, and `_argc` and `or_labels` in
  `Emission.EmitState`.
- Every `exit`, `LOG_AND_EXIT` and NULL dereference becomes a `Fail` of a
  `Outcomes.Fault`. A NULL dereference, which C leaves undefined, is
  `Crash`.

The meaning of the emitted expression code is stated against `Emission.Run`.
It is a small machine with 32-bit registers, comparison flags and memory
cells named by symbol and byte offset.

Modules, one per file:

- `outcomes.dfy`: Option, Result and faults.
- `numerals.dfy`: `%d` and `strtol(…, 16)`.
- `syntax.dfy` and `disassembly.dfy`: ast.c.
- `symbols.dfy`: hash.c.
- `semantic.dfy`: semantic.c.
- `ir.dfy` and `lowering.dfy`: tac.c.
- `spelling.dfy`, `emission.dfy`, `instructions.dfy` and `storage.dfy`:
  asm.c.
- `findings.dfy`: the two places where tac.c does not do what it means to.

Behaviour of the code worth knowing:

- A symbol leaf lowers to a `sym` pseudo-instruction (tac.c:333-334), not
  to nothing. Emission writes no lines for it.
- `print` lowering walks the first child's fragment backwards and prints
  every value-producing instruction it meets until the first one that
  produces none (tac.c:583-594). It does not print one value per list
  element, left to right. The code that computes the list's values is not
  part of the result either (`Lowering.LowerPrint` emits only prints), so
  `print a+b` prints a temporary that no instruction computes.
- `&` compiles to a compare and `sete` (asm.c:119-123): it stores 1 exactly
  when its operands are equal, so `0 & 0` stores 1
  (`Emission.AndTruthTable`).
- A vector of size 0 aborts (asm.c:426-427); it is not a degraded warning.
- Generated temporaries and labels are numbered modulo 999 (hash.c:194,
  204). After 999 of them, the spellings repeat and a "fresh" entry is an
  old one (`Symbols.GeneratedKeysRepeat`). The spellings `dummyN` and
  `labelN` are also ordinary identifiers.
- The argument walk of a call skips by `tac_count_dups`. That count is not
  the operand's size in general: it can skip too few nodes or too many (see
  Findings).

## Model

| member | source | states |
|---|---|---|
| Syntax.Create | ast.c:50-79 | fails exactly when more than NUM_CHILDREN children are given; otherwise kind and symbol are kept, the first slots hold the children in order and every remaining slot is NULL |
| Syntax.ValidateChildren | ast.c:23-33 | succeeds, returning the node itself, exactly when the count is at most NUM_CHILDREN, the node is present and each of the first `count` children is present; otherwise the NULL-head fault |
| Syntax.ValidateSymbol | ast.c:35-48 | succeeds exactly when the node is present and each of the first `count` children is present with a symbol; a NULL-symbol fault names a present child without a symbol |
| Syntax.SymbolGuardImpliesChildGuard | ast.c:35-48 | a node that passes the symbol guard passes the child guard with the same result |
| Syntax.KwName | ast.c:11-21 | the spelling is "ERROR" exactly for the kinds that are not one of the four type keywords |
| Syntax.Spine | semantic.c:358-371 | the list linked through child slot 1: empty exactly for NULL, starting at the head, each cell's slot 1 the next cell and the last cell's slot 1 NULL |
| Disassembly.Disassemble | ast.c:615-622 | a NULL tree prints as the empty string; any other tree as its node printer says |
| Disassembly.Show | ast.c:502-613 | type keywords print their keyword spelling, symbols their spelling (empty when absent), and every failure is one of the printer's guard faults |
| Disassembly.Separator | ast.c:193-208 | exactly the fourteen binary operators have a separator, each a symbol padded with one space on both sides |
| Disassembly.SeparatorInjective | ast.c:193-208 | no two operators share a separator, so the printed operator identifies the node kind |
| Disassembly.ShowExpr | ast.c:173-213 | succeeds exactly when the arity guard passes (one child for parentheses and `op`, two otherwise) and every guarded child prints; a parenthesised node prints its operand between "(" and ")", an `op` wrapper prints only its operand, and a binary node prints left operand, separator and right operand |
| Disassembly.BinaryLayout | ast.c:191-211 | a binary node prints as its left operand's text, its separator, then its right operand's text |
| Disassembly.ParenLayout | ast.c:185-190 | a parenthesised node prints as its operand's text between parentheses |
| Disassembly.ShowVList | ast.c:215-228 | succeeds exactly when the first child is named and the rest list is present and prints; the text is the name, a space and the rest list's text |
| Disassembly.ShowDecl | ast.c:230-257 | the text ends with ";" and a line break; a scalar declaration prints exactly when it has three children whose first and last carry symbols, as "name = type : value;"; a vector declaration prints exactly when its name is a symbol, its type is present, it has a size symbol and its initialiser list (if any) prints, as "name = type [ size ]", " : " and the initialiser list when there is one, and ";" |
| Disassembly.ShowAttr | ast.c:259-276 | succeeds exactly when the target is named, the value (and for a vector element the index) is present and each prints as an expression; the text is "name = " and the value's text, or for a vector element "name [", the index's text, "] = " and the value's text |
| Disassembly.ShowArg | ast.c:278-288 | succeeds exactly when there are two children and the first is named; the text is the name, " = " and the keyword of the type |
| Disassembly.ShowCsv | ast.c:290-306 | an empty cell prints nothing, a last element prints alone, and two present elements print exactly when both do, joined by ", " |
| Disassembly.SymListLayout | ast.c:290-306 | a comma list of symbols prints as their spellings joined by ", ", with no separator after the last |
| Disassembly.ShowFSig | ast.c:308-321 | succeeds exactly when the name is a symbol, the result type is present and the parameter list (if any) prints; a named signature without a result type fails with the NULL-symbol fault; the text is the name, "(", the parameter list's text (empty when absent), ") = ", the type keyword and a space |
| Disassembly.ShowCmdl | ast.c:323-340 | an empty command list prints nothing; otherwise it prints exactly when the first command and the rest of the list (if any) print, as the first command's text, a line break and the rest's text |
| Disassembly.ShowBlock | ast.c:342-353 | prints exactly when its commands (if any) print; the text is "{", a line break, the commands' text (empty when absent), a line break, "}" and a space |
| Disassembly.ShowFDecl | ast.c:355-365 | prints exactly when signature and body are present and both print; the text is the signature, the body block and ";" with a line break |
| Disassembly.ShowPList | ast.c:367-384 | an empty program prints nothing; otherwise it prints exactly when the first declaration and the rest of the program (if any) print, the two texts back to back |
| Disassembly.ShowCall | ast.c:386-396 | prints exactly when the callee is named and the argument list (if any) prints; the text is the callee's name, "(", the argument list's text (empty when absent) and ") " |
| Disassembly.ShowFor | ast.c:398-422 | prints exactly when the variable is named, start, end and step are present and print as expressions, and the body (if any) prints; the text is "loop (", the name, ": ", the three texts separated by ", ", ") " and the body's text (empty when absent) |
| Disassembly.ShowWhile | ast.c:424-438 | prints exactly when the condition is present and prints and the body (if any) prints; the text is "while (", the condition's text, ") " and the body's text (empty when absent) |
| Disassembly.ShowCond | ast.c:440-459 | prints exactly when the condition is present and prints, the then-branch (if any) prints and, only when there is a then-branch, the else-branch (if any) prints; the text is "if (", the condition, ") then" and a line break, then the then-branch's text, then "else" between line breaks and the else-branch's text only when both branches are present |
| Disassembly.ElseNeedsThen | ast.c:450-458 | without a then-branch, the else-branch is never printed: replacing it changes nothing |
| Disassembly.ShowRead | ast.c:461-467 | succeeds exactly when the target is named, printing "read " and the name |
| Disassembly.ShowVSym | ast.c:469-480 | prints exactly when the name is a symbol and the index is present and prints; the text is the name, "[", the index's text and "]" |
| Disassembly.ShowReturn | ast.c:482-490 | prints exactly when the value is present and prints; the text is "return " and the value's text |
| Disassembly.ShowPrint | ast.c:492-500 | prints exactly when the list is present and prints; the text is "print " and the comma list's text |
| Symbols.Accumulate | hash.c:19-21 | the running value of the hash loop always lies in 1..997 |
| Symbols.Address | hash.c:16-23 | the bucket lies in [0, 997) and the empty key maps to bucket 0 |
| Symbols.HashAddress | hash.c:16-23 | the loop over the characters computes the bucket `Address` defines |
| Symbols.FindIn | hash.c:37-55 | the chain scan returns an entry with exactly the key, from the chain, and returns nothing exactly when no entry of the chain has the key |
| Symbols.Find | hash.c:37-63 | a lookup returns an entry with exactly the key from the key's bucket, and returns NULL exactly when that bucket holds no such key |
| Symbols.AbsentEverywhere | hash.c:37-63 | in a valid table, a failed lookup means no bucket holds the key |
| Symbols.Insert | hash.c:65-85 | an existing key returns its entry with the table unchanged; a new key is prepended to its bucket with the given kind and type and no declaration link; other buckets are untouched |
| Symbols.FindAfterInsert | hash.c:65-85 | after inserting, a lookup of the key finds the returned entry |
| Symbols.InsertKeepsOthers | hash.c:74-84 | inserting changes no lookup of any other key |
| Symbols.InsertIdempotent | hash.c:68-72 | inserting a key a second time, with any type information, returns the first entry and changes nothing |
| Symbols.InsertGrows | hash.c:74-84 | insertion loses no key the table held |
| Symbols.InsertKeepsValid | hash.c:74-84 | insertion keeps every entry in its key's bucket and no key twice in a chain |
| Symbols.Update | hash.c:157-162 | replacing an entry by one of the same key makes lookups of that key return it and leaves every other lookup alone |
| Symbols.SetInfo | hash.c:157-162 | the entry's kind and type become the new ones, its key and declaration link stay, and no other lookup changes |
| Symbols.SetAst | hash.c:182-188 | the entry's declaration link becomes the new one, NULL included, its kind and type stay, and no other lookup changes |
| Symbols.UpdateKeepsValid | hash.c:157-162 | the setters keep the table valid |
| Symbols.UpdateKeepsKeys | hash.c:182-188 | the setters neither add nor remove keys |
| Symbols.CountIds | hash.c:164-180 | the loop over every bucket and chain counts the entries whose kind is still "identifier" |
| Symbols.IdsAfterInsert | hash.c:164-180 | inserting a new identifier adds one to that count; any other insertion adds nothing |
| Symbols.CreateDummy | hash.c:190-198 | inserts "dummy" followed by the counter modulo 999 as a variable of unknown type; advances the counter by one; the entry is then found; an existing spelling is reused unchanged |
| Symbols.CreateLabel | hash.c:200-208 | the same as CreateDummy, for "label" followed by the counter modulo 999 and the label kind |
| Symbols.GeneratedKeysDistinct | hash.c:190-208 | any two of the first 999 counter values give different spellings in each family |
| Symbols.GeneratedKeysRepeat | hash.c:190-208 | after 999 values the spellings repeat, so a later generator call returns the earlier entry |
| Symbols.GeneratedFamiliesDisjoint | hash.c:190-208 | a temporary and a label never share a spelling |
| Symbols.GeneratedKeysFit | hash.c:194-195 | every generated spelling fits the nine-byte buffer with its terminator |
| Symbols.IsStr | hash.c:211-218 | a NULL entry is never a string |
| Symbols.ResolvedGrows | hash.c:74-84 | a subtree all of whose symbols the table holds stays so as the table grows |
| Semantic.TypeOfKeyword | semantic.c:52-62 | the type is known exactly for the four type keywords, and a keyword never names the string type |
| Semantic.KeywordTypeMatchesSpelling | semantic.c:52-62 | each keyword's type agrees with the spelling `ast_kw_to_str` gives it, and unknown goes with "ERROR" |
| Semantic.SetInfoSameKeys | hash.c:157-162 | setting kind and type keeps exactly the same set of keys |
| Semantic.CheckDecl | semantic.c:64-84 | fails exactly when the declaration lacks its three children or a symbol on the name or value; otherwise the name becomes a variable of the keyword's type linked to its value node, nothing else changes, and one error is counted exactly when the name was already declared |
| Semantic.CheckVDecl | semantic.c:86-116 | the same for vectors: the name becomes a vector of the keyword's type linked to its declaration node, with one error exactly when it was already declared |
| Semantic.Params | semantic.c:143-153 | reading a parameter list succeeds exactly when every cell is well formed, and then gives one parameter per cell, in list order |
| Semantic.SetArgs | semantic.c:143-153 | every listed parameter becomes an argument with its declaration link kept, and its type is that of the last listed parameter of its spelling; the set of keys is unchanged and unlisted keys are untouched |
| Semantic.CheckFDecl | semantic.c:118-155 | every failure is a guard fault; a well-shaped declaration succeeds exactly when its parameter list is well formed, and then the function and its parameters are declared |
| Semantic.DeclareFunction | semantic.c:129-154 | the function gets its kind, result type and parameter-list link; each parameter becomes an argument of its declared type (the last one of its spelling wins); one error is counted exactly when the name was already declared |
| Semantic.DeclTwiceReported | semantic.c:64-84 | declaring the same variable twice reports the second declaration |
| Semantic.VDeclTwiceReported | semantic.c:86-116 | declaring the same vector twice reports the second declaration |
| Semantic.FDeclTwiceReported | semantic.c:118-155 | declaring the same function twice reports the second declaration |
| Semantic.Descend | semantic.c:190-222 | the node the typing rules reach is never a transparent wrapper |
| Semantic.ExprType | semantic.c:190-222 | arithmetic, pow included, is int; relational is bool; a symbol has its entry's type and a symbol leaf without one aborts; a paren, `op`, call or vector-read wrapper has its first child's type and aborts with the NULL-head fault without one; anything else, and/or/not included, is unknown |
| Semantic.ExprTypeDescends | semantic.c:190-222 | typing looks through every chain of wrappers: it aborts with the NULL-head fault where the chain ends at a missing child, and otherwise gives the type of the node the chain reaches |
| Semantic.IsNumeric | semantic.c:224-263 | the only failures are the guard faults |
| Semantic.SameAborts | semantic.c:224-263 | the numeric test and expression typing abort on the same trees with the same fault |
| Semantic.NumericMeaning | semantic.c:224-263 | an operand is numeric exactly when its type is int, float or char, or the node reached is a numeric literal |
| Semantic.CheckArit | semantic.c:265-283 | fails with the NULL-head fault when either operand is missing; otherwise counts 0, 1 or 2, being 0 exactly when both sides are numeric and 2 exactly when neither is |
| Semantic.ParamCount | semantic.c:358-371 | the count is the length of the list linked through slot 1, 0 for NULL |
| Semantic.CheckParamCount | semantic.c:373-379 | both counts are reported, and they agree exactly when the two lists have the same length |
| Semantic.Interchangeable | semantic.c:381-388 | two types mix exactly when they fall in the same class, where int, float and char share one class |
| Semantic.InterchangeableEquivalence | semantic.c:381-388 | compatibility is reflexive, symmetric and transitive |
| Semantic.ParamTypes | semantic.c:399-417 | the walk pairs as many positions as the shorter list has |
| Semantic.ParamTypesPairs | semantic.c:399-417 | pair k holds the type the table gives the k-th declared parameter's name and the type of the k-th argument expression |
| Semantic.Mismatches | semantic.c:409-412 | the count is 0 exactly when every pair is compatible, and never more than the pairs |
| Semantic.CheckParamTypes | semantic.c:390-420 | the result is true exactly when some position is incompatible, because the bool return collapses the count |
| Semantic.CalleeErrors | semantic.c:436-443 | a declared callee adds at most one error: exactly one when the counts differ or some position is incompatible |
| Semantic.CallErrors | semantic.c:431-445 | a call node without a named callee aborts; an unfound callee adds nothing; a found callee adds what its declaration and arguments give |
| Semantic.CheckFCalls | semantic.c:422-455 | the total is at most the number of call nodes the walk visits |
| Ir.TailOf | tac.h:58-69 | a fragment's tail handle is NULL exactly for the empty fragment, and otherwise points at a node with no successor |
| Ir.CatTails | tac.c:160-183 | a NULL side yields the other side; two present handles join exactly when both are tails, else fail; the result holds the first list followed by the second and returns the second's tail |
| Ir.CatTailsIsConcatenation | tac.c:174-182 | on fragments, joining tails is sequence concatenation |
| Ir.CatTailsAssociative | tac.c:174-182 | joining three fragments gives the same list whichever pair is joined first |
| Ir.Splice | tac.c:160-183 | joining two fragments by their tails and reading the result back from its tail gives the first fragment followed by the second; it never fails on fragments |
| Ir.FlattenAppend | tac.c:185-202 | flattening two runs of fragments is flattening each, one after the other |
| Ir.CatArr | tac.c:185-202 | with no empty entry the result is every fragment in order; otherwise it is the fragments before the first empty one |
| Ir.CatArrLoop | tac.c:185-202 | the C loop computes `CatArr` |
| Ir.Compact | tac.c:614-619 | compaction keeps no empty fragment, never lengthens, and leaves an array without empty fragments as it is |
| Ir.CompactKeepsCode | tac.c:614-619 | compaction loses and reorders no instruction, and the compacted array concatenates to the same code |
| Ir.CompactLoop | tac.c:614-619 | the C loop computes `Compact` |
| Ir.OpcodeOf | tac.c:204-247 | the opcode is known exactly for the operator and assignment kinds |
| Ir.OpcodeOfInjective | tac.c:204-247 | distinct mapped kinds get distinct opcodes |
| Ir.ExprOpcodes | tac.c:249-274 | the value-producing opcodes are the operators, `sym` and `call`; every mapped kind except the two assignments produces a value |
| Ir.CountDups | tac.c:276-310 | the count is 0 for NULL and non-operator nodes, is always even, is at least 2 for operators, and fails only by a NULL dereference |
| Ir.NoOperatorsNoDups | tac.c:276-310 | in a chain without operators the count is 0 everywhere |
| Ir.GetHead | tac.c:698-710 | following the `prev` links back from a handle, the loop stops at the node without a predecessor, which is the first node; a NULL handle gives NULL |
| Ir.ValidateOps | tac.c:712-729 | succeeds exactly when the instruction is present and each of its first `nops` operand slots, up to three, is set; it fails with the NULL-head fault |
| Ir.ValidateOpsMonotone | tac.c:712-729 | checking more slots is stricter up to three; beyond three only two slots are checked |
| Lowering.NewDummy | hash.c:190-198 | the temporary is named from the counter, the counter advances by one, the table then holds it and keeps every earlier key |
| Lowering.NewLabel | hash.c:200-208 | the same for labels and the label counter |
| Lowering.ValidateFrags | tac.c:148-158 | succeeds exactly when the count is at most NUM_CHILDREN and each of the first `count` fragments is present |
| Lowering.LowerSym | tac.c:320-335 | a leaf lowers to one `sym` instruction carrying its symbol, and a leaf with children aborts |
| Lowering.LowerBinary | tac.c:312-318 | an operator lowers to left code, right code and one instruction of its opcode into a fresh temporary on the two results; it aborts when an operand is missing |
| Lowering.LowerAttr | tac.c:345-351 | an assignment lowers, by two tail splices, to target code, value code and a copy of the value's result into the target's result; a missing fragment aborts |
| Instructions.AttrStoresValue | asm.c:247-255 | the copy an assignment ends with stores the value's cell into the target's cell, or aborts when either result is missing |
| Lowering.LowerVAttr | tac.c:353-359 | a vector assignment lowers, by three tail splices, to vector, index and value code, then one store of the value at the index; a missing fragment aborts |
| Instructions.VAttrStoresElement | asm.c:193-205 | the store a vector assignment ends with writes the value's cell into the element at byte 4 times the parsed index, or aborts when an operand is missing |
| Lowering.ArgWalk | tac.c:368-378 | the walk emits only `arg` instructions for the callee, never more than the nodes walked, the first for the last argument's result, and fails only by running off the chain |
| Lowering.ArgWalkPlain | tac.c:368-378 | with no operator in the argument code, one `arg` is emitted per value, last value first |
| Lowering.LowerCall | tac.c:361-382 | a call lowers to the argument code, then `arg` instructions for the callee, then one `call` into a fresh temporary; a missing callee aborts |
| Lowering.LowerFDecl | tac.c:384-395 | a function lowers, by tail splices, to a start marker, signature code, body code and an end marker, both markers naming the function; it aborts without a signature, a body slot or a named signature |
| Instructions.FDeclFramed | asm.c:227-245 | a lowered function is emitted as its label and frame set-up, the signature and body lines, and a frame pop and return; it fails exactly when the signature and body code do, with their fault |
| Lowering.LowerCond | tac.c:397-438 | the condition, a jump-if-false to a fresh label, the then-code and that label; with an else, a jump to a second label, the first label, the else-code and the second label; an empty then-code stops the layout after the jump |
| Lowering.CondLayout | tac.c:411-418 | the four-slot array of a conditional without else concatenates as described, stopping at an empty then-code |
| Lowering.CondElseLayout | tac.c:420-436 | the seven-slot array of a conditional with else concatenates as described, stopping at an empty then-code |
| Lowering.LowerLoop | tac.c:440-512 | copy the start into the variable, check label, less-than into a temporary, jump-if-false to the end, the optional body, add the step, jump back, end label; two labels and one temporary are used |
| Lowering.LoopLayout | tac.c:440-512 | an absent body drops out of the layout without stopping it |
| Lowering.LowerWhile | tac.c:522-568 | check label, condition, jump-if-false to the end, the optional body, jump back, end label; two fresh labels |
| Lowering.WhileLayout | tac.c:522-568 | with or without a body, the loop's array concatenates to the full layout |
| Lowering.LowerRead | tac.c:514-520 | the target's code spliced before a read into its result; an absent target aborts |
| Instructions.ReadScansTarget | asm.c:292-302 | the read a read statement ends with calls `scanf` with the integer format and the address of the target's storage, or aborts without a target |
| Lowering.LowerRet | tac.c:570-576 | the value's code spliced before a return of its result; an absent value aborts |
| Instructions.RetReturnsValue | asm.c:364-370 | the return a return statement ends with loads the value's cell into `%eax`, then pops the frame and returns, or aborts without a value |
| Lowering.PrintWalk | tac.c:583-594 | the backward walk emits only prints, at most one per node walked |
| Lowering.PrintWalkMeaning | tac.c:583-594 | the prints are, last first, exactly the value-producing instructions from the end back to the first node that produces no value |
| Lowering.LowerPrint | tac.c:578-595 | print lowering emits only prints, never more than the list's code, and at least one exactly when the code's last instruction produces a value |
| Lowering.Lower | tac.c:597-696 | a NULL tree lowers to the empty fragment; lowering only adds table entries and advances the counters |
| Lowering.LowerNode | tac.c:597-696 | a node lowers only when all its children (up to the first NULL slot) lower; a symbol leaf becomes its one `sym` instruction and a symbol node with children aborts; the table only grows and the counters never go back. The per-construct layouts are the rows of the construct lowerings |
| Lowering.LowerKids | tac.c:608-612 | children are lowered up to the first NULL slot, one fragment each |
| Numerals.NatToDec | asm.c:448 | `%d` of a natural is a non-empty run of digits |
| Numerals.DecRoundTrip | asm.c:448 | reading back the printed digits gives the number |
| Numerals.NatToDecInjective | asm.c:448 | distinct numbers print differently |
| Numerals.SkipSpaces | asm.c:16-29 | the index skips exactly the leading white space |
| Numerals.Strtol16 | asm.c:16-29 | the result fits a `long`, and a non-zero result comes from a non-empty string ending in a hexadecimal digit |
| Numerals.StrtolReadsHex | asm.c:16-29 | every number a `long` holds, spelled in hexadecimal, reads back as itself |
| Numerals.StrtolRejectsTrailing | asm.c:23-26 | a character left unconverted makes the result 0 |
| Numerals.StrtolReadsNumber | asm.c:16-29 | leading white space, an optional sign, an optional `0x` and hexadecimal digits read as the signed value when it fits a `long`, and as 0 when it overflows on either side |
| Numerals.StrtolRejectsUnconverted | asm.c:23-26 | the same spelling followed by a character that is not a digit (other than the `x` of a `0x` after a lone 0) and anything else reads as 0 |
| Numerals.StrtolSplit | asm.c:16-29 | the reading skips exactly the white space, then exactly the sign and the `0x`, and converts the rest with the sign's direction |
| Numerals.HexRoundTrip | asm.c:16-29 | hexadecimal spelling followed by hexadecimal reading is the identity |
| Spelling.Sanitize | asm.c:136-147 | the result is never longer than the input and holds only alphanumeric characters |
| Spelling.SanitizeInPlace | asm.c:136-147 | the C loop with a trailing write index computes `Sanitize` |
| Spelling.SanitizeAppend | asm.c:136-147 | sanitizing a concatenation sanitizes each part |
| Spelling.SanitizeFixpoint | asm.c:136-147 | a string is left unchanged exactly when all its characters are alphanumeric |
| Spelling.SanitizeIdempotent | asm.c:136-147 | sanitizing twice is sanitizing once |
| Spelling.SanitizeKeepsLength | asm.c:136-147 | the length is kept exactly when every character is alphanumeric |
| Spelling.SanitizeSubMultiset | asm.c:136-147 | sanitizing only drops characters |
| Spelling.SanitizeCollapses | asm.c:464-472 | two different literals can get the same storage name |
| Spelling.StripQuotes | asm.c:127-134 | with at least two characters the result is the input without its first and last character; shorter input overruns the buffer |
| Spelling.StripQuoted | asm.c:127-134 | stripping a quoted string gives the string back |
| Spelling.QuoteStripped | asm.c:127-134 | quoting a stripped, quoted spelling gives the spelling back |
| Emission.NamespacesDisjoint | asm.c:13-14 | a storage name, a generated label and an `or` label never coincide |
| Emission.Signed | asm.c:60-125 | the two's-complement value of a 32-bit cell lies in the signed range and wraps back to the cell |
| Emission.LocateSpec | asm.c:207-225 | a jump lands on the first line marking its target, and finds none exactly when no line marks it |
| Emission.CmpLines | asm.c:31-58 | exactly the six comparisons are emitted, as compare, set and widen; any other opcode aborts |
| Emission.CmpLinesInjective | asm.c:31-58 | distinct comparisons are emitted with distinct condition codes |
| Emission.ExprBody | asm.c:60-125 | exactly the expression opcodes have a body; any other opcode aborts |
| Emission.ExprLines | asm.c:60-125 | succeeds exactly when all three operands are set and the opcode is an expression; only `or` advances the label counter, by three |
| Emission.ArithBlockRuns | asm.c:69-86 | the add, subtract and multiply blocks store the 32-bit wrapped result of the operands' signed values |
| Emission.SetBlockRuns | asm.c:31-58 | a comparison block stores 1 when the condition holds on the compared values, else 0 |
| Emission.DivBlockRuns | asm.c:87-97 | the division block stores the quotient truncated toward zero, and traps on a zero divisor or an overflowing quotient |
| Emission.OrLines | asm.c:98-118 | the `or` block has its thirteen lines in order, and each of its three labels is located at its mark |
| Emission.OrLayout | asm.c:98-118 | the emitted `or` block is that layout |
| Emission.OrBlockRuns | asm.c:98-118 | the `or` block stores 1 when either operand cell is non-zero, else 0, along each of its three paths |
| Emission.ComparisonBlockComputes | asm.c:31-58 | a comparison's emitted code stores the 0/1 truth of the comparison on signed values |
| Emission.AndBlockComputes | asm.c:119-123 | the emitted `and` stores 1 exactly when the two operand cells are equal |
| Emission.DivBlockComputes | asm.c:87-97 | the emitted division stores C's truncated quotient or traps |
| Emission.ArithBlockComputes | asm.c:69-86 | the emitted add, subtract and multiply store the wrapped result |
| Emission.OrBlockComputes | asm.c:98-118 | the emitted `or` stores whether either operand is non-zero |
| Emission.ExprComputes | asm.c:60-125 | every expression instruction's code stores into its destination what the operator means on the operand cells, and leaves every other cell alone |
| Emission.OrTruthTable | asm.c:98-118 | over truth values `or` gives 0, 1, 1, 1 |
| Emission.AndTruthTable | asm.c:119-123 | over truth values `and` gives 1, 0, 0, 1: it holds exactly when they agree |
| Instructions.ArgName | asm.c:149-170 | a binding needs a parameter list shorter than MAX_ARGC and longer than the argument count; the only faults are the argument-count faults and the guard faults; no list means the count fault. The chosen cell is stated by `Instructions.ArgNameSpec` |
| Instructions.ArgNameSpec | asm.c:149-170 | succeeds exactly when a list is present, shorter than MAX_ARGC, longer than the argument count, and the chosen cell is named; picks the cell at position length - 1 - argc; the abort kinds match the C checks |
| Instructions.PrintLines | asm.c:257-290 | six lines that pass a value in `%esi` to `printf`; the only failure is the crash on a string spelling shorter than two characters. The two forms are stated by `Instructions.PrintLinesSpec` |
| Instructions.PrintLinesSpec | asm.c:257-290 | a string prints from the sanitized unquoted name with its own label as the format; anything else prints from its own cell with the integer format; it crashes exactly on a string spelling shorter than two characters |
| Instructions.InstrLines | asm.c:323-398 | an instruction missing a required operand aborts with the NULL-head fault; expression opcodes get the expression lines |
| Instructions.PlainCase | asm.c:323-398 | instructions that read no counter or table leave both counters alone |
| Instructions.InstrCounters | asm.c:380-387 | only `arg` (plus one) and `call` (back to 0) change the argument counter; only `or` changes the label counter |
| Instructions.SilentOps | asm.c:326-395 | `sym`, `pow`, `not` and `unk` write nothing and leave the counters alone |
| Instructions.InstrFaults | asm.c:323-398 | beyond missing operands, only `print` (a crash) and `arg` (argument-count faults) can abort |
| Instructions.ArgCase | asm.c:304-313 | `arg` copies its value into the parameter `asm_get_argname` picks and advances the counter, or aborts as that does |
| Instructions.CopyMoves | asm.c:247-255 | a copy stores the source cell into the target cell |
| Instructions.VectorReadMoves | asm.c:179-191 | a vector read stores the element at byte offset 4 times the parsed index |
| Instructions.VectorWriteMoves | asm.c:193-205 | a vector write stores the value at byte offset 4 times the parsed index of the vector |
| Instructions.JumpIfFalse | asm.c:207-216 | `jmpf` jumps to its label's line exactly when the tested cell is zero, else falls through |
| Instructions.PrintCase | asm.c:257-290 | `print` writes the print lines and leaves the counters alone |
| Instructions.CallCase | asm.c:315-321 | `call f` calls `f`, stores its result into the destination and resets the argument counter |
| Instructions.LabelMarks | asm.c:172-177 | a label instruction marks its label |
| Instructions.WalkAppend | asm.c:400-407 | emitting a concatenation emits the first part, then the second from the counters the first left |
| Instructions.WalkLineSource | asm.c:400-407 | every emitted line comes from some instruction of the chain |
| Instructions.OrLabelsCounted | asm.c:98-118 | over a chain the label counter advances by three per `or` |
| Instructions.TacsLines | asm.c:400-407 | an empty chain emits nothing and keeps the counters; a fault of the head instruction ends the emission; on success the head instruction's lines come first. The loop is `Instructions.EmitTacs`, concatenation `Instructions.WalkAppend` |
| Instructions.EmitTacs | asm.c:400-407 | the loop from head to tail emits exactly the walk's lines, or stops with its fault |
| Instructions.InstrJumps | asm.c:207-225 | only `jmp` and `jmpf` jump to a named target, and only to their own label; local jumps land inside the same instruction's lines |
| Instructions.JumpsResolve | asm.c:400-407 | when every jump of the chain names a label the chain marks, every emitted jump finds its target line |
| Instructions.InstrLocalMarks | asm.c:98-118 | one instruction's local labels are numbered from the counter it starts at, each marked once |
| Instructions.LocalLabelsUnique | asm.c:98-118 | over a whole chain no local label is marked twice |
| Instructions.ArgumentsBindByPosition | asm.c:304-321 | for a call whose `arg` instructions come last argument first, emission copies argument k into parameter k for every k |
| Storage.VecCellsSpec | asm.c:435-454 | the vector loop emits exactly `size` cells (none for a negative size), the k-th holding the k-th initializer value and the rest 0 |
| Storage.InitialsFrom | asm.c:436-449 | the first initializer value is that of the list's first cell |
| Storage.EntryLines | asm.c:409-496 | only vector and string entries can fail, and only with the size or crash faults; a scalar or integer literal gets six lines labelled by its storage name. Faults and layouts per kind are `Storage.EntryFaults` and the storage rows below |
| Storage.EntryFaults | asm.c:409-496 | storage aborts exactly for a vector without size information, a vector of size 0, or a string spelling shorter than two characters |
| Storage.VectorStorage | asm.c:422-455 | a vector gets its header with 4 times its size in bytes, then one cell per element, initializers first and zeros after |
| Storage.ScalarStorage | asm.c:474-486 | a variable, argument or identifier gets a 4-byte header and one cell holding its initializer, or 0 without one |
| Storage.IntegerStorage | asm.c:456-463 | an integer literal gets a 4-byte cell labelled and initialised by its own spelling |
| Storage.FunctionStorage | asm.c:487-490 | a function gets only `.globl` of its bare name, with no label and no data |
| Storage.StringStorage | asm.c:464-473 | a quoted literal is stored under its sanitized unquoted name and keeps its quoted spelling as the data |
| Storage.Labels | asm.c:409-496 | the labels collected are exactly the ones the lines mark |
| Storage.OneLabelPerDatum | asm.c:409-496 | every entry with data defines exactly one label, and the others define none |
| Storage.EntriesAppend | asm.c:498-511 | storing two runs of entries is storing each in turn, and the first failure ends it |
| Storage.BucketOrder | asm.c:498-511 | the table is stored bucket by bucket and each chain from its head |
| Storage.EntriesFault | asm.c:498-511 | storage fails exactly when some entry fails, with the fault of the first failing entry |
| Storage.EmptyTableStorage | asm.c:498-511 | an empty table gets only the two comment lines |
| Storage.HashLines | asm.c:498-511 | the storage section opens with HASH_START and closes with HASH_END, and it can only fail with a storage fault. Its order is `Storage.BucketOrder` |
| Storage.PrintHash | asm.c:498-511 | the nested C loops compute the table's storage |
| Storage.AsmPrint | asm.c:524-530 | succeeds exactly when code and storage do; the output starts with the code lines and ends with the trailer |
| Storage.OutputOrder | asm.c:524-530 | the output is the code of every instruction head to tail, then the table's storage, then the trailer; it fails exactly when a part does, code faults first |
| Storage.FormatsDefined | asm.c:513-522 | the output ends by defining the two format labels the print and read code load |
| Storage.PrintedStringIsStored | asm.c:257-290 | the label a string's print loads is the label that string's storage defines |
| Storage.OperandsAreStored | asm.c:409-496 | every variable, argument, identifier, integer literal and vector is stored under the name its code uses, and made global |
| Findings.DupsUndercount | tac.c:276-310 | for `f((a+b)*(c+d))` the count skips 4 nodes where the operand has 6, so the walk passes three arguments |
| Findings.DupsOvercount | tac.c:276-310 | for `f(a*(b*(c+d)))` the count exceeds the preceding nodes and the walk runs off the chain |
| Findings.SpanOfTerm | tac.c:276-310 | the corrected count (the size of a node's operand subtree) spans exactly a well-formed operand's code |
| Findings.FixedWalkOneArgPerArgument | tac.c:368-378 | with the corrected skip, the walk emits exactly one `arg` per argument, last argument first, each passing that argument's value |
| Findings.CallFixedArguments | tac.c:361-382 | the corrected call lowering of well-formed arguments never fails and is the argument code, one `arg` per argument, then the call |
| Findings.CondAfterCompaction | tac.c:614-619 | an empty then-branch drops the end label after a jump to it; with an else-branch, the else-code runs as the then-code |
| Findings.LowerCondFixed | tac.c:397-438 | the corrected conditional, lowered from the uncompacted slots, always succeeds on a condition: condition, jump-if-false, then-code and its label; with an else, a jump to a second label between the then-code and the first label, the else-code and the second label |
| Findings.CondFixedJumpsLand | tac.c:397-438 | every jump of the corrected conditional lands on a label it emits, whatever branches are empty |
| Findings.CondFixedElseLayout | tac.c:420-436 | the corrected conditional with else places the first label right after the then-code and the jump, and the else-code right after that label, even when the then-branch is empty |

## Left out

- I/O: the output is a sequence of abstract lines. `Emission.Render` gives their spelling, but no property of the text is proved. What is written before an abort is not modelled; an aborted run is a `Fail`.
- main.c, the driver, and the unseen parser that builds the tree and fills the table. The tree and table are inputs.
- semantic.c's traversal drivers (`semantic_check_and_set_decls`, `semantic_check_ops`, `semantic_analyze`) and `semantic_report`. The drivers walk the tree and apply the modelled checks; the report only prints diagnostics.
- Debug printers (`tac_print`, `tac_printb`, `tac_print_node`, `ast_print`, `ast_print_node`, `hash_print`, the kind and type name functions) and every debug-only comment line.
- malloc, strdup, realloc and free, `hash_free`, and `hash_insert`'s exit when allocation fails. Entries and instructions are values.
- `hash_address` on negative `char` codes and `size_t` wrap-around. Characters are read as their naturals.
- Symbols.IsStr: the contract states only that NULL is never a string. The kind-or-type test itself is the definition and is used as such by `Instructions.PrintLinesSpec`.
- Emission.Run: calls, function frames, `ret`, the `printf`/`scanf` runtime and the data directives are outside the machine (`Unmodelled`). Only the expression, copy, vector and jump lines are given a meaning. Memory cells are named by symbol and byte offset and never overlap, so a vector access outside the vector's size reads or writes a cell of its own instead of a neighbouring object's storage.
- Instructions.VectorWriteMoves: states that every other cell is unchanged for any index, which the C program only keeps for indices inside the vector; outside it the store overwrites whatever follows the vector.
- Instructions.VectorReadMoves and Instructions.VectorWriteMoves: the byte offset `index * 4` is a `long` product (asm.c:189, 204) that is not wrapped; an index beyond a quarter of the `long` range would wrap in C.
- Numerals.Strtol16: `errno` is never cleared before `strtol` (asm.c:19-21), so after an earlier overflow in the same run a spelling of exactly LONG_MAX or LONG_MIN also reads as 0. The model reads each spelling on its own, as if `errno` were clear.
- Findings.CallFixedArguments: argument expressions are symbols and operator trees. An argument that is itself a call (`f(g(x))`) carries its own `arg` and `call` instructions, and the corrected skip is not stated for it.
- Storage.VectorStorage: the `.size` directive's `size * 4` is not wrapped to a 64-bit `long`. A size beyond the `long` range reads as 0, as `asm_strtol` returns, and the entry then aborts with the invalid-size fault (asm.c:426-427).
- Instructions.InstrLines: the function start and end lines, `ret` and the read lines are listed exactly, but only the load of the return value has a meaning in the machine (`Instructions.RetReturnsValue`); the frame, `ret` and `scanf` do not.
- Lowering.LowerNode and Lowering.Lower: beyond success, only "the table only grows and the counters never go back" is stated for the whole tree. The per-construct lowerings carry the layouts.
- Semantic.CheckFCalls: only the bound by the number of call nodes is stated for the whole walk; the error a single call adds is `Semantic.CallErrors`.

## Findings

| source | as written | input that shows it | evidently intended | confidence | as-written member | corrected member |
|---|---|---|---|---|---|---|
| tac.c:276-310 | the skip count adds the counts of the operator's predecessor and that node's predecessor, which is the right operand and a node inside it when the right operand is compound | `f((a+b)*(c+d))`: the count is 4, the operand spans 6 earlier nodes, and `b` and `a` are passed as extra arguments | for arguments built from symbols and operators, skip the operand subtree's whole size, so each argument yields exactly one `arg`; arguments that are themselves calls are outside this row | high (not executed) | Findings.DupsUndercount | Findings.CallFixedArguments |
| tac.c:276-310 | the same count over-skips when the compound operand is on the right of a right operand | `f(a*(b*(c+d)))`: the count is 8 with only 6 earlier nodes, and the walk dereferences NULL | the same corrected skip, which stays inside the argument code | high (not executed) | Findings.DupsOvercount | Findings.FixedWalkOneArgPerArgument |
| tac.c:614-619 | child fragments are compacted before `tac_gencode_cond` reads its slots, so an empty then-branch lets the else-branch slide into the then slot, and without an else the layout stops at the empty then-code, before the end label | `if (x) then {}` lowers to the condition and a jump-if-false whose label is never emitted | lay out condition, jump, then-code and labels from the uncompacted slots, so every jump lands on an emitted label | high (not executed) | Findings.CondAfterCompaction | Findings.CondFixedJumpsLand |

The emission theorems build on the corrected definitions:

- `Instructions.ArgumentsBindByPosition` is stated for the `arg` sequence
  that the corrected walk produces.
- `Instructions.JumpsResolve` assumes that jumps land on labels, which the
  corrected conditional guarantees.

The lowering in `Lowering` itself stays as written.

=== FILE: disassembly.dfy ===
/**
 The source-text serialiser of ast.c (`ast_print_disassemble` and its
 helpers): each printer is a function from a node to the text it writes, or
 to the fault that stops the run.

 What the C printers write before they abort is not kept: a failing
 printer yields only its fault.
 */
module Disassembly {
  import opened Outcomes
  import opened Syntax

  /** The faults a printer can end with. */
  predicate PrinterFault(f: Fault) {
    f in {NullHead, NullSymbol, Crash}
  }

  /** The separator `ast_print_disassemble_expr` writes between the operands of a binary node. */
  function Separator(k: Kind): (r: Option<string>)
    ensures r.Some? <==> k in {Add, Sub, Mul, Div, Lt, Gt, Or, Pow, Not, And, Le, Ge, Eq, Ne}
    ensures r.Some? ==> |r.value| >= 3 && r.value[0] == ' ' && r.value[|r.value| - 1] == ' '
  {
    match k
    case Add => Some(" + ")
    case Sub => Some(" - ")
    case Mul => Some(" * ")
    case Div => Some(" / ")
    case Lt => Some(" < ")
    case Gt => Some(" > ")
    case Or => Some(" | ")
    case Pow => Some(" ^ ")
    case Not => Some(" ~ ")
    case And => Some(" & ")
    case Le => Some(" <= ")
    case Ge => Some(" >= ")
    case Eq => Some(" == ")
    case Ne => Some(" != ")
    case _ => None
  }

  /** No two operators print the same separator. */
  lemma SeparatorInjective(a: Kind, b: Kind)
    requires Separator(a).Some? && Separator(a) == Separator(b)
    ensures a == b
  {
  }

  /** `ast_print_disassemble` (ast.c:615-622): nothing for a NULL tree. */
  function Disassemble(h: Option<Node>): (r: Result<string>)
    ensures h.None? ==> r == Ok("")
    ensures h.Some? ==> r == Show(h.value)
  {
    match h
    case None => Ok("")
    case Some(n) => Show(n)
  }

  /**
   `ast_print_disassemble_node` (ast.c:502-613): keywords print their
   spelling, a symbol its key (or nothing when it has none), every other kind
   goes to its printer. The switch covers every kind, so its default exit
   cannot be reached.
   */
  function Show(n: Node): (r: Result<string>)
    ensures r.Fail? ==> PrinterFault(r.fault)
    ensures n.kind in {KwChar, KwInt, KwFloat, KwBool} ==> r == Ok(KwName(n.kind))
    ensures n.kind == Sym ==> r == Ok(if n.symbol.Some? then n.symbol.value else "")
    decreases n, 1
  {
    match n.kind
    case KwChar => Ok("char")
    case KwInt => Ok("int")
    case KwFloat => Ok("float")
    case KwBool => Ok("bool")
    case Sym => Ok(if n.symbol.Some? then n.symbol.value else "")
    case Add | Sub | Mul | Div | Lt | Gt | Or | Pow | Not | And | Le | Ge | Eq | Ne | Paren | Op => ShowExpr(n)
    case Decl | VDecl => ShowDecl(n)
    case Attr | VAttr => ShowAttr(n)
    case Call => ShowCall(n)
    case Cond => ShowCond(n)
    case While => ShowWhile(n)
    case For => ShowFor(n)
    case PList => ShowPList(n)
    case Cmdl => ShowCmdl(n)
    case Csv => ShowCsv(n)
    case Block => ShowBlock(n)
    case Read => ShowRead(n)
    case Print => ShowPrint(n)
    case Ret => ShowReturn(n)
    case VSym => ShowVSym(n)
    case FSig => ShowFSig(n)
    case FDecl => ShowFDecl(n)
    case TVar => ShowArg(n)
    case VList => ShowVList(n)
  }

  /**
   `ast_print_disassemble_expr` (ast.c:173-213): a parenthesised node prints
   its operand in parentheses, an `op` wrapper prints only its operand, a
   binary node prints left, separator, right. Any other kind is reported on
   stderr and prints its two children with nothing between them.
   */
  function ShowExpr(n: Node): (r: Result<string>)
    ensures r.Fail? ==> PrinterFault(r.fault)
    ensures r.Ok? <==> ValidateChildren(Some(n), if n.kind in {Paren, Op} then 1 else 2).Ok? &&
                       Show(Child(n, 0).value).Ok? && (n.kind !in {Paren, Op} ==> Show(Child(n, 1).value).Ok?)
    ensures r.Ok? && n.kind == Paren ==> |r.value| >= 2 && r.value[0] == '(' && r.value[|r.value| - 1] == ')'
    ensures r.Ok? && n.kind == Paren ==> r.value == "(" + Show(Child(n, 0).value).value + ")"
    ensures r.Ok? && n.kind == Op ==> r.value == Show(Child(n, 0).value).value
    ensures r.Ok? && n.kind !in {Paren, Op} ==>
              var sep := Separator(n.kind);
              r.value == Show(Child(n, 0).value).value + (if sep.Some? then sep.value else "") + Show(Child(n, 1).value).value
    decreases n, 0
  {
    var h :- ValidateChildren(Some(n), if n.kind in {Paren, Op} then 1 else 2);
    var left :- Show(Child(n, 0).value);
    if n.kind == Paren then Ok("(" + left + ")")
    else if n.kind == Op then Ok(left)
    else
      var right :- Show(Child(n, 1).value);
      var sep := Separator(n.kind);
      Ok(left + (if sep.Some? then sep.value else "") + right)
  }

  /** `ast_print_disassemble_vlist` (ast.c:215-228): "key " and then the rest of the initialiser list. */
  function ShowVList(n: Node): (r: Result<string>)
    ensures r.Fail? ==> PrinterFault(r.fault)
    ensures r.Ok? <==> Named(n, 1) && Child(n, 1).Some? && Show(Child(n, 1).value).Ok?
    ensures r.Ok? ==> Named(n, 1) && Child(n, 1).Some? && ChildKey(n, 0) + " " <= r.value
    ensures r.Ok? ==> (Named(n, 1) && Child(n, 1).Some? &&
               var rest := Show(Child(n, 1).value);
               rest.Ok? && r.value == ChildKey(n, 0) + " " + rest.value)
    decreases n, 0
  {
    var h :- ValidateChildren(Some(n), 2);
    var h' :- ValidateSymbol(Some(n), 1);
    var rest :- Show(Child(n, 1).value);
    Ok(ChildKey(n, 0) + " " + rest)
  }

  /**
   `ast_print_disassemble_decl` (ast.c:230-257): "name = type : value;" for a
   variable, "name = type [ size ]" with an optional " : " initialiser list and
   ";" for a vector. A vector declaration without a size symbol is a NULL dereference.
   */
  function ShowDecl(n: Node): (r: Result<string>)
    ensures r.Fail? ==> PrinterFault(r.fault)
    ensures r.Ok? ==> |r.value| >= 2 && r.value[|r.value| - 2..] == ";\n"
    ensures n.kind != VDecl ==>
              (r.Ok? <==> ValidateChildren(Some(n), 3).Ok? && Child(n, 0).value.symbol.Some? && Child(n, 2).value.symbol.Some?)
    ensures n.kind == VDecl ==>
              (r.Ok? <==> Named(n, 1) && Child(n, 1).Some? && n.symbol.Some? &&
                          (Child(n, 2).Some? ==> Show(Child(n, 2).value).Ok?))
    ensures r.Ok? && n.kind != VDecl ==>
              Named(n, 1) && Child(n, 1).Some? && Child(n, 2).Some? && Child(n, 2).value.symbol.Some? &&
              r.value == ChildKey(n, 0) + " = " + KwName(ChildKind(n, 1)) + " : " + ChildKey(n, 2) + ";\n"
    ensures r.Ok? && n.kind == VDecl ==>
              Named(n, 1) && Child(n, 1).Some? && n.symbol.Some? &&
              var init := (match Child(n, 2) case None => "" case Some(c) => " : " + Show(c).value);
              r.value == ChildKey(n, 0) + " = " + KwName(ChildKind(n, 1)) + " [ " + n.symbol.value + " ]" + init + ";\n"
    decreases n, 0
  {
    if n.kind == VDecl then
      var h :- ValidateChildren(Some(n), 2);
      var h' :- ValidateSymbol(Some(n), 1);
      if n.symbol.None? then Fail(Crash)
      else
        var init :- match Child(n, 2)
                    case None => Ok("")
                    case Some(c) => var s :- Show(c); Ok(" : " + s);
        Ok(ChildKey(n, 0) + " = " + KwName(ChildKind(n, 1)) + " [ " + n.symbol.value + " ]" + init + ";\n")
    else
      var h :- ValidateChildren(Some(n), 3);
      if Child(n, 0).value.symbol.None? || Child(n, 2).value.symbol.None? then Fail(NullSymbol)
      else Ok(ChildKey(n, 0) + " = " + KwName(ChildKind(n, 1)) + " : " + ChildKey(n, 2) + ";\n")
  }

  /**
   `ast_print_disassemble_attr` (ast.c:259-276): "name = expr", or
   "name [expr] = expr" for a vector element. The target must be named
   before the arity is checked.
   */
  function ShowAttr(n: Node): (r: Result<string>)
    ensures r.Fail? ==> PrinterFault(r.fault)
    ensures n.kind == VAttr ==>
              (r.Ok? <==> Named(n, 1) && Child(n, 1).Some? && Child(n, 2).Some? &&
                          ShowExpr(Child(n, 1).value).Ok? && ShowExpr(Child(n, 2).value).Ok?)
    ensures n.kind != VAttr ==>
              (r.Ok? <==> Named(n, 1) && Child(n, 1).Some? && ShowExpr(Child(n, 1).value).Ok?)
    ensures r.Ok? ==> Named(n, 1) && ChildKey(n, 0) <= r.value
    ensures r.Ok? && n.kind == VAttr ==>
              Named(n, 1) && Child(n, 1).Some? && Child(n, 2).Some? &&
              var index := ShowExpr(Child(n, 1).value);
              var value := ShowExpr(Child(n, 2).value);
              index.Ok? && value.Ok? && r.value == ChildKey(n, 0) + " [" + index.value + "] = " + value.value
    ensures r.Ok? && n.kind != VAttr ==>
              Named(n, 1) && Child(n, 1).Some? &&
              var value := ShowExpr(Child(n, 1).value);
              value.Ok? && r.value == ChildKey(n, 0) + " = " + value.value
    decreases n, 0
  {
    var h :- ValidateSymbol(Some(n), 1);
    if n.kind == VAttr then
      var h' :- ValidateChildren(Some(n), 3);
      var index :- ShowExpr(Child(n, 1).value);
      var value :- ShowExpr(Child(n, 2).value);
      Ok(ChildKey(n, 0) + " [" + index + "] = " + value)
    else
      var h' :- ValidateChildren(Some(n), 2);
      var value :- ShowExpr(Child(n, 1).value);
      Ok(ChildKey(n, 0) + " = " + value)
  }

  /** `ast_print_disassemble_arg` (ast.c:278-288): a typed parameter, "name = type". */
  function ShowArg(n: Node): (r: Result<string>)
    ensures r.Ok? <==> ValidateChildren(Some(n), 2).Ok? && Named(n, 1)
    ensures r.Ok? ==> r.value == ChildKey(n, 0) + " = " + KwName(ChildKind(n, 1))
    ensures r.Fail? ==> PrinterFault(r.fault)
    decreases n, 0
  {
    var h :- ValidateChildren(Some(n), 2);
    var h' :- ValidateSymbol(Some(n), 1);
    Ok(ChildKey(n, 0) + " = " + KwName(ChildKind(n, 1)))
  }

  /**
   `ast_print_disassemble_csv` (ast.c:290-306): the first element, then ", "
   and the rest only when the rest is present; nothing when the first slot is NULL.
   */
  function ShowCsv(n: Node): (r: Result<string>)
    ensures r.Fail? ==> PrinterFault(r.fault)
    ensures Child(n, 0).None? ==> r == Ok("")
    ensures Child(n, 0).Some? && Child(n, 1).None? ==> r == Show(Child(n, 0).value)
    ensures Child(n, 0).Some? && Child(n, 1).Some? ==>
              (r.Ok? <==> Show(Child(n, 0).value).Ok? && Show(Child(n, 1).value).Ok?)
    ensures Child(n, 0).Some? && Child(n, 1).Some? && r.Ok? ==>
              var first := Show(Child(n, 0).value);
              var rest := Show(Child(n, 1).value);
              first.Ok? && rest.Ok? && r.value == first.value + ", " + rest.value
    decreases n, 0
  {
    match Child(n, 0)
    case None => Ok("")
    case Some(first) =>
      var s :- Show(first);
      match Child(n, 1)
      case None => Ok(s)
      case Some(next) =>
        var rest :- Show(next);
        Ok(s + ", " + rest)
  }

  /**
   `ast_print_disassemble_fsig` (ast.c:308-321): "name(params) = type ". A
   signature without a result type aborts with "NULL head symbol".
   */
  function ShowFSig(n: Node): (r: Result<string>)
    ensures r.Fail? ==> PrinterFault(r.fault)
    ensures Named(n, 1) && Child(n, 2).None? ==> r == Fail(NullSymbol)
    ensures r.Ok? <==> Named(n, 1) && Child(n, 2).Some? && (Child(n, 1).Some? ==> ShowCsv(Child(n, 1).value).Ok?)
    ensures r.Ok? ==> Named(n, 1) && Child(n, 2).Some? && ChildKey(n, 0) + "(" <= r.value
    ensures r.Ok? ==> (Named(n, 1) && Child(n, 2).Some? &&
               var params := (match Child(n, 1) case None => Ok("") case Some(c) => ShowCsv(c));
               params.Ok? && r.value == ChildKey(n, 0) + "(" + params.value + ") = " + KwName(ChildKind(n, 2)) + " ")
    decreases n, 0
  {
    var h :- ValidateSymbol(Some(n), 1);
    if Child(n, 2).None? then Fail(NullSymbol)
    else
      var params :- match Child(n, 1)
                    case None => Ok("")
                    case Some(c) => ShowCsv(c);
      Ok(ChildKey(n, 0) + "(" + params + ") = " + KwName(ChildKind(n, 2)) + " ")
  }

  /** `ast_print_disassemble_cmdl` (ast.c:323-340): each command followed by a line break. */
  function ShowCmdl(n: Node): (r: Result<string>)
    ensures r.Fail? ==> PrinterFault(r.fault)
    ensures Child(n, 0).None? ==> r == Ok("")
    ensures Child(n, 0).Some? ==>
              (r.Ok? <==> Show(Child(n, 0).value).Ok? && (Child(n, 1).Some? ==> Show(Child(n, 1).value).Ok?))
    ensures Child(n, 0).Some? && r.Ok? ==>
              var first := Show(Child(n, 0).value);
              first.Ok? && first.value + "\n" <= r.value
    ensures Child(n, 0).Some? && r.Ok? ==>
              var first := Show(Child(n, 0).value);
              var rest := (match Child(n, 1) case None => Ok("") case Some(c) => Show(c));
              first.Ok? && rest.Ok? && r.value == first.value + "\n" + rest.value
    decreases n, 0
  {
    match Child(n, 0)
    case None => Ok("")
    case Some(first) =>
      var s :- Show(first);
      var rest :- match Child(n, 1)
                  case None => Ok("")
                  case Some(next) => Show(next);
      Ok(s + "\n" + rest)
  }

  /** `ast_print_disassemble_block` (ast.c:342-353): the commands between "{\n" and "\n} ". */
  function ShowBlock(n: Node): (r: Result<string>)
    ensures r.Fail? ==> PrinterFault(r.fault)
    ensures r.Ok? <==> (Child(n, 0).Some? ==> Show(Child(n, 0).value).Ok?)
    ensures r.Ok? ==> |r.value| >= 5 && r.value[..2] == "{\n" && r.value[|r.value| - 3..] == "\n} "
    ensures r.Ok? ==>
              var body := (match Child(n, 0) case None => Ok("") case Some(c) => Show(c));
              body.Ok? && r.value == "{\n" + body.value + "\n} "
    decreases n, 0
  {
    var body :- match Child(n, 0)
                case None => Ok("")
                case Some(c) => Show(c);
    Ok("{\n" + body + "\n} ")
  }

  /** `ast_print_disassemble_fdecl` (ast.c:355-365): signature, body block, ";\n". */
  function ShowFDecl(n: Node): (r: Result<string>)
    ensures r.Fail? ==> PrinterFault(r.fault)
    ensures r.Ok? <==> Child(n, 0).Some? && Child(n, 1).Some? &&
                       ShowFSig(Child(n, 0).value).Ok? && ShowBlock(Child(n, 1).value).Ok?
    ensures r.Ok? ==> ValidateChildren(Some(n), 2).Ok?
    ensures r.Ok? ==>
              var sig := ShowFSig(Child(n, 0).value);
              var body := ShowBlock(Child(n, 1).value);
              sig.Ok? && body.Ok? && r.value == sig.value + body.value + ";\n"
    decreases n, 0
  {
    var h :- ValidateChildren(Some(n), 2);
    var sig :- ShowFSig(Child(n, 0).value);
    var body :- ShowBlock(Child(n, 1).value);
    Ok(sig + body + ";\n")
  }

  /** `ast_print_disassemble_plist` (ast.c:367-384): the program's declarations back to back. */
  function ShowPList(n: Node): (r: Result<string>)
    ensures r.Fail? ==> PrinterFault(r.fault)
    ensures Child(n, 0).None? ==> r == Ok("")
    ensures Child(n, 0).Some? ==>
              (r.Ok? <==> Show(Child(n, 0).value).Ok? && (Child(n, 1).Some? ==> ShowPList(Child(n, 1).value).Ok?))
    ensures Child(n, 0).Some? && r.Ok? ==>
              var first := Show(Child(n, 0).value);
              var rest := (match Child(n, 1) case None => Ok("") case Some(c) => ShowPList(c));
              first.Ok? && rest.Ok? && r.value == first.value + rest.value
    decreases n, 0
  {
    match Child(n, 0)
    case None => Ok("")
    case Some(first) =>
      var s :- Show(first);
      var rest :- match Child(n, 1)
                  case None => Ok("")
                  case Some(next) => ShowPList(next);
      Ok(s + rest)
  }

  /** `ast_print_disassemble_call` (ast.c:386-396): "name(args) ". */
  function ShowCall(n: Node): (r: Result<string>)
    ensures r.Fail? ==> PrinterFault(r.fault)
    ensures r.Ok? <==> Named(n, 1) && (Child(n, 1).Some? ==> ShowCsv(Child(n, 1).value).Ok?)
    ensures r.Ok? ==> Named(n, 1) && ChildKey(n, 0) + "(" <= r.value
    ensures r.Ok? ==> |r.value| >= 2 && r.value[|r.value| - 2..] == ") "
    ensures r.Ok? ==> (Named(n, 1) &&
               var args := (match Child(n, 1) case None => Ok("") case Some(c) => ShowCsv(c));
               args.Ok? && r.value == ChildKey(n, 0) + "(" + args.value + ") ")
    decreases n, 0
  {
    var h :- ValidateSymbol(Some(n), 1);
    var args :- match Child(n, 1)
                case None => Ok("")
                case Some(c) => ShowCsv(c);
    Ok(ChildKey(n, 0) + "(" + args + ") ")
  }

  /** `ast_print_disassemble_for` (ast.c:398-422): "loop (name: start, end, step) " and the optional body. */
  function ShowFor(n: Node): (r: Result<string>)
    ensures r.Fail? ==> PrinterFault(r.fault)
    ensures r.Ok? <==> Named(n, 1) && Child(n, 1).Some? && Child(n, 2).Some? && Child(n, 3).Some? &&
                       ShowExpr(Child(n, 1).value).Ok? && ShowExpr(Child(n, 2).value).Ok? &&
                       ShowExpr(Child(n, 3).value).Ok? && (Child(n, 4).Some? ==> Show(Child(n, 4).value).Ok?)
    ensures r.Ok? ==> ValidateChildren(Some(n), 4).Ok? && Named(n, 1) && "loop (" + ChildKey(n, 0) + ": " <= r.value
    ensures r.Ok? ==> (Named(n, 1) && Child(n, 1).Some? && Child(n, 2).Some? && Child(n, 3).Some? &&
               var from := ShowExpr(Child(n, 1).value);
               var to := ShowExpr(Child(n, 2).value);
               var step := ShowExpr(Child(n, 3).value);
               var body := (match Child(n, 4) case None => Ok("") case Some(c) => Show(c));
               from.Ok? && to.Ok? && step.Ok? && body.Ok? &&
               r.value == "loop (" + ChildKey(n, 0) + ": " + (from.value + ", " + to.value + ", " + step.value + ") " + body.value))
    decreases n, 0
  {
    var h :- ValidateChildren(Some(n), 4);
    var h' :- ValidateSymbol(Some(n), 1);
    var from :- ShowExpr(Child(n, 1).value);
    var to :- ShowExpr(Child(n, 2).value);
    var step :- ShowExpr(Child(n, 3).value);
    var body :- match Child(n, 4)
                case None => Ok("")
                case Some(c) => Show(c);
    var head := "loop (" + ChildKey(n, 0) + ": ";
    Ok(head + (from + ", " + to + ", " + step + ") " + body))
  }

  /** `ast_print_disassemble_while` (ast.c:424-438): "while (expr) " and the optional body. */
  function ShowWhile(n: Node): (r: Result<string>)
    ensures r.Fail? ==> PrinterFault(r.fault)
    ensures r.Ok? <==> Child(n, 0).Some? && ShowExpr(Child(n, 0).value).Ok? &&
                       (Child(n, 1).Some? ==> Show(Child(n, 1).value).Ok?)
    ensures r.Ok? ==> Child(n, 0).Some? && "while (" <= r.value
    ensures r.Ok? ==> (Child(n, 0).Some? &&
               var test := ShowExpr(Child(n, 0).value);
               var body := (match Child(n, 1) case None => Ok("") case Some(c) => Show(c));
               test.Ok? && body.Ok? && r.value == "while (" + test.value + ") " + body.value)
    decreases n, 0
  {
    var h :- ValidateChildren(Some(n), 1);
    var test :- ShowExpr(Child(n, 0).value);
    var body :- match Child(n, 1)
                case None => Ok("")
                case Some(c) => Show(c);
    Ok("while (" + test + ") " + body)
  }

  /**
   `ast_print_disassemble_cond` (ast.c:440-459): "if (expr) then\n", the then
   branch, and "\nelse\n" with the else branch -- the else branch only when a
   then branch is present.
   */
  function ShowCond(n: Node): (r: Result<string>)
    ensures r.Fail? ==> PrinterFault(r.fault)
    ensures r.Ok? <==> Child(n, 0).Some? && ShowExpr(Child(n, 0).value).Ok? &&
                       (Child(n, 1).Some? ==> Show(Child(n, 1).value).Ok? &&
                                              (Child(n, 2).Some? ==> Show(Child(n, 2).value).Ok?))
    ensures r.Ok? ==> Child(n, 0).Some? && "if (" <= r.value
    ensures r.Ok? ==> Child(n, 0).Some? && ShowExpr(Child(n, 0).value).Ok?
    ensures r.Ok? && Child(n, 1).None? ==> r.value == "if (" + ShowExpr(Child(n, 0).value).value + ") then\n"
    ensures r.Ok? && Child(n, 1).Some? && Child(n, 2).None? ==>
              var th := Show(Child(n, 1).value);
              th.Ok? && r.value == "if (" + ShowExpr(Child(n, 0).value).value + ") then\n" + th.value
    ensures r.Ok? && Child(n, 1).Some? && Child(n, 2).Some? ==>
              var th := Show(Child(n, 1).value);
              var el := Show(Child(n, 2).value);
              th.Ok? && el.Ok? && r.value == "if (" + ShowExpr(Child(n, 0).value).value + ") then\n" + (th.value + "\nelse\n" + el.value)
    decreases n, 0
  {
    var h :- ValidateChildren(Some(n), 1);
    var test :- ShowExpr(Child(n, 0).value);
    var branches :- match Child(n, 1)
                    case None => Ok("")
                    case Some(th) =>
                      var t :- Show(th);
                      match Child(n, 2)
                      case None => Ok(t)
                      case Some(el) =>
                        var e :- Show(el);
                        Ok(t + "\nelse\n" + e);
    Ok("if (" + test + ") then\n" + branches)
  }

  /** `ast_print_disassemble_read` (ast.c:461-467): "read name". */
  function ShowRead(n: Node): (r: Result<string>)
    ensures r.Ok? <==> Named(n, 1)
    ensures r.Ok? ==> r.value == "read " + ChildKey(n, 0)
    ensures r.Fail? ==> PrinterFault(r.fault)
    decreases n, 0
  {
    var h :- ValidateSymbol(Some(n), 1);
    Ok("read " + ChildKey(n, 0))
  }

  /** `ast_print_disassemble_vsym` (ast.c:469-480): "name[expr]". */
  function ShowVSym(n: Node): (r: Result<string>)
    ensures r.Fail? ==> PrinterFault(r.fault)
    ensures r.Ok? <==> Named(n, 1) && Child(n, 1).Some? && ShowExpr(Child(n, 1).value).Ok?
    ensures r.Ok? ==> Named(n, 1) && ChildKey(n, 0) + "[" <= r.value && r.value[|r.value| - 1] == ']'
    ensures r.Ok? ==> (Named(n, 1) && Child(n, 1).Some? &&
               var index := ShowExpr(Child(n, 1).value);
               index.Ok? && r.value == ChildKey(n, 0) + "[" + index.value + "]")
    decreases n, 0
  {
    var h :- ValidateChildren(Some(n), 2);
    var h' :- ValidateSymbol(Some(n), 1);
    var index :- ShowExpr(Child(n, 1).value);
    Ok(ChildKey(n, 0) + "[" + index + "]")
  }

  /** `ast_print_disassemble_return` (ast.c:482-490): "return expr". */
  function ShowReturn(n: Node): (r: Result<string>)
    ensures r.Fail? ==> PrinterFault(r.fault)
    ensures r.Ok? <==> Child(n, 0).Some? && ShowExpr(Child(n, 0).value).Ok?
    ensures r.Ok? ==> Child(n, 0).Some? && "return " <= r.value
    ensures r.Ok? ==> (Child(n, 0).Some? &&
               var value := ShowExpr(Child(n, 0).value);
               value.Ok? && r.value == "return " + value.value)
    decreases n, 0
  {
    var h :- ValidateChildren(Some(n), 1);
    var value :- ShowExpr(Child(n, 0).value);
    Ok("return " + value)
  }

  /** `ast_print_disassemble_print` (ast.c:492-500): "print " and the comma list. */
  function ShowPrint(n: Node): (r: Result<string>)
    ensures r.Fail? ==> PrinterFault(r.fault)
    ensures r.Ok? <==> Child(n, 0).Some? && ShowCsv(Child(n, 0).value).Ok?
    ensures r.Ok? ==> Child(n, 0).Some? && "print " <= r.value
    ensures r.Ok? ==> (Child(n, 0).Some? &&
               var items := ShowCsv(Child(n, 0).value);
               items.Ok? && r.value == "print " + items.value)
    decreases n, 0
  {
    var h :- ValidateChildren(Some(n), 1);
    var items :- ShowCsv(Child(n, 0).value);
    Ok("print " + items)
  }

  // ---------------------------------------------------------------------
  // Properties
  // ---------------------------------------------------------------------

  /** A binary node prints as its left operand, the operator's separator and its right operand. */
  lemma BinaryLayout(n: Node)
    requires Separator(n.kind).Some?
    requires Child(n, 0).Some? && Child(n, 1).Some?
    requires Show(Child(n, 0).value).Ok? && Show(Child(n, 1).value).Ok?
    ensures Show(n) == Ok(Show(Child(n, 0).value).value + Separator(n.kind).value + Show(Child(n, 1).value).value)
  {
  }

  /** A parenthesised node prints as its operand in parentheses. */
  lemma ParenLayout(n: Node)
    requires n.kind == Paren && Child(n, 0).Some? && Show(Child(n, 0).value).Ok?
    ensures Show(n) == Ok("(" + Show(Child(n, 0).value).value + ")")
  {
  }

  /** A conditional without a then branch ignores its else branch entirely. */
  lemma ElseNeedsThen(n: Node, other: Option<Node>)
    requires n.kind == Cond && Child(n, 1).None?
    ensures var m := Node(Cond, n.symbol, [Child(n, 0), None, other]);
            ShowCond(m) == ShowCond(n)
  {
    var m := Node(Cond, n.symbol, [Child(n, 0), None, other]);
    assert Child(m, 0) == Child(n, 0);
  }

  /** The comma list linking `keys` as symbol leaves, in order. */
  function SymList(keys: seq<string>): (n: Node)
    requires |keys| >= 1
    decreases |keys|
  {
    var leaf := Some(Node(Sym, Some(keys[0]), []));
    if |keys| == 1 then Node(Csv, None, [leaf, None])
    else Node(Csv, None, [leaf, Some(SymList(keys[1..]))])
  }

  /** `keys` joined with ", ". */
  function Join(keys: seq<string>): string
    requires |keys| >= 1
    decreases |keys|
  {
    if |keys| == 1 then keys[0] else keys[0] + ", " + Join(keys[1..])
  }

  /** A comma list of symbols prints as their keys joined by ", ", with no separator after the last. */
  lemma {:induction false} SymListLayout(keys: seq<string>)
    requires |keys| >= 1
    ensures ShowCsv(SymList(keys)) == Ok(Join(keys))
    decreases |keys|
  {
    if |keys| > 1 {
      SymListLayout(keys[1..]);
      assert Show(SymList(keys[1..])) == ShowCsv(SymList(keys[1..]));
    }
  }
}

=== FILE: emission.dfy ===
/**
 Assembly emission (asm.c): x86-64 AT&T text for every instruction of the
 chain, head to tail, then storage for every symbol-table entry, bucket by
 bucket, then the two format strings the runtime calls use.

 A line of output is the datatype `Asm`; `Render` spells it as the C
 program's format strings do (the debug-only `#` comments are not emitted).
 The lines that move values get their meaning from `Run`, a small machine
 with 32-bit registers, the comparison flags and memory cells named by symbol
 and byte offset; the expression theorems are stated against it.
 */
module Emission {
  import opened Outcomes
  import opened Numerals
  import opened Syntax
  import opened Symbols
  import opened Ir

  /** The prefix of every user-level storage name (asm.c:13). */
  const VarPrefix: string := "ufrgs_var_"
  /** The prefix of every generated jump label (asm.c:14). */
  const LabelPrefix: string := ".ufrgs_label_"

  // ---------------------------------------------------------------------
  // Lines
  // ---------------------------------------------------------------------

  datatype Reg = Eax | Ebx | Ecx | Edx | Esi | Rsi | Rdi

  /** A memory operand: a whole variable, or a byte offset into one. */
  datatype Addr = Whole(sym: string) | Elem(offset: int, sym: string)

  datatype ArithOp = AddL | SubL | IMulL

  /** The condition codes of the `set` instructions the comparisons use. */
  datatype Cond = Less | Greater | GreaterEq | LessEq | Equal | NotEqual

  /** The local labels of an `or`, numbered by the emitter's running counter. */
  datatype LocalLabel = OrTrue(n: nat) | OrFalse(n: nat) | OrFinish(n: nat)

  datatype Target = Local(local: LocalLabel) | Named(name: string)

  /** `jmp`, `je` (taken when the compared values are equal) and `jne`. */
  datatype JumpKind = Always | IfEqual | IfNotEqual

  datatype Asm =
    | Load(from: Addr, to: Reg)             // movl A(%rip), %r
    | Store(src: Reg, dest: Addr)           // movl %r, A(%rip)
    | Move(src: Reg, dst: Reg)              // movl %s, %d
    | Imm(value: int, dst: Reg, long: bool) // movl $v, %d   (mov $v, %d when not long)
    | Arith(aop: ArithOp)                   // addl / subl / imull %edx, %eax
    | Cdq
    | IDiv(divisor: Reg)
    | Cmp(src: Reg, dst: Reg)               // cmpl %s, %d: flags of d against s
    | Test(reg: Reg)                        // testl %r, %r
    | SetCond(cond: Cond)                   // set<cc> %al
    | Movzbl                                // movzbl %al, %eax
    | Jump(kind: JumpKind, target: Target)
    | Mark(at: Target)                      // T:
    | Lea(symbol: string, dst: Reg)         // leaq S(%rip), %r
    | CallTo(callee: string)
    | PushFrame | SetFrame | PopFrame | Ret
    | TextSection | DataSection
    | Globl(name: string)
    | Size(name: string, bytes: int)
    | LongInt(value: int)                   // .long %ld
    | LongKey(key: string)                  // .long %s
    | StringData(text: string)              // .string %s
    | Comment(text: string)

  function RegName(r: Reg): string {
    match r
    case Eax => "%eax"
    case Ebx => "%ebx"
    case Ecx => "%ecx"
    case Edx => "%edx"
    case Esi => "%esi"
    case Rsi => "%rsi"
    case Rdi => "%rdi"
  }

  function AddrText(a: Addr): string {
    match a
    case Whole(s) => VarPrefix + s + "(%rip)"
    case Elem(o, s) => IntToDec(o) + "+" + VarPrefix + s + "(%rip)"
  }

  function CondName(c: Cond): string {
    match c
    case Less => "l"
    case Greater => "g"
    case GreaterEq => "ge"
    case LessEq => "le"
    case Equal => "e"
    case NotEqual => "ne"
  }

  function TargetText(t: Target): string {
    match t
    case Local(OrTrue(n)) => ".true" + NatToDec(n)
    case Local(OrFalse(n)) => ".false" + NatToDec(n)
    case Local(OrFinish(n)) => ".finish" + NatToDec(n)
    case Named(name) => name
  }

  /** The text of one line, without its newline. */
  function Render(a: Asm): string {
    match a
    case Load(from, to) => "movl " + AddrText(from) + ", " + RegName(to)
    case Store(src, dest) => "movl " + RegName(src) + ", " + AddrText(dest)
    case Move(src, dst) => "movl " + RegName(src) + ", " + RegName(dst)
    case Imm(v, dst, long) => (if long then "movl $" else "mov $") + IntToDec(v) + ", " + RegName(dst)
    case Arith(AddL) => "addl %edx, %eax"
    case Arith(SubL) => "subl %edx, %eax"
    case Arith(IMulL) => "imull %edx, %eax"
    case Cdq => "cdq"
    case IDiv(r) => "idivl " + RegName(r)
    case Cmp(src, dst) => "cmpl " + RegName(src) + ", " + RegName(dst)
    case Test(r) => "testl " + RegName(r) + ", " + RegName(r)
    case SetCond(c) => "set" + CondName(c) + " %al"
    case Movzbl => "movzbl %al, %eax"
    case Jump(Always, t) => "jmp " + TargetText(t)
    case Jump(IfEqual, t) => "je " + TargetText(t)
    case Jump(IfNotEqual, t) => "jne " + TargetText(t)
    case Mark(t) => TargetText(t) + ":"
    case Lea(s, r) => "leaq " + s + "(%rip), " + RegName(r)
    case CallTo(f) => "call " + f
    case PushFrame => "pushq %rbp"
    case SetFrame => "movq %rsp, %rbp"
    case PopFrame => "popq %rbp"
    case Ret => "ret"
    case TextSection => ".text"
    case DataSection => ".data"
    case Globl(name) => ".globl " + name
    case Size(name, bytes) => ".size " + name + ", " + IntToDec(bytes)
    case LongInt(v) => ".long " + IntToDec(v)
    case LongKey(k) => ".long " + k
    case StringData(s) => ".string " + s
    case Comment(s) => "#" + s
  }

  /**
   The two prefixes keep user storage and generated labels apart, and the
   local labels of `or` apart from both: no storage name, generated label or
   local label is spelled like another kind.
   */
  lemma NamespacesDisjoint(x: string, y: string, l: LocalLabel)
    ensures VarPrefix + x != LabelPrefix + y
    ensures TargetText(Local(l)) != LabelPrefix + y
    ensures TargetText(Local(l)) != VarPrefix + x
  {
    assert (VarPrefix + x)[0] == 'u' && (LabelPrefix + y)[0] == '.';
    assert (LabelPrefix + y)[1] == 'u';
    var t := TargetText(Local(l));
    assert t[0] == '.' && t[1] != 'u';
  }

  // ---------------------------------------------------------------------
  // The machine
  // ---------------------------------------------------------------------

  const Word: int := 0x1_0000_0000

  /** A 32-bit register or memory cell, as an unsigned number. */
  type Word32 = x: int | 0 <= x < 0x1_0000_0000

  /** Truncation to 32 bits. */
  function Wrap(x: int): Word32 {
    x % Word
  }

  /** The two's-complement value of a 32-bit word. */
  function Signed(u: Word32): (v: int)
    ensures -0x8000_0000 <= v < 0x8000_0000
    ensures Wrap(v) == u
  {
    if u < 0x8000_0000 then u else u - Word
  }

  /** A 4-byte memory cell: the storage named by `sym`, at byte `offset`. */
  datatype Cell = Cell(sym: string, offset: int)

  function CellOf(a: Addr): Cell {
    match a
    case Whole(s) => Cell(s, 0)
    case Elem(o, s) => Cell(s, o)
  }

  /** The two values the last `cmpl` or `testl` compared: the destination against the source. */
  datatype Flags = Flags(left: int, right: int)

  datatype Machine = Machine(regs: map<Reg, Word32>, flags: Flags, mem: map<Cell, Word32>)

  function RegOf(m: Machine, r: Reg): Word32 {
    if r in m.regs then m.regs[r] else 0
  }

  function Peek(m: Machine, c: Cell): Word32 {
    if c in m.mem then m.mem[c] else 0
  }

  function WithReg(m: Machine, r: Reg, v: Word32): Machine {
    m.(regs := m.regs[r := v])
  }

  predicate CondHolds(c: Cond, f: Flags) {
    match c
    case Less => f.left < f.right
    case Greater => f.left > f.right
    case GreaterEq => f.left >= f.right
    case LessEq => f.left <= f.right
    case Equal => f.left == f.right
    case NotEqual => f.left != f.right
  }

  predicate Taken(k: JumpKind, f: Flags) {
    match k
    case Always => true
    case IfEqual => f.left == f.right
    case IfNotEqual => f.left != f.right
  }

  /** C's `/`: the quotient truncated toward zero. */
  function TruncDiv(x: int, y: int): (q: int)
    requires y != 0
    ensures (x >= 0) == (y > 0) || q <= 0
  {
    var a := if x < 0 then -x else x;
    var b := if y < 0 then -y else y;
    if (x < 0) == (y < 0) then a / b else -(a / b)
  }

  /** The index of the first line marking `t`. */
  function Locate(p: seq<Asm>, t: Target): (r: Option<nat>)
    ensures r.Some? ==> r.value < |p| && p[r.value] == Mark(t)
  {
    LocateFrom(p, t, 0)
  }

  /** The index of the first line at or after `i` marking `t`. */
  function LocateFrom(p: seq<Asm>, t: Target, i: nat): (r: Option<nat>)
    ensures r.Some? ==> i <= r.value < |p| && p[r.value] == Mark(t)
    decreases |p| - i
  {
    if i >= |p| then None
    else if p[i] == Mark(t) then Some(i)
    else LocateFrom(p, t, i + 1)
  }

  /** Searching from `i` finds the first marking line at or after `i`, if there is one. */
  lemma {:induction false} LocateFromSpec(p: seq<Asm>, t: Target, i: nat, j: nat)
    requires i <= j
    ensures LocateFrom(p, t, i) == Some(j) <==> j < |p| && p[j] == Mark(t) && forall k :: i <= k < j ==> p[k] != Mark(t)
    decreases j - i
  {
    if i < j && i < |p| && p[i] != Mark(t) {
      LocateFromSpec(p, t, i + 1, j);
    }
  }

  /** Searching from `i` misses only when no line from `i` on marks `t`. */
  lemma {:induction false} LocateFromMisses(p: seq<Asm>, t: Target, i: nat)
    ensures LocateFrom(p, t, i).None? <==> forall k :: i <= k < |p| ==> p[k] != Mark(t)
    decreases |p| - i
  {
    if i < |p| && p[i] != Mark(t) {
      LocateFromMisses(p, t, i + 1);
    }
  }

  /**
   `Locate` finds exactly the first line marking the target, and finds
   nothing exactly when no line marks it.
   */
  lemma LocateSpec(p: seq<Asm>, t: Target, j: nat)
    ensures Locate(p, t) == Some(j) <==> j < |p| && p[j] == Mark(t) && forall k :: 0 <= k < j ==> p[k] != Mark(t)
    ensures Locate(p, t).None? <==> Mark(t) !in p
  {
    LocateFromSpec(p, t, 0, j);
    LocateFromMisses(p, t, 0);
  }

  /** What one line does: fall through, jump, fault, or leave the machine. */
  datatype Effect = Continue(m: Machine) | Goto(target: Target, m: Machine) | Fault | Unmodelled

  function ArithValue(k: ArithOp, x: int, y: int): int {
    match k
    case AddL => x + y
    case SubL => x - y
    case IMulL => x * y
  }

  /**
   `idivl r`: divides the 64-bit `%edx:%eax` by `r`, quotient to `%eax` and
   remainder to `%edx`; the processor's divide error on a zero divisor or a
   quotient that does not fit 32 bits.
   */
  function Divide(m: Machine, r: Reg): Effect {
    var whole := RegOf(m, Edx) * Word + RegOf(m, Eax);
    var dividend := if whole < 0x8000_0000_0000_0000 then whole else whole - Word * Word;
    var divisor := Signed(RegOf(m, r));
    if divisor == 0 then Fault
    else
      var q := TruncDiv(dividend, divisor);
      if q < -0x8000_0000 || q >= 0x8000_0000 then Fault
      else Continue(WithReg(WithReg(m, Eax, Wrap(q)), Edx, Wrap(dividend - divisor * q)))
  }

  /** `set<cc> %al`: the low byte of `%eax` becomes the condition bit. */
  function SetLow(m: Machine, c: Cond): Machine {
    var e := RegOf(m, Eax);
    WithReg(m, Eax, e - e % 256 + if CondHolds(c, m.flags) then 1 else 0)
  }

  /** One line; the lines that leave the machine (calls, frames, data) are not modelled. */
  function Exec(line: Asm, m: Machine): Effect {
    match line
    case Load(a, r) => Continue(WithReg(m, r, Peek(m, CellOf(a))))
    case Store(r, a) => Continue(m.(mem := m.mem[CellOf(a) := RegOf(m, r)]))
    case Move(s, d) => Continue(WithReg(m, d, RegOf(m, s)))
    case Imm(v, d, _) => Continue(WithReg(m, d, Wrap(v)))
    case Arith(k) => Continue(WithReg(m, Eax, Wrap(ArithValue(k, Signed(RegOf(m, Eax)), Signed(RegOf(m, Edx))))))
    case Cdq => Continue(WithReg(m, Edx, if RegOf(m, Eax) < 0x8000_0000 then 0 else Word - 1))
    case IDiv(r) => Divide(m, r)
    case Cmp(s, d) => Continue(m.(flags := Flags(Signed(RegOf(m, d)), Signed(RegOf(m, s)))))
    case Test(r) => Continue(m.(flags := Flags(Signed(RegOf(m, r)), 0)))
    case SetCond(c) => Continue(SetLow(m, c))
    case Movzbl => Continue(WithReg(m, Eax, RegOf(m, Eax) % 256))
    case Jump(k, t) => if Taken(k, m.flags) then Goto(t, m) else Continue(m)
    case Mark(_) => Continue(m)
    case _ => Unmodelled
  }

  datatype Outcome = Halted(m: Machine) | Trapped | Stuck | OutOfFuel

  /** Runs from `pc` until control leaves the lines, for at most `fuel` steps. */
  function Run(p: seq<Asm>, pc: nat, m: Machine, fuel: nat): Outcome
    decreases fuel
  {
    if pc >= |p| then Halted(m)
    else if fuel == 0 then OutOfFuel
    else match Exec(p[pc], m)
      case Continue(m') => Run(p, pc + 1, m', fuel - 1)
      case Goto(t, m') => (match Locate(p, t) case Some(j) => Run(p, j, m', fuel - 1) case None => Stuck)
      case Fault => Trapped
      case Unmodelled => Stuck
  }

  /** A jump lands on the first line marking its target. */
  lemma LocateFirst(p: seq<Asm>, t: Target, j: nat)
    requires j < |p| && p[j] == Mark(t)
    requires forall k :: 0 <= k < j ==> p[k] != Mark(t)
    ensures Locate(p, t) == Some(j)
  {
    LocateSpec(p, t, j);
  }


  /** Line `pc` of `p` is `x`. */
  predicate At(p: seq<Asm>, pc: nat, x: Asm) {
    pc < |p| && p[pc] == x
  }

  /** One step of a run that falls through. */
  lemma RunNext(p: seq<Asm>, pc: nat, m: Machine, fuel: nat, m': Machine)
    requires pc < |p| && Exec(p[pc], m) == Continue(m')
    ensures Run(p, pc, m, fuel + 1) == Run(p, pc + 1, m', fuel)
  {
  }

  /** A jump taken lands on the line `j` marking its target. */
  lemma RunJump(p: seq<Asm>, pc: nat, m: Machine, fuel: nat, k: JumpKind, t: Target, j: nat)
    requires At(p, pc, Jump(k, t)) && Taken(k, m.flags) && Locate(p, t) == Some(j)
    ensures Run(p, pc, m, fuel + 1) == Run(p, j, m, fuel)
  {
  }

  /** A jump not taken falls through. */
  lemma RunFall(p: seq<Asm>, pc: nat, m: Machine, fuel: nat, k: JumpKind, t: Target)
    requires At(p, pc, Jump(k, t)) && !Taken(k, m.flags)
    ensures Run(p, pc, m, fuel + 1) == Run(p, pc + 1, m, fuel)
  {
  }

  /** A `testl` step: the flags compare the register with zero. */
  lemma RunTest(p: seq<Asm>, pc: nat, m: Machine, fuel: nat, r: Reg)
    requires At(p, pc, Test(r))
    ensures Run(p, pc, m, fuel + 1) == Run(p, pc + 1, m.(flags := Flags(Signed(RegOf(m, r)), 0)), fuel)
  {
  }

  /** A label line does nothing. */
  lemma RunMark(p: seq<Asm>, pc: nat, m: Machine, fuel: nat, t: Target)
    requires At(p, pc, Mark(t))
    ensures Run(p, pc, m, fuel + 1) == Run(p, pc + 1, m, fuel)
  {
  }

  /** A `movl $v` step. */
  lemma RunImm(p: seq<Asm>, pc: nat, m: Machine, fuel: nat, v: int, d: Reg, long: bool)
    requires At(p, pc, Imm(v, d, long))
    ensures Run(p, pc, m, fuel + 1) == Run(p, pc + 1, WithReg(m, d, Wrap(v)), fuel)
  {
  }

  /** A load step. */
  lemma RunLoad(p: seq<Asm>, pc: nat, m: Machine, fuel: nat, a: Addr, r: Reg)
    requires At(p, pc, Load(a, r))
    ensures Run(p, pc, m, fuel + 1) == Run(p, pc + 1, WithReg(m, r, Peek(m, CellOf(a))), fuel)
  {
  }

  /** A store step. */
  lemma RunStoreStep(p: seq<Asm>, pc: nat, m: Machine, fuel: nat, r: Reg, a: Addr)
    requires At(p, pc, Store(r, a))
    ensures Run(p, pc, m, fuel + 1) == Run(p, pc + 1, m.(mem := m.mem[CellOf(a) := RegOf(m, r)]), fuel)
  {
  }

  /** A register-to-register move. */
  lemma RunMove(p: seq<Asm>, pc: nat, m: Machine, fuel: nat, s: Reg, d: Reg)
    requires At(p, pc, Move(s, d))
    ensures Run(p, pc, m, fuel + 1) == Run(p, pc + 1, WithReg(m, d, RegOf(m, s)), fuel)
  {
  }

  /** A `cmpl` step: the flags compare the destination with the source. */
  lemma RunCmp(p: seq<Asm>, pc: nat, m: Machine, fuel: nat, s: Reg, d: Reg)
    requires At(p, pc, Cmp(s, d))
    ensures Run(p, pc, m, fuel + 1) == Run(p, pc + 1, m.(flags := Flags(Signed(RegOf(m, d)), Signed(RegOf(m, s)))), fuel)
  {
  }

  /** An arithmetic step on `%eax` and `%edx`. */
  lemma RunArith(p: seq<Asm>, pc: nat, m: Machine, fuel: nat, k: ArithOp)
    requires At(p, pc, Arith(k))
    ensures Run(p, pc, m, fuel + 1) ==
            Run(p, pc + 1, WithReg(m, Eax, Wrap(ArithValue(k, Signed(RegOf(m, Eax)), Signed(RegOf(m, Edx))))), fuel)
  {
  }

  /** A `set<cc>` step. */
  lemma RunSet(p: seq<Asm>, pc: nat, m: Machine, fuel: nat, c: Cond)
    requires At(p, pc, SetCond(c))
    ensures Run(p, pc, m, fuel + 1) == Run(p, pc + 1, SetLow(m, c), fuel)
  {
  }

  /** A `movzbl` step. */
  lemma RunMovzbl(p: seq<Asm>, pc: nat, m: Machine, fuel: nat)
    requires At(p, pc, Movzbl)
    ensures Run(p, pc, m, fuel + 1) == Run(p, pc + 1, WithReg(m, Eax, RegOf(m, Eax) % 256), fuel)
  {
  }

  /** A `cdq` step. */
  lemma RunCdq(p: seq<Asm>, pc: nat, m: Machine, fuel: nat)
    requires At(p, pc, Cdq)
    ensures Run(p, pc, m, fuel + 1) ==
            Run(p, pc + 1, WithReg(m, Edx, if RegOf(m, Eax) < 0x8000_0000 then 0 else Word - 1), fuel)
  {
  }

  // ---------------------------------------------------------------------
  // Expressions (asm.c:31-125)
  // ---------------------------------------------------------------------

  /** The counters `asm_print_tac_node` and `asm_print_expr` keep in statics. */
  datatype EmitState = EmitState(argc: nat, orLabels: nat)

  /** Lines written and the counters afterwards. */
  datatype Emitted = Emitted(lines: seq<Asm>, state: EmitState)

  predicate IsComparison(op: Opcode) {
    op == TLt || op == TGt || op == TGe || op == TLe || op == TEq || op == TNe
  }

  /** The opcodes `asm_print_tac_node` hands to `asm_print_expr` (asm.c:341-353). */
  predicate IsExprOp(op: Opcode) {
    IsComparison(op) || op == TAdd || op == TSub || op == TMul || op == TDiv || op == TOr || op == TAnd
  }

  /** The condition code `asm_print_cmp` selects for a comparison. */
  function CondOf(op: Opcode): Cond
    requires IsComparison(op)
  {
    match op
    case TLt => Less
    case TGt => Greater
    case TGe => GreaterEq
    case TLe => LessEq
    case TEq => Equal
    case TNe => NotEqual
  }

  /**
   `asm_print_cmp` (asm.c:31-58): compare, set `%al` on the comparison's
   condition, widen to `%eax`; any other opcode aborts.
   */
  function CmpLines(op: Opcode): (r: Result<seq<Asm>>)
    ensures r.Ok? <==> IsComparison(op)
    ensures r.Fail? ==> r.fault == NotAComparison
    ensures r.Ok? ==> |r.value| == 3 && r.value[0] == Cmp(Edx, Eax) && r.value[2] == Movzbl
  {
    if IsComparison(op) then Ok([Cmp(Edx, Eax), SetCond(CondOf(op)), Movzbl]) else Fail(NotAComparison)
  }

  /** Distinct comparisons are emitted differently. */
  lemma CmpLinesInjective(a: Opcode, b: Opcode)
    requires IsComparison(a) && IsComparison(b) && a != b
    ensures CmpLines(a).value != CmpLines(b).value
  {
    assert CmpLines(a).value[1] != CmpLines(b).value[1];
  }

  /** What the source language's comparisons mean on signed values. */
  predicate Compare(op: Opcode, x: int, y: int)
    requires IsComparison(op)
  {
    match op
    case TLt => x < y
    case TGt => x > y
    case TGe => x >= y
    case TLe => x <= y
    case TEq => x == y
    case TNe => x != y
  }

  function Truth(b: bool): Word32 {
    if b then 1 else 0
  }

  /**
   The value each binary operator stores, on 32-bit two's-complement cells:
   wrapping arithmetic, C's truncating division (None where the processor's
   divide error strikes), 0/1 comparisons, `or` as "either is non-zero" and
   `and` as "the two cells are equal".
   */
  function Evaluate(op: Opcode, a: Word32, b: Word32): Option<Word32>
    requires IsExprOp(op)
  {
    var x, y := Signed(a), Signed(b);
    if IsComparison(op) then Some(Truth(Compare(op, x, y)))
    else match op
      case TAdd => Some(Wrap(x + y))
      case TSub => Some(Wrap(x - y))
      case TMul => Some(Wrap(x * y))
      case TDiv =>
        if y == 0 then None
        else
          var q := TruncDiv(x, y);
          if q >= 0x8000_0000 then None else Some(Wrap(q))
      case TOr => Some(Truth(a != 0 || b != 0))
      case TAnd => Some(Truth(a == b))
  }

  /** The operator-specific middle of `asm_print_expr`; `n` is the next `or` label number. */
  function ExprBody(op: Opcode, n: nat): (r: Result<seq<Asm>>)
    ensures r.Ok? <==> IsExprOp(op)
    ensures r.Fail? ==> r.fault == NotAnExpression
  {
    if IsComparison(op) then CmpLines(op)
    else match op
      case TAdd => Ok([Arith(AddL)])
      case TSub => Ok([Arith(SubL)])
      case TMul => Ok([Arith(IMulL)])
      case TDiv => Ok([Move(Eax, Ebx), Move(Edx, Ecx), Cdq, IDiv(Ecx)])
      case TOr => Ok(OrBody(n))
      case TAnd => Ok([Cmp(Eax, Edx), SetCond(Equal), Movzbl])
      case _ => Fail(NotAnExpression)
  }

  /** `or`: branch to 1 when either operand is non-zero, else 0, on three fresh local labels. */
  function OrBody(n: nat): seq<Asm> {
    [Test(Eax), Jump(IfNotEqual, Local(OrTrue(n))),
     Test(Edx), Jump(IfEqual, Local(OrFalse(n + 1))),
     Mark(Local(OrTrue(n))), Imm(1, Eax, true), Jump(Always, Local(OrFinish(n + 2))),
     Mark(Local(OrFalse(n + 1))), Imm(0, Eax, false),
     Mark(Local(OrFinish(n + 2)))]
  }

  /**
   `asm_print_expr` (asm.c:60-125): three operands required; load both
   operands, compute, store into the destination.
   */
  function ExprLines(i: Instr, st: EmitState): (r: Result<Emitted>)
    ensures r.Ok? <==> i.ans.Some? && i.op1.Some? && i.op2.Some? && IsExprOp(i.op)
    ensures r.Fail? ==> r.fault == (if i.ans.Some? && i.op1.Some? && i.op2.Some? then NotAnExpression else NullHead)
    ensures r.Ok? ==> r.value.state == st.(orLabels := st.orLabels + if i.op == TOr then 3 else 0)
  {
    var t :- ValidateOps(Some(i), 3);
    var body :- ExprBody(t.op, st.orLabels);
    var lines := [Load(Whole(t.op1.value), Eax), Load(Whole(t.op2.value), Edx)] + body + [Store(Eax, Whole(t.ans.value))];
    Ok(Emitted(lines, st.(orLabels := st.orLabels + if t.op == TOr then 3 else 0)))
  }

  /**
   Running `p` from the first line ends normally with `v` stored in cell `c`
   and every other cell as it was, or, when `v` is None, traps.
   */
  ghost predicate Stores(p: seq<Asm>, m: Machine, c: Cell, v: Option<Word32>) {
    var o := Run(p, 0, m, |p|);
    match v
    case None => o.Trapped?
    case Some(x) => o.Halted? && o.m.mem == m.mem[c := x]
  }

  /** After the two operand loads. */
  function Loaded(m: Machine, x: string, y: string): (r: Machine)
    ensures RegOf(r, Eax) == Peek(m, Cell(x, 0)) && RegOf(r, Edx) == Peek(m, Cell(y, 0))
    ensures r.mem == m.mem && r.flags == m.flags
  {
    WithReg(WithReg(m, Eax, Peek(m, Cell(x, 0))), Edx, Peek(m, Cell(y, 0)))
  }

  /** Every expression block starts with the same two loads. */
  lemma RunLoads(p: seq<Asm>, x: string, y: string, m: Machine, fuel: nat)
    requires At(p, 0, Load(Whole(x), Eax)) && At(p, 1, Load(Whole(y), Edx))
    ensures Run(p, 0, m, fuel + 2) == Run(p, 2, Loaded(m, x, y), fuel)
  {
    RunLoad(p, 0, m, fuel + 1, Whole(x), Eax);
    RunLoad(p, 1, WithReg(m, Eax, Peek(m, Cell(x, 0))), fuel, Whole(y), Edx);
  }



  /** The last line stores `%eax`; control then leaves the block. */
  lemma RunStore(p: seq<Asm>, pc: nat, ans: string, m: Machine, fuel: nat)
    requires pc + 1 == |p| && At(p, pc, Store(Eax, Whole(ans)))
    ensures Run(p, pc, m, fuel + 1) == Halted(m.(mem := m.mem[Cell(ans, 0) := RegOf(m, Eax)]))
  {
    RunStoreStep(p, pc, m, fuel, Eax, Whole(ans));
  }



  /** `setcc` then `movzbl` leaves exactly the condition bit in `%eax`. */
  lemma LowByte(e: Word32, bit: int)
    requires bit == 0 || bit == 1
    ensures 0 <= e - e % 256 + bit < Word
    ensures (e - e % 256 + bit) % 256 == bit
  {
    var k := e / 256;
    assert e - e % 256 == 256 * k;
    assert (256 * k + bit) % 256 == bit;
  }

  /** The block of an arithmetic operator, run. */
  lemma ArithBlockRuns(k: ArithOp, x: string, y: string, ans: string, m: Machine)
    ensures var a, b := Signed(Peek(m, Cell(x, 0))), Signed(Peek(m, Cell(y, 0)));
            var v := match k case AddL => a + b case SubL => a - b case IMulL => a * b;
            Stores([Load(Whole(x), Eax), Load(Whole(y), Edx), Arith(k), Store(Eax, Whole(ans))], m, Cell(ans, 0), Some(Wrap(v)))
  {
    var p := [Load(Whole(x), Eax), Load(Whole(y), Edx), Arith(k), Store(Eax, Whole(ans))];
    RunLoads(p, x, y, m, 2);
    var m2 := Loaded(m, x, y);
    RunArith(p, 2, m2, 1, k);
    RunStore(p, 3, ans, WithReg(m2, Eax, Wrap(ArithValue(k, Signed(RegOf(m2, Eax)), Signed(RegOf(m2, Edx))))), 0);
  }



  /** `set<cc>`, `movzbl`, store: the condition bit of the current flags stored. */
  lemma RunSetTail(p: seq<Asm>, pc: nat, c: Cond, ans: string, m: Machine, fuel: nat)
    requires pc + 3 == |p| && At(p, pc, SetCond(c)) && At(p, pc + 1, Movzbl) && At(p, pc + 2, Store(Eax, Whole(ans)))
    ensures EndsStoring(p, pc, m, fuel + 3, Cell(ans, 0), Truth(CondHolds(c, m.flags)))
  {
    var e, bit := RegOf(m, Eax), Truth(CondHolds(c, m.flags));
    LowByte(e, bit);
    var m1 := SetLow(m, c);
    RunSet(p, pc, m, fuel + 2, c);
    RunMovzbl(p, pc + 1, m1, fuel + 1);
    RunStore(p, pc + 2, ans, WithReg(m1, Eax, RegOf(m1, Eax) % 256), fuel);
  }



  /** The block of a comparison (and, with the operands swapped and `sete`, of `and`), run. */
  lemma SetBlockRuns(p: seq<Asm>, src: Reg, dst: Reg, c: Cond, x: string, y: string, ans: string, m: Machine)
    requires (src, dst) == (Edx, Eax) || (src, dst) == (Eax, Edx)
    requires |p| == 6 && At(p, 0, Load(Whole(x), Eax)) && At(p, 1, Load(Whole(y), Edx)) && At(p, 2, Cmp(src, dst))
    requires At(p, 3, SetCond(c)) && At(p, 4, Movzbl) && At(p, 5, Store(Eax, Whole(ans)))
    ensures var a, b := Peek(m, Cell(x, 0)), Peek(m, Cell(y, 0));
            var f := if dst == Eax then Flags(Signed(a), Signed(b)) else Flags(Signed(b), Signed(a));
            Stores(p, m, Cell(ans, 0), Some(Truth(CondHolds(c, f))))
  {
    var a, b := Peek(m, Cell(x, 0)), Peek(m, Cell(y, 0));
    var f := if dst == Eax then Flags(Signed(a), Signed(b)) else Flags(Signed(b), Signed(a));
    RunLoads(p, x, y, m, 4);
    RunCmpSet(p, src, dst, c, ans, Loaded(m, x, y), f);
  }

  /** From the comparison on: the flags `f` compare the two registers, and their condition bit is stored. */
  lemma RunCmpSet(p: seq<Asm>, src: Reg, dst: Reg, c: Cond, ans: string, m: Machine, f: Flags)
    requires |p| == 6 && At(p, 2, Cmp(src, dst))
    requires At(p, 3, SetCond(c)) && At(p, 4, Movzbl) && At(p, 5, Store(Eax, Whole(ans)))
    requires f == Flags(Signed(RegOf(m, dst)), Signed(RegOf(m, src)))
    ensures EndsStoring(p, 2, m, 4, Cell(ans, 0), Truth(CondHolds(c, f)))
  {
    RunCmp(p, 2, m, 3, src, dst);
    RunSetTail(p, 3, c, ans, m.(flags := f), 0);
  }



  /** After `cdq`, the 64-bit dividend `%edx:%eax` is `%eax`'s signed value. */
  lemma CdqDividend(e: Word32)
    ensures var hi := if e < 0x8000_0000 then 0 else Word - 1;
            var whole := hi * Word + e;
            (if whole < 0x8000_0000_0000_0000 then whole else whole - Word * Word) == Signed(e)
  {
  }

  /** A division's outcome: a trap on a zero divisor or an overflowing quotient, else the truncated quotient stored. */
  ghost predicate DivEnds(o: Outcome, a: int, b: int, mem: map<Cell, Word32>, c: Cell) {
    if b == 0 || TruncDiv(a, b) >= 0x8000_0000 then o.Trapped?
    else o.Halted? && o.m.mem == mem[c := Wrap(TruncDiv(a, b))]
  }

  /** `cdq`, `idivl %ecx`, store: the truncated quotient of `%eax` by `%ecx`, or a trap. */
  lemma RunDivTail(p: seq<Asm>, pc: nat, ans: string, m: Machine, fuel: nat, a: int, b: int)
    requires pc + 3 == |p| && At(p, pc, Cdq) && At(p, pc + 1, IDiv(Ecx)) && At(p, pc + 2, Store(Eax, Whole(ans)))
    requires a == Signed(RegOf(m, Eax)) && b == Signed(RegOf(m, Ecx))
    ensures DivEnds(Run(p, pc, m, fuel + 3), a, b, m.mem, Cell(ans, 0))
  {
    var ea := RegOf(m, Eax);
    var hi := if ea < 0x8000_0000 then 0 else Word - 1;
    var m1 := WithReg(m, Edx, hi);
    RunCdq(p, pc, m, fuel + 2);
    assert RegOf(m1, Eax) == ea && RegOf(m1, Edx) == hi && RegOf(m1, Ecx) == RegOf(m, Ecx);
    CdqDividend(ea);
    if b != 0 {
      var q := TruncDiv(a, b);
      TruncDivBound(a, b);
      if q < 0x8000_0000 {
        var m2 := WithReg(WithReg(m1, Eax, Wrap(q)), Edx, Wrap(a - b * q));
        assert Divide(m1, Ecx) == Continue(m2);
        RunNext(p, pc + 1, m1, fuel + 1, m2);
        RunStore(p, pc + 2, ans, m2, fuel);
      }
    }
  }



  /** The block of `/`, run: the truncated quotient, or a trap on a zero divisor or an overflowing quotient. */
  lemma DivBlockRuns(p: seq<Asm>, x: string, y: string, ans: string, m: Machine)
    requires |p| == 7 && At(p, 0, Load(Whole(x), Eax)) && At(p, 1, Load(Whole(y), Edx))
    requires At(p, 2, Move(Eax, Ebx)) && At(p, 3, Move(Edx, Ecx))
    requires At(p, 4, Cdq) && At(p, 5, IDiv(Ecx)) && At(p, 6, Store(Eax, Whole(ans)))
    ensures DivEnds(Run(p, 0, m, 7), Signed(Peek(m, Cell(x, 0))), Signed(Peek(m, Cell(y, 0))), m.mem, Cell(ans, 0))
  {
    RunLoads(p, x, y, m, 5);
    RunDivMoves(p, ans, Loaded(m, x, y), Signed(Peek(m, Cell(x, 0))), Signed(Peek(m, Cell(y, 0))));
  }

  /** From the two register copies on: the divisor moves to `%ecx`, then the tail divides. */
  lemma RunDivMoves(p: seq<Asm>, ans: string, m: Machine, a: int, b: int)
    requires |p| == 7 && At(p, 2, Move(Eax, Ebx)) && At(p, 3, Move(Edx, Ecx))
    requires At(p, 4, Cdq) && At(p, 5, IDiv(Ecx)) && At(p, 6, Store(Eax, Whole(ans)))
    requires a == Signed(RegOf(m, Eax)) && b == Signed(RegOf(m, Edx))
    ensures DivEnds(Run(p, 2, m, 5), a, b, m.mem, Cell(ans, 0))
  {
    var m3 := WithReg(m, Ebx, RegOf(m, Eax));
    RunMove(p, 2, m, 4, Eax, Ebx);
    var m4 := WithReg(m3, Ecx, RegOf(m3, Edx));
    RunMove(p, 3, m3, 3, Edx, Ecx);
    RunDivTail(p, 4, ans, m4, 0, a, b);
  }



  /** A 32-bit quotient is at least the most negative 32-bit value. */
  lemma TruncDivBound(a: int, b: int)
    requires -0x8000_0000 <= a < 0x8000_0000 && -0x8000_0000 <= b < 0x8000_0000 && b != 0
    ensures -0x8000_0000 <= TruncDiv(a, b) <= 0x8000_0000
  {
    var x: nat := if a < 0 then -a else a;
    var y: nat := if b < 0 then -b else b;
    DivAtMost(x, y);
    assert x <= 0x8000_0000;
    assert TruncDiv(a, b) == x / y || TruncDiv(a, b) == -(x / y);
  }

  lemma DivAtMost(x: nat, y: nat)
    requires y >= 1
    ensures 0 <= x / y <= x
  {
  }

  /** The block `ExprLines` emits for an expression operator, on the operand names given. */
  function ExprBlock(op: Opcode, n: nat, x: string, y: string, ans: string): seq<Asm>
    requires IsExprOp(op)
  {
    [Load(Whole(x), Eax), Load(Whole(y), Edx)] + ExprBody(op, n).value + [Store(Eax, Whole(ans))]
  }
  /** The `or` block, line by line, with its three labels located. */
  function OrLines(n: nat, x: string, y: string, ans: string): (p: seq<Asm>)
    ensures |p| == 13 && At(p, 0, Load(Whole(x), Eax)) && At(p, 1, Load(Whole(y), Edx))
    ensures At(p, 2, Test(Eax)) && At(p, 3, Jump(IfNotEqual, Local(OrTrue(n))))
    ensures At(p, 4, Test(Edx)) && At(p, 5, Jump(IfEqual, Local(OrFalse(n + 1))))
    ensures At(p, 6, Mark(Local(OrTrue(n)))) && At(p, 7, Imm(1, Eax, true)) && At(p, 8, Jump(Always, Local(OrFinish(n + 2))))
    ensures At(p, 9, Mark(Local(OrFalse(n + 1)))) && At(p, 10, Imm(0, Eax, false))
    ensures At(p, 11, Mark(Local(OrFinish(n + 2)))) && At(p, 12, Store(Eax, Whole(ans)))
    ensures Locate(p, Local(OrTrue(n))) == Some(6) && Locate(p, Local(OrFalse(n + 1))) == Some(9)
    ensures Locate(p, Local(OrFinish(n + 2))) == Some(11)
  {
    var p := [Load(Whole(x), Eax), Load(Whole(y), Edx),
              Test(Eax), Jump(IfNotEqual, Local(OrTrue(n))),
              Test(Edx), Jump(IfEqual, Local(OrFalse(n + 1))),
              Mark(Local(OrTrue(n))), Imm(1, Eax, true), Jump(Always, Local(OrFinish(n + 2))),
              Mark(Local(OrFalse(n + 1))), Imm(0, Eax, false),
              Mark(Local(OrFinish(n + 2))), Store(Eax, Whole(ans))];
    LocateFirst(p, Local(OrTrue(n)), 6);
    LocateFirst(p, Local(OrFalse(n + 1)), 9);
    LocateFirst(p, Local(OrFinish(n + 2)), 11);
    p
  }

  /** `ExprLines` lays the `or` block out as `OrLines` says. */
  lemma OrLayout(n: nat, x: string, y: string, ans: string)
    ensures ExprBlock(TOr, n, x, y, ans) == OrLines(n, x, y, ans)
  {
  }

  /**
   Run from line `pc` for `fuel` steps ends normally with the memory of `m`,
   except that cell `c` holds `v`.
   */
  ghost predicate EndsStoring(p: seq<Asm>, pc: nat, m: Machine, fuel: nat, c: Cell, v: Word32) {
    var o := Run(p, pc, m, fuel);
    o.Halted? && o.m.mem == m.mem[c := v]
  }

  /** From the first test: 1 stored when either register is non-zero, else 0. */
  lemma OrFromTests(n: nat, x: string, y: string, ans: string, m: Machine)
    ensures EndsStoring(OrLines(n, x, y, ans), 2, m, 11, Cell(ans, 0), Truth(RegOf(m, Eax) != 0 || RegOf(m, Edx) != 0))
  {
    var a := RegOf(m, Eax);
    var m3 := m.(flags := Flags(Signed(a), 0));
    RunTest(OrLines(n, x, y, ans), 2, m, 10, Eax);
    if a != 0 {
      OrFirstHolds(n, x, y, ans, m3);
    } else {
      OrSecondTest(OrLines(n, x, y, ans), Local(OrTrue(n)), Local(OrFalse(n + 1)), Local(OrFinish(n + 2)), ans, m3);
    }
  }

  /** `%eax` non-zero: the first jump goes straight to storing 1. */
  lemma OrFirstHolds(n: nat, x: string, y: string, ans: string, m: Machine)
    requires m.flags.left != m.flags.right
    ensures EndsStoring(OrLines(n, x, y, ans), 3, m, 10, Cell(ans, 0), 1)
  {
    var p := OrLines(n, x, y, ans);
    var tl := Local(OrTrue(n));
    RunJump(p, 3, m, 9, IfNotEqual, tl, 6);
    RunMark(p, 6, m, 8, tl);
    OneThenStore(p, Local(OrFinish(n + 2)), ans, m, 4);
  }

  /** `%eax` zero: the outcome is the test of `%edx`. */
  lemma OrSecondTest(p: seq<Asm>, tl: Target, fl: Target, done: Target, ans: string, m: Machine)
    requires m.flags.left == m.flags.right
    requires |p| == 13 && At(p, 3, Jump(IfNotEqual, tl)) && At(p, 4, Test(Edx)) && At(p, 5, Jump(IfEqual, fl))
    requires At(p, 6, Mark(tl)) && At(p, 7, Imm(1, Eax, true)) && At(p, 8, Jump(Always, done))
    requires Locate(p, fl) == Some(9) && At(p, 9, Mark(fl)) && At(p, 10, Imm(0, Eax, false))
    requires Locate(p, done) == Some(11) && At(p, 11, Mark(done)) && At(p, 12, Store(Eax, Whole(ans)))
    ensures EndsStoring(p, 3, m, 10, Cell(ans, 0), Truth(RegOf(m, Edx) != 0))
  {
    var b := RegOf(m, Edx);
    var m4 := m.(flags := Flags(Signed(b), 0));
    RunFall(p, 3, m, 9, IfNotEqual, tl);
    RunTest(p, 4, m, 8, Edx);
    if b != 0 {
      OrSecondHolds(p, fl, tl, done, ans, m4);
    } else {
      ZeroThenStore(p, fl, done, ans, m4);
    }
  }

  /** `%edx` non-zero: the second jump falls through to storing 1. */
  lemma OrSecondHolds(p: seq<Asm>, fl: Target, tl: Target, done: Target, ans: string, m: Machine)
    requires m.flags.left != m.flags.right
    requires |p| == 13 && At(p, 5, Jump(IfEqual, fl)) && At(p, 6, Mark(tl))
    requires At(p, 7, Imm(1, Eax, true)) && At(p, 8, Jump(Always, done)) && At(p, 11, Mark(done))
    requires Locate(p, done) == Some(11) && At(p, 12, Store(Eax, Whole(ans)))
    ensures EndsStoring(p, 5, m, 8, Cell(ans, 0), 1)
  {
    RunFall(p, 5, m, 7, IfEqual, fl);
    RunMark(p, 6, m, 6, tl);
    OneThenStore(p, done, ans, m, 2);
  }

  /** The false path of the `or` block: 0 stored. */
  lemma ZeroThenStore(p: seq<Asm>, fl: Target, done: Target, ans: string, m: Machine)
    requires m.flags.left == m.flags.right
    requires |p| == 13 && At(p, 5, Jump(IfEqual, fl)) && Locate(p, fl) == Some(9) && At(p, 9, Mark(fl))
    requires At(p, 10, Imm(0, Eax, false)) && At(p, 11, Mark(done)) && At(p, 12, Store(Eax, Whole(ans)))
    ensures EndsStoring(p, 5, m, 8, Cell(ans, 0), 0)
  {
    RunJump(p, 5, m, 7, IfEqual, fl, 9);
    RunMark(p, 9, m, 6, fl);
    var m5 := WithReg(m, Eax, 0);
    RunImm(p, 10, m, 5, 0, Eax, false);
    RunMark(p, 11, m5, 4, done);
    RunStore(p, 12, ans, m5, 3);
  }

  /** The block of `or`, run along each of its three paths. */
  lemma OrBlockRuns(n: nat, x: string, y: string, ans: string, m: Machine)
    ensures var a, b := Peek(m, Cell(x, 0)), Peek(m, Cell(y, 0));
            Stores(OrLines(n, x, y, ans), m, Cell(ans, 0), Some(Truth(a != 0 || b != 0)))
  {
    RunLoads(OrLines(n, x, y, ans), x, y, m, 11);
    OrFromTests(n, x, y, ans, Loaded(m, x, y));
  }

  /** The tail of the `or` block from its `movl $1`: 1 stored. */
  lemma OneThenStore(p: seq<Asm>, done: Target, ans: string, m: Machine, fuel: nat)
    requires |p| == 13 && At(p, 7, Imm(1, Eax, true)) && At(p, 8, Jump(Always, done)) && At(p, 11, Mark(done))
    requires Locate(p, done) == Some(11) && At(p, 12, Store(Eax, Whole(ans)))
    ensures EndsStoring(p, 7, m, fuel + 4, Cell(ans, 0), 1)
  {
    var m1 := WithReg(m, Eax, 1);
    RunImm(p, 7, m, fuel + 3, 1, Eax, true);
    RunJump(p, 8, m1, fuel + 2, Always, done, 11);
    RunMark(p, 11, m1, fuel + 1, done);
    RunStore(p, 12, ans, m1, fuel);
  }



  lemma ComparisonBlockComputes(op: Opcode, n: nat, x: string, y: string, ans: string, m: Machine)
    requires IsComparison(op)
    ensures Stores(ExprBlock(op, n, x, y, ans), m, Cell(ans, 0), Evaluate(op, Peek(m, Cell(x, 0)), Peek(m, Cell(y, 0))))
  {
    assert ExprBlock(op, n, x, y, ans) == [Load(Whole(x), Eax), Load(Whole(y), Edx), Cmp(Edx, Eax), SetCond(CondOf(op)), Movzbl, Store(Eax, Whole(ans))];
    SetBlockRuns(ExprBlock(op, n, x, y, ans), Edx, Eax, CondOf(op), x, y, ans, m);
  }

  lemma AndBlockComputes(n: nat, x: string, y: string, ans: string, m: Machine)
    ensures Stores(ExprBlock(TAnd, n, x, y, ans), m, Cell(ans, 0), Evaluate(TAnd, Peek(m, Cell(x, 0)), Peek(m, Cell(y, 0))))
  {
    assert ExprBlock(TAnd, n, x, y, ans) == [Load(Whole(x), Eax), Load(Whole(y), Edx), Cmp(Eax, Edx), SetCond(Equal), Movzbl, Store(Eax, Whole(ans))];
    SetBlockRuns(ExprBlock(TAnd, n, x, y, ans), Eax, Edx, Equal, x, y, ans, m);
  }

  lemma DivBlockComputes(n: nat, x: string, y: string, ans: string, m: Machine)
    ensures Stores(ExprBlock(TDiv, n, x, y, ans), m, Cell(ans, 0), Evaluate(TDiv, Peek(m, Cell(x, 0)), Peek(m, Cell(y, 0))))
  {
    assert ExprBlock(TDiv, n, x, y, ans) == [Load(Whole(x), Eax), Load(Whole(y), Edx), Move(Eax, Ebx), Move(Edx, Ecx), Cdq, IDiv(Ecx), Store(Eax, Whole(ans))];
    DivBlockRuns(ExprBlock(TDiv, n, x, y, ans), x, y, ans, m);
  }

  lemma ArithBlockComputes(op: Opcode, n: nat, x: string, y: string, ans: string, m: Machine)
    requires op == TAdd || op == TSub || op == TMul
    ensures Stores(ExprBlock(op, n, x, y, ans), m, Cell(ans, 0), Evaluate(op, Peek(m, Cell(x, 0)), Peek(m, Cell(y, 0))))
  {
    var k := if op == TAdd then AddL else if op == TSub then SubL else IMulL;
    assert ExprBlock(op, n, x, y, ans) == [Load(Whole(x), Eax), Load(Whole(y), Edx), Arith(k), Store(Eax, Whole(ans))];
    ArithBlockRuns(k, x, y, ans, m);
  }

  lemma OrBlockComputes(n: nat, x: string, y: string, ans: string, m: Machine)
    ensures Stores(ExprBlock(TOr, n, x, y, ans), m, Cell(ans, 0), Evaluate(TOr, Peek(m, Cell(x, 0)), Peek(m, Cell(y, 0))))
  {
    OrLayout(n, x, y, ans);
    OrBlockRuns(n, x, y, ans, m);
  }



  /**
   The expression block stores the operator's value in the destination and
   touches no other cell; division by zero, and the one quotient that
   overflows, trap instead.
   */
  lemma ExprComputes(i: Instr, st: EmitState, m: Machine)
    requires IsExprOp(i.op) && i.ans.Some? && i.op1.Some? && i.op2.Some?
    ensures ExprLines(i, st).Ok?
    ensures Stores(ExprLines(i, st).value.lines, m, Cell(i.ans.value, 0),
                   Evaluate(i.op, Peek(m, Cell(i.op1.value, 0)), Peek(m, Cell(i.op2.value, 0))))
  {
    var x, y, ans, n := i.op1.value, i.op2.value, i.ans.value, st.orLabels;
    assert ExprLines(i, st).value.lines == ExprBlock(i.op, n, x, y, ans);
    if IsComparison(i.op) {
      ComparisonBlockComputes(i.op, n, x, y, ans, m);
    } else if i.op == TAnd {
      AndBlockComputes(n, x, y, ans, m);
    } else if i.op == TOr {
      OrBlockComputes(n, x, y, ans, m);
    } else if i.op == TDiv {
      DivBlockComputes(n, x, y, ans, m);
    } else {
      ArithBlockComputes(i.op, n, x, y, ans, m);
    }
  }

  /** `or` over every pair of truth values: 0, 1, 1, 1. */
  lemma OrTruthTable()
    ensures Evaluate(TOr, 0, 0) == Some(0) && Evaluate(TOr, 0, 1) == Some(1)
    ensures Evaluate(TOr, 1, 0) == Some(1) && Evaluate(TOr, 1, 1) == Some(1)
  {
  }

  /** `and` compares its operands: over truth values it is 1 exactly when they agree. */
  lemma AndTruthTable()
    ensures Evaluate(TAnd, 0, 0) == Some(1) && Evaluate(TAnd, 0, 1) == Some(0)
    ensures Evaluate(TAnd, 1, 0) == Some(0) && Evaluate(TAnd, 1, 1) == Some(1)
  {
  }
}

=== FILE: findings.dfy ===
/**
 Two places where tac.c does not do what it evidently means to, each stated
 twice: the code as written, with the input that exposes it, and a corrected
 definition with the intended property proved.

 1. The argument walk of `tac_gencode_call` skips an operator argument's
    operand code by `tac_count_dups`, which follows only the predecessor and
    the predecessor's predecessor. That is the operand subtree's size only
    while at most one operand of each operator is itself compound, so
    `f((a+b)*(c+d))` passes three arguments and `f(a*(b*(c+d)))` walks off
    the head of the chain.
 2. `tac_gencode` drops NULL child fragments before `tac_gencode_cond` reads
    its three slots, so an empty then-branch lets the else-branch slide into
    the then-slot, and without an else the layout stops at the first NULL,
    leaving the conditional jump aimed at a label that is never emitted.
 */
module Findings {
  import opened Outcomes
  import opened Ir
  import opened Lowering
  import opened Symbols

  // ---------------------------------------------------------------------
  // Operand trees and their code
  // ---------------------------------------------------------------------

  /** An argument expression built from symbols and two-operand operators. */
  datatype Term = Leaf(key: string) | Bin(op: Opcode, tmp: string, left: Term, right: Term)

  predicate WellFormed(e: Term) {
    match e
    case Leaf(_) => true
    case Bin(op, _, l, r) => Operator(op) && WellFormed(l) && WellFormed(r)
  }

  /** Where the value of `e` ends up: the symbol itself or the operator's temporary. */
  function TermAns(e: Term): Option<string> {
    match e
    case Leaf(k) => Some(k)
    case Bin(_, t, _, _) => Some(t)
  }

  /** The chain lowering produces for `e`: operands first, operator last. */
  function Code(e: Term): (c: Chain)
    ensures |c| >= 1 && Ans(c) == TermAns(e)
  {
    match e
    case Leaf(k) => [Instr(TSym, Some(k), None, None)]
    case Bin(op, t, l, r) => Code(l) + Code(r) + [Instr(op, Some(t), TermAns(l), TermAns(r))]
  }

  /** `Code` is what the operator lowering builds from its operands' code. */
  lemma CodeIsLowering(op: Opcode, l: Term, r: Term, g: Gen)
    ensures LowerBinary(op, [Code(l), Code(r)], g).Ok?
    ensures LowerBinary(op, [Code(l), Code(r)], g).value.code == Code(Bin(op, DummyKey(g.dummies), l, r))
  {
  }

  // ---------------------------------------------------------------------
  // Finding 1, as written
  // ---------------------------------------------------------------------

  /** f((a+b)*(c+d)): the count skips four nodes where the operand has six. */
  lemma DupsUndercount()
    ensures var e := Bin(TMul, "t3", Bin(TAdd, "t1", Leaf("a"), Leaf("b")), Bin(TAdd, "t2", Leaf("c"), Leaf("d")));
            && |Code(e)| == 7
            && CountDups(Code(e), 6) == Ok(4)
            && ArgWalk(Code(e), 6, Some("f")) ==
               Ok([ArgInstr(Some("t3"), Some("f")), ArgInstr(Some("b"), Some("f")), ArgInstr(Some("a"), Some("f"))])
  {
    var e := Bin(TMul, "t3", Bin(TAdd, "t1", Leaf("a"), Leaf("b")), Bin(TAdd, "t2", Leaf("c"), Leaf("d")));
    var c := Code(e);
    assert c == [Instr(TSym, Some("a"), None, None), Instr(TSym, Some("b"), None, None),
                 Instr(TAdd, Some("t1"), Some("a"), Some("b")),
                 Instr(TSym, Some("c"), None, None), Instr(TSym, Some("d"), None, None),
                 Instr(TAdd, Some("t2"), Some("c"), Some("d")),
                 Instr(TMul, Some("t3"), Some("t1"), Some("t2"))];
    assert CountDups(c, 4) == Ok(0);
    assert CountDups(c, 3) == Ok(0);
    assert CountDups(c, 5) == Ok(2);
    assert CountDups(c, 6) == Ok(4);
    var f := Some("f");
    assert CountDups(c, 0) == Ok(0) && CountDups(c, 1) == Ok(0);
    assert ArgWalk(c, -1, f) == Ok([]);
    var a, b, t3 := ArgInstr(Some("a"), f), ArgInstr(Some("b"), f), ArgInstr(Some("t3"), f);
    assert [a] + [] == [a];
    assert ArgWalk(c, 0, f) == Ok([a]);
    assert [b] + [a] == [b, a];
    assert ArgWalk(c, 1, f) == Ok([b, a]);
    assert [t3] + [b, a] == [t3, b, a];
  }

  /** f(a*(b*(c+d))): the count exceeds the six preceding nodes and the walk crashes. */
  lemma DupsOvercount()
    ensures var e := Bin(TMul, "t3", Leaf("a"), Bin(TMul, "t2", Leaf("b"), Bin(TAdd, "t1", Leaf("c"), Leaf("d"))));
            && |Code(e)| == 7
            && CountDups(Code(e), 6) == Ok(8)
            && ArgWalk(Code(e), 6, Some("f")) == Fail(Crash)
  {
    var e := Bin(TMul, "t3", Leaf("a"), Bin(TMul, "t2", Leaf("b"), Bin(TAdd, "t1", Leaf("c"), Leaf("d"))));
    var c := Code(e);
    assert c == [Instr(TSym, Some("a"), None, None), Instr(TSym, Some("b"), None, None),
                 Instr(TSym, Some("c"), None, None), Instr(TSym, Some("d"), None, None),
                 Instr(TAdd, Some("t1"), Some("c"), Some("d")),
                 Instr(TMul, Some("t2"), Some("b"), Some("t1")),
                 Instr(TMul, Some("t3"), Some("a"), Some("t2"))];
    assert CountDups(c, 3) == Ok(0);
    assert CountDups(c, 4) == Ok(2);
    assert CountDups(c, 5) == Ok(4);
    assert CountDups(c, 6) == Ok(8);
  }

  // ---------------------------------------------------------------------
  // Finding 1, corrected
  // ---------------------------------------------------------------------

  /**
   The number of nodes of the operand tree whose result is node `i`: one for
   a non-operator; for an operator, itself, its right operand (ending just
   before it) and its left operand (ending just before the right one).
   */
  function Span(c: Chain, i: nat): (s: nat)
    requires i < |c|
    ensures 1 <= s <= i + 1
    decreases i
  {
    if !Operator(c[i].op) || i == 0 then 1
    else
      var right := Span(c, i - 1);
      if right == i then 1 + right
      else 1 + right + Span(c, i - 1 - right)
  }

  lemma Subslice(c: Chain, a: nat, b: nat, x: nat, y: nat)
    requires a <= b <= |c| && x <= y <= b - a
    ensures c[a..b][x..y] == c[a + x..a + y]
  {
    assert forall k :: 0 <= k < y - x ==> c[a..b][x..y][k] == c[a + x..a + y][k];
  }

  /** `Span` at an operator whose right operand spans `nr` nodes and whose left one spans `nl`. */
  lemma SpanStep(c: Chain, i: nat, nl: nat, nr: nat)
    requires 0 < i < |c| && Operator(c[i].op) && nr < i
    requires Span(c, i - 1) == nr && Span(c, i - 1 - nr) == nl
    ensures Span(c, i) == 1 + nr + nl
  {
  }

  /** The three parts of a window `x + y + [z]` of a chain, each where it sits. */
  lemma WindowParts(c: Chain, start: nat, x: Chain, y: Chain, z: Instr)
    requires start + |x| + |y| + 1 <= |c| && c[start..start + |x| + |y| + 1] == x + y + [z]
    ensures c[start..start + |x|] == x
    ensures c[start + |x|..start + |x| + |y|] == y
    ensures c[start + |x| + |y|] == z
  {
    var w := x + y + [z];
    var n := |w|;
    assert c[start + |x| + |y|] == c[start..start + n][|x| + |y|] == w[|x| + |y|];
    Subslice(c, start, start + n, 0, |x|);
    Subslice(c, start, start + n, |x|, |x| + |y|);
    assert w[..|x|] == x;
    assert w[|x|..|x| + |y|] == y;
  }

  /** Where an operator term's operands and its own node sit inside a chain holding its code. */
  lemma BinSlices(c: Chain, start: nat, e: Term)
    requires e.Bin? && start + |Code(e)| <= |c| && c[start..start + |Code(e)|] == Code(e)
    ensures |Code(e)| == |Code(e.left)| + |Code(e.right)| + 1
    ensures c[start..start + |Code(e.left)|] == Code(e.left)
    ensures c[start + |Code(e.left)|..start + |Code(e.left)| + |Code(e.right)|] == Code(e.right)
    ensures c[start + |Code(e)| - 1].op == e.op
  {
    WindowParts(c, start, Code(e.left), Code(e.right), Instr(e.op, Some(e.tmp), TermAns(e.left), TermAns(e.right)));
  }

  /** The span of a well-formed operand's last node is its whole code, wherever the code sits. */
  lemma {:induction false} SpanOfTerm(c: Chain, start: nat, e: Term)
    requires WellFormed(e)
    requires start + |Code(e)| <= |c| && c[start..start + |Code(e)|] == Code(e)
    ensures Span(c, start + |Code(e)| - 1) == |Code(e)|
    decreases e
  {
    if e.Bin? {
      BinSlices(c, start, e);
      SpanOfTerm(c, start + |Code(e.left)|, e.right);
      SpanOfTerm(c, start, e.left);
      SpanOfBin(c, start, e);
    } else {
      assert c[start] == Code(e)[0];
    }
  }

  /** The inductive step of `SpanOfTerm`: an operator spans its operands and itself. */
  lemma SpanOfBin(c: Chain, start: nat, e: Term)
    requires e.Bin? && Operator(e.op) && start + |Code(e)| <= |c|
    requires |Code(e)| == |Code(e.left)| + |Code(e.right)| + 1 && c[start + |Code(e)| - 1].op == e.op
    requires Span(c, start + |Code(e.left)| - 1) == |Code(e.left)|
    requires Span(c, start + |Code(e.left)| + |Code(e.right)| - 1) == |Code(e.right)|
    ensures Span(c, start + |Code(e)| - 1) == |Code(e)|
  {
    var nl, nr := |Code(e.left)|, |Code(e.right)|;
    SpanStep(c, start + nl + nr, nl, nr);
  }

  /** The argument walk with the skip the count was meant to compute. */
  function ArgWalkFixed(c: Chain, i: int, callee: Option<string>): (r: Chain)
    requires -1 <= i < |c|
    ensures |r| <= i + 1
    ensures forall j :: 0 <= j < |r| ==> r[j].op == TArg && r[j].op1 == callee
    decreases i + 1
  {
    if i == -1 then []
    else [ArgInstr(c[i].ans, callee)] + ArgWalkFixed(c, i - Span(c, i), callee)
  }

  /** The code of an argument list: each argument's code in order. */
  function ArgsCode(es: seq<Term>): Chain {
    if es == [] then [] else ArgsCode(es[..|es| - 1]) + Code(es[|es| - 1])
  }

  /** One `arg` per argument, last argument first, each passing the argument's value. */
  function ExpectedArgs(es: seq<Term>, callee: Option<string>): seq<Instr> {
    if es == [] then []
    else [ArgInstr(TermAns(es[|es| - 1]), callee)] + ExpectedArgs(es[..|es| - 1], callee)
  }

  /** The two parts of a prefix `p + q` of a chain, each where it sits. */
  lemma PrefixParts(c: Chain, p: Chain, q: Chain)
    requires |p| + |q| <= |c| && c[..|p| + |q|] == p + q
    ensures c[..|p|] == p && c[|p|..|p| + |q|] == q
  {
    Subslice(c, 0, |p| + |q|, 0, |p|);
    Subslice(c, 0, |p| + |q|, |p|, |p| + |q|);
    assert (p + q)[..|p|] == p;
    assert (p + q)[|p|..] == q;
  }

  /** With the corrected skip, every argument expression yields exactly one `arg`. */
  lemma {:induction false} FixedWalkOneArgPerArgument(es: seq<Term>, c: Chain, callee: Option<string>)
    requires forall k :: 0 <= k < |es| ==> WellFormed(es[k])
    requires |ArgsCode(es)| <= |c| && c[..|ArgsCode(es)|] == ArgsCode(es)
    ensures ArgWalkFixed(c, |ArgsCode(es)| - 1, callee) == ExpectedArgs(es, callee)
    decreases |es|
  {
    if es != [] {
      var init, e := es[..|es| - 1], es[|es| - 1];
      var p, ce := ArgsCode(init), Code(e);
      assert ArgsCode(es) == p + ce;
      PrefixParts(c, p, ce);
      FixedWalkStep(c, |p|, e, callee);
      assert ArgWalkFixed(c, |p| - 1, callee) == ExpectedArgs(init, callee) by {
        assert forall k :: 0 <= k < |init| ==> init[k] == es[k];
        FixedWalkOneArgPerArgument(init, c, callee);
      }
    }
  }

  /** The corrected walk at the end of one argument's code emits its `arg` and skips the rest of that code. */
  lemma FixedWalkStep(c: Chain, start: nat, e: Term, callee: Option<string>)
    requires WellFormed(e)
    requires start + |Code(e)| <= |c| && c[start..start + |Code(e)|] == Code(e)
    ensures ArgWalkFixed(c, start + |Code(e)| - 1, callee) == [ArgInstr(TermAns(e), callee)] + ArgWalkFixed(c, start - 1, callee)
  {
    var ce := Code(e);
    var i := start + |ce| - 1;
    SpanOfTerm(c, start, e);
    assert c[i].ans == TermAns(e) by {
      assert c[start..start + |ce|][|ce| - 1] == ce[|ce| - 1];
    }
  }

  /** `tac_gencode_call` with the corrected walk. */
  function LowerCallFixed(tarr: seq<Chain>, g: Gen): (r: Result<Lowered>)
    ensures r.Ok? <==> At(tarr, 0) != []
    ensures r.Fail? ==> r.fault == NullHead
    ensures r.Ok? ==> r.value.gen.dummies == g.dummies + 1 && Advances(g, r.value.gen)
  {
    var v := ValidateFrags(tarr, 1);
    if v.Fail? then Fail(v.fault)
    else
      var args, callee := At(tarr, 1), Ans(At(tarr, 0));
      var d := NewDummy(g);
      Ok(Lowered(args + ArgWalkFixed(args, |args| - 1, callee) + [Instr(TCall, Some(d.key), callee, None)], d.gen))
  }

  /** A call on well-formed arguments passes each argument exactly once, and never crashes. */
  lemma CallFixedArguments(callee: Chain, es: seq<Term>, g: Gen)
    requires callee != [] && forall k :: 0 <= k < |es| ==> WellFormed(es[k])
    ensures var r := LowerCallFixed([callee, ArgsCode(es)], g);
            && r.Ok?
            && r.value.code == ArgsCode(es) + ExpectedArgs(es, Ans(callee)) +
                               [Instr(TCall, Some(DummyKey(g.dummies)), Ans(callee), None)]
  {
    var tarr := [callee, ArgsCode(es)];
    assert At(tarr, 0) == callee && At(tarr, 1) == ArgsCode(es);
    CallFixedCode(tarr, g);
    FixedWalkOverArguments(es, Ans(callee));
  }

  /** The corrected call lowering, laid out on the fragments as given. */
  lemma CallFixedCode(tarr: seq<Chain>, g: Gen)
    requires At(tarr, 0) != []
    ensures var r, args, callee := LowerCallFixed(tarr, g), At(tarr, 1), Ans(At(tarr, 0));
            && r.Ok?
            && r.value.code == args + ArgWalkFixed(args, |args| - 1, callee) + [Instr(TCall, Some(DummyKey(g.dummies)), callee, None)]
  {
  }

  /** The corrected walk over exactly the arguments' code. */
  lemma FixedWalkOverArguments(es: seq<Term>, callee: Option<string>)
    requires forall k :: 0 <= k < |es| ==> WellFormed(es[k])
    ensures ArgWalkFixed(ArgsCode(es), |ArgsCode(es)| - 1, callee) == ExpectedArgs(es, callee)
  {
    var args := ArgsCode(es);
    assert args[..|args|] == args;
    FixedWalkOneArgPerArgument(es, args, callee);
  }

  // ---------------------------------------------------------------------
  // Finding 2: conditionals after compaction
  // ---------------------------------------------------------------------

  /** Some instruction of `c` marks label `key`. */
  ghost predicate Defines(c: Chain, key: string) {
    exists j :: 0 <= j < |c| && c[j] == LabelInstr(key)
  }

  predicate IsJump(i: Instr) {
    i.op == TJmp || i.op == TJmpF
  }

  /** Every jump of `c` names a label that `c` marks. */
  ghost predicate JumpsLand(c: Chain) {
    forall j :: 0 <= j < |c| && IsJump(c[j]) ==> c[j].ans.Some? && Defines(c, c[j].ans.value)
  }

  /**
   As written, `if (x) {}` jumps to a label that is never emitted, and
   `if (x) {} else y` places the else-branch where the then-branch belongs,
   so it runs exactly when the condition holds.
   */
  lemma CondAfterCompaction(x: Chain, y: Chain, g: Gen)
    requires x != [] && y != [] && forall j :: 0 <= j < |x| ==> x[j].op != TLabel
    ensures var r := LowerCond(Compact([x, []]), g);
            && r.Ok? && r.value.code == x + [Instr(TJmpF, Some(LabelKey(g.labels)), Ans(x), None)]
            && !JumpsLand(r.value.code)
    ensures var r := LowerCond(Compact([x, [], y]), g);
            && r.Ok?
            && r.value.code == x + [Instr(TJmpF, Some(LabelKey(g.labels)), Ans(x), None)] + y +
                               [LabelInstr(LabelKey(g.labels))]
  {
    var none: Chain := [];
    assert Compact([x, none]) == [x] by {
      assert [x, none][1..] == [none];
      assert [none][1..] == [];
    }
    assert Compact([x, none, y]) == [x, y] by {
      assert [x, none, y][1..] == [none, y];
      assert [none, y][1..] == [y];
      assert [y][1..] == [];
    }
    var code := LowerCond([x], g).value.code;
    var jmpf := Instr(TJmpF, Some(LabelKey(g.labels)), Ans(x), None);
    assert code[|x|] == jmpf && IsJump(jmpf);
    forall j | 0 <= j < |code|
      ensures code[j] != LabelInstr(LabelKey(g.labels))
    {
      if j < |x| {
        assert code[j] == x[j];
      }
    }
  }

  /**
   `tac_gencode_cond` reading the three child slots before compaction, and
   splicing every slot of its layout in turn, as `tac_cat_tails` treats a
   NULL side, rather than stopping at the first NULL slot: an empty
   then-branch stays in its place and the label layout is complete.
   */
  function LowerCondFixed(cond: Chain, body: Chain, els: Chain, g: Gen): (r: Result<Lowered>)
    ensures r.Ok? <==> cond != []
    ensures r.Fail? ==> r.fault == NullHead
    ensures r.Ok? ==> Advances(g, r.value.gen) && r.value.gen.labels == g.labels + (if els == [] then 1 else 2)
    ensures r.Ok? ==>
              var l1, l2 := LabelKey(g.labels), LabelKey(g.labels + 1);
              var jmpf := Instr(TJmpF, Some(l1), Ans(cond), None);
              && (els == [] ==> r.value.code == cond + [jmpf] + body + [LabelInstr(l1)])
              && (els != [] ==> r.value.code == cond + [jmpf] + body + [Instr(TJmp, Some(l2), None, None), LabelInstr(l1)] +
                                                els + [LabelInstr(l2)])
  {
    if cond == [] then Fail(NullHead)
    else
      var l1 := NewLabel(g);
      var jmpf := Instr(TJmpF, Some(l1.key), Ans(cond), None);
      if els == [] then
        ThenSlots(cond, jmpf, body, LabelInstr(l1.key));
        Ok(Lowered(Flatten([cond, [jmpf], body, [LabelInstr(l1.key)]]), l1.gen))
      else
        var l2 := NewLabel(l1.gen);
        var jmp := Instr(TJmp, Some(l2.key), None, None);
        ElseSlots(cond, jmpf, body, jmp, LabelInstr(l1.key), els, LabelInstr(l2.key));
        Ok(Lowered(Flatten([cond, [jmpf], body, [jmp], [LabelInstr(l1.key)], els, [LabelInstr(l2.key)]]), l2.gen))
  }

  /**
   The corrected layout keeps every jump landing: when the branches' own jumps
   land, so do the conditional's, whichever branches are empty.
   */
  lemma CondFixedJumpsLand(cond: Chain, body: Chain, els: Chain, g: Gen)
    requires cond != [] && JumpsLand(cond) && JumpsLand(body) && JumpsLand(els)
    ensures JumpsLand(LowerCondFixed(cond, body, els, g).value.code)
  {
    if els == [] {
      var l1 := LabelKey(g.labels);
      var code := LowerCondFixed(cond, body, els, g).value.code;
      var jmpf := Instr(TJmpF, Some(l1), Ans(cond), None);
      JumpsReorder(cond, body, jmpf, l1, code);
    } else {
      CondFixedElseJumpsLand(cond, body, els, g);
    }
  }

  lemma CondFixedElseJumpsLand(cond: Chain, body: Chain, els: Chain, g: Gen)
    requires cond != [] && els != [] && JumpsLand(cond) && JumpsLand(body) && JumpsLand(els)
    ensures JumpsLand(LowerCondFixed(cond, body, els, g).value.code)
  {
    var l1, l2 := LabelKey(g.labels), LabelKey(g.labels + 1);
    var jmpf := Instr(TJmpF, Some(l1), Ans(cond), None);
    var jmp := Instr(TJmp, Some(l2), None, None);
    var code := LowerCondFixed(cond, body, els, g).value.code;
    CondFixedElseLaidOut(cond, body, els, g);
    ElseJumpsLand(cond, body, els, jmpf, jmp, l1, l2, code);
  }

  lemma CondFixedElseLaidOut(cond: Chain, body: Chain, els: Chain, g: Gen)
    requires cond != [] && els != []
    ensures var l1, l2 := LabelKey(g.labels), LabelKey(g.labels + 1);
            LowerCondFixed(cond, body, els, g).value.code ==
            cond + [Instr(TJmpF, Some(l1), Ans(cond), None)] + body +
            [Instr(TJmp, Some(l2), None, None), LabelInstr(l1)] + els + [LabelInstr(l2)]
  {
  }

  /** The corrected layout without an else-branch, spliced slot by slot. */
  lemma ThenSlots(cond: Chain, jmpf: Instr, body: Chain, mark: Instr)
    ensures Flatten([cond, [jmpf], body, [mark]]) == cond + [jmpf] + body + [mark]
  {
    var fs := [cond, [jmpf], body, [mark]];
    assert fs == [cond, [jmpf]] + [body, [mark]];
    FlattenAppend([cond, [jmpf]], [body, [mark]]);
    FlattenSmall(cond, [jmpf], []);
    FlattenSmall(body, [mark], []);
  }

  /** The corrected layout with an else-branch, spliced slot by slot. */
  lemma ElseSlots(cond: Chain, jmpf: Instr, body: Chain, jmp: Instr, m1: Instr, els: Chain, m2: Instr)
    ensures Flatten([cond, [jmpf], body, [jmp], [m1], els, [m2]]) ==
            cond + [jmpf] + body + [jmp, m1] + els + [m2]
  {
    var a, b, c := [cond, [jmpf], body], [[jmp], [m1]], [els, [m2]];
    assert [cond, [jmpf], body, [jmp], [m1], els, [m2]] == a + b + c;
    FlattenJoin(a, b, c);
    FlattenSmall(cond, [jmpf], body);
    FlattenSmall([jmp], [m1], []);
    FlattenSmall(els, [m2], []);
    assert [jmp] + [m1] == [jmp, m1];
  }

  /** Where the corrected conditional puts the else-branch: right after the false-jump's label. */
  lemma CondFixedElseLayout(cond: Chain, body: Chain, els: Chain, g: Gen)
    requires cond != [] && els != []
    ensures var code, l1 := LowerCondFixed(cond, body, els, g).value.code, LabelKey(g.labels);
            |code| == |cond| + |body| + |els| + 4 &&
            code[|cond| + 1 + |body| + 1] == LabelInstr(l1) &&
            code[|cond| + |body| + 3..|cond| + |body| + 3 + |els|] == els
  {
    var l1, l2 := LabelKey(g.labels), LabelKey(g.labels + 1);
    var jmpf := Instr(TJmpF, Some(l1), Ans(cond), None);
    var jmp := Instr(TJmp, Some(l2), None, None);
    var code := LowerCondFixed(cond, body, els, g).value.code;
    var front := cond + [jmpf] + body;
    assert code == front + [jmp, LabelInstr(l1)] + els + [LabelInstr(l2)];
    ElseLayout(front, jmp, LabelInstr(l1), els, [LabelInstr(l2)], code);
  }

  /** Where the else-branch and the label before it sit. */
  lemma ElseLayout(front: Chain, jmp: Instr, mark: Instr, els: Chain, back: Chain, code: Chain)
    requires code == front + [jmp, mark] + els + back
    ensures code[|front| + 1] == mark
    ensures code[|front| + 2..|front| + 2 + |els|] == els
  {
    assert code[|front| + 1] == [jmp, mark][1];
    assert forall k :: 0 <= k < |els| ==> code[|front| + 2..|front| + 2 + |els|][k] == els[k];
  }

  /** Jumps land in a chain when each jump's target label occurs somewhere in it. */
  lemma JumpsReorder(cond: Chain, body: Chain, jmpf: Instr, l: string, code: Chain)
    requires code == cond + [jmpf] + body + [LabelInstr(l)]
    requires JumpsLand(cond) && JumpsLand(body)
    requires jmpf.op == TJmpF && jmpf.ans == Some(l)
    ensures JumpsLand(code)
  {
    forall j | 0 <= j < |code| && IsJump(code[j])
      ensures code[j].ans.Some? && Defines(code, code[j].ans.value)
    {
      var last := |code| - 1;
      assert code[last] == LabelInstr(l);
      if j < |cond| {
        assert code[j] == cond[j];
        var k :| 0 <= k < |cond| && cond[k] == LabelInstr(cond[j].ans.value);
        assert code[k] == cond[k];
      } else if j == |cond| {
        assert code[j] == jmpf;

      } else {
        var m := j - |cond| - 1;
        assert code[j] == body[m];
        var k :| 0 <= k < |body| && body[k] == LabelInstr(body[m].ans.value);
        assert code[|cond| + 1 + k] == body[k];
      }
    }
  }

  lemma ElseJumpsLand(cond: Chain, body: Chain, els: Chain, jmpf: Instr, jmp: Instr, l1: string, l2: string,
                      code: Chain)
    requires code == cond + [jmpf] + body + [jmp, LabelInstr(l1)] + els + [LabelInstr(l2)]
    requires JumpsLand(cond) && JumpsLand(body) && JumpsLand(els)
    requires jmpf.op == TJmpF && jmpf.ans == Some(l1) && jmp.op == TJmp && jmp.ans == Some(l2)
    ensures JumpsLand(code)
  {
    var a := |cond| + 1 + |body|;
    var b := a + 2 + |els|;
    assert code[a + 1] == LabelInstr(l1);
    assert code[b] == LabelInstr(l2);
    forall j | 0 <= j < |code| && IsJump(code[j])
      ensures code[j].ans.Some? && Defines(code, code[j].ans.value)
    {
      if j < |cond| {
        assert code[j] == cond[j];
        var k :| 0 <= k < |cond| && cond[k] == LabelInstr(cond[j].ans.value);
        assert code[k] == cond[k];
      } else if j == |cond| {
        assert code[j] == jmpf;
      } else if j < a {
        var m := j - |cond| - 1;
        assert code[j] == body[m];
        var k :| 0 <= k < |body| && body[k] == LabelInstr(body[m].ans.value);
        assert code[|cond| + 1 + k] == body[k];
      } else if j == a {
        assert code[j] == jmp;
      } else if j == a + 1 {
        assert code[j] == LabelInstr(l1);
      } else if j < b {
        var m := j - a - 2;
        assert code[j] == els[m];
        var k :| 0 <= k < |els| && els[k] == LabelInstr(els[m].ans.value);
        assert code[a + 2 + k] == els[k];
      } else {
        assert code[j] == LabelInstr(l2);
      }
    }
  }
}

=== FILE: instructions.dfy ===
/**
 The instruction half of assembly emission (asm.c:148-407): the lines of one
 three-address instruction, and of a whole chain, head to tail, threading
 the two counters the C code keeps in statics: the argument index `_argc`,
 which an `arg` advances and a `call` resets, and the `or` label counter.

 A TAC operand is the key of its symbol-table entry, so what the C code
 reads through `thead->ans` (`hash_is_str`, `astinfo`) is looked up in the
 table by key.
 */
module Instructions {
  import opened Outcomes
  import opened Numerals
  import opened Syntax
  import opened Symbols
  import opened Ir
  import opened Emission
  import opened Spelling
  import Lowering
  import Findings

  // ---------------------------------------------------------------------
  // Argument names (asm.c:148-170)
  // ---------------------------------------------------------------------

  /** A parameter-list cell whose first child names the parameter. */
  predicate ArgCellNamed(cell: Node) {
    && Child(cell, 0).Some?
    && Child(Child(cell, 0).value, 0).Some?
    && Child(Child(cell, 0).value, 0).value.symbol.Some?
  }

  /** The name a parameter-list cell declares. */
  function ParamName(cell: Node): string
    requires ArgCellNamed(cell)
  {
    Child(Child(cell, 0).value, 0).value.symbol.value
  }

  /**
   `asm_get_argname` (asm.c:148-170): the `argc`-th `arg` instruction of a
   call (counting from 0) binds the cell `argc` places before the end of the
   parameter list. The call lowering emits its `arg`s last argument first,
   so the first `arg` meets the last parameter. A list of `MaxArgc` cells or
   more is refused, as is an `argc` past the last parameter.
   */
  function ArgName(params: Option<Node>, argc: nat): (r: Result<string>)
    ensures r.Ok? ==> params.Some? && argc < |Spine(params)| < MaxArgc
    ensures r.Fail? ==> r.fault in {ArgcMismatch, MaxArgcExceeded, NullHead, NullSymbol}
    ensures params.None? ==> r == Fail(ArgcMismatch)
  {
    if params.None? then Fail(ArgcMismatch)
    else
      var cells := Spine(params);
      var i := if |cells| < MaxArgc then |cells| else MaxArgc;
      if i >= MaxArgc then Fail(MaxArgcExceeded)
      else if argc >= i then Fail(ArgcMismatch)
      else
        var cell :- ValidateChildren(Some(cells[i - (argc + 1)]), 1);
        var param :- ValidateSymbol(Child(cell, 0), 1);
        Ok(ChildKey(param, 0))
  }

  /**
   Argument number `argc` binds the cell `argc` places before the end of
   the list, which must name its parameter; lists of `MaxArgc` cells or more
   and arguments past the last parameter are refused.
   */
  lemma ArgNameSpec(params: Option<Node>, argc: nat)
    ensures var r := ArgName(params, argc);
            && (r.Ok? <==> params.Some? && argc < |Spine(params)| < MaxArgc
                           && ArgCellNamed(Spine(params)[|Spine(params)| - 1 - argc]))
            && (r.Ok? ==> r.value == ParamName(Spine(params)[|Spine(params)| - 1 - argc]))
            && (r.Fail? ==>
                  && (r.fault == MaxArgcExceeded <==> params.Some? && |Spine(params)| >= MaxArgc)
                  && (r.fault == ArgcMismatch <==> params.None? || (|Spine(params)| < MaxArgc && argc >= |Spine(params)|))
                  && (params.Some? && argc < |Spine(params)| < MaxArgc ==> r.fault == NullHead || r.fault == NullSymbol))
  {
  }

  /** The parameter list a function's entry records, if the key is known. */
  function Params(t: Table, key: string): Option<Node> {
    match Find(t, key)
    case Some(e) => e.astinfo
    case None => None
  }

  // ---------------------------------------------------------------------
  // One instruction (asm.c:172-398)
  // ---------------------------------------------------------------------

  /** How many operand slots are validated before an opcode's lines are written. */
  function Arity(op: Opcode): nat {
    if IsExprOp(op) || op == TVRead || op == TVCopy then 3
    else if op == TJmpF || op == TCopy || op == TArg || op == TCall then 2
    else if op == TLabel || op == TJmp || op == TFStart || op == TRet || op == TPrint || op == TRead then 1
    else 0
  }

  /** The storage a generated label names. */
  function LabelTarget(key: string): Target {
    Named(LabelPrefix + key)
  }

  /** The string constants of `printf` and `scanf` that `asm_print_fixed_init` defines. */
  const PrintfInt: string := "ufrgs_printf_int"
  const ScanfInt: string := "ufrgs_scanf_int"

  /**
   `asm_print_print` (asm.c:256-289): a string literal is printed from the
   storage named by its sanitized unquoted spelling, anything else through
   the integer format.
   */
  function PrintLines(key: string, t: Table): (r: Result<seq<Asm>>)
    ensures r.Fail? ==> r.fault == Crash && IsStr(Find(t, key)) && |key| < 2
    ensures r.Ok? ==> |r.value| == 6 && r.value[1] == Move(Eax, Esi) && r.value[4] == CallTo("printf@PLT")
  {
    var str := IsStr(Find(t, key));
    var name :- if str then (var copy :- StripQuotes(key); Ok(Sanitize(copy))) else Ok(key);
    Ok([Load(Whole(name), Eax), Move(Eax, Esi),
        Lea(if str then VarPrefix + name else PrintfInt, Rdi),
        Imm(0, Eax, true), CallTo("printf@PLT"), Imm(0, Eax, true)])
  }

  /**
   `print` of a string literal loads and passes the storage named by the
   sanitized unquoted spelling, and overruns when the spelling is shorter
   than two characters; `print` of anything else passes the integer format.
   */
  lemma PrintLinesSpec(key: string, t: Table)
    ensures var r := PrintLines(key, t);
            && (r.Fail? <==> IsStr(Find(t, key)) && |key| < 2)
            && (r.Fail? ==> r.fault == Crash)
            && (r.Ok? ==> |r.value| == 6 && r.value[1] == Move(Eax, Esi) && r.value[4] == CallTo("printf@PLT"))
            && (r.Ok? && IsStr(Find(t, key)) ==>
                  var name := Sanitize(key[1..|key| - 1]);
                  r.value[0] == Load(Whole(name), Eax) && r.value[2] == Lea(VarPrefix + name, Rdi))
            && (r.Ok? && !IsStr(Find(t, key)) ==>
                  r.value[0] == Load(Whole(key), Eax) && r.value[2] == Lea(PrintfInt, Rdi))
  {
  }

  /** The counters after an instruction of opcode `op`. */
  function After(op: Opcode, st: EmitState): EmitState {
    EmitState(if op == TArg then st.argc + 1 else if op == TCall then 0 else st.argc,
              st.orLabels + if op == TOr then 3 else 0)
  }

  /**
   `asm_print_tac_node` (asm.c:291-398): the lines of one instruction. The
   operand slots its case needs must be present; `sym` writes nothing (its
   storage comes from the table) and `pow`, `not` and `unk` only log.
   */
  function InstrLines(i: Instr, st: EmitState, t: Table): (r: Result<Emitted>)
    ensures ValidateOps(Some(i), Arity(i.op)).Fail? ==> r == Fail(NullHead)
    ensures IsExprOp(i.op) ==> r == ExprLines(i, st)
  {
    var v :- ValidateOps(Some(i), Arity(i.op));
    if IsExprOp(i.op) then ExprLines(i, st)
    else if i.op == TPrint then
      var lines :- PrintLines(i.ans.value, t);
      Ok(Emitted(lines, st))
    else if i.op == TArg then
      var name :- ArgName(Params(t, i.op1.value), st.argc);
      Ok(Emitted([Load(Whole(i.ans.value), Eax), Store(Eax, Whole(name))], st.(argc := st.argc + 1)))
    else if i.op == TCall then
      Ok(Emitted([CallTo(i.op1.value), Store(Eax, Whole(i.ans.value))], st.(argc := 0)))
    else Ok(Emitted(PlainLines(i), st))
  }

  /**
   The cases of `asm_print_tac_node` that only move values or control and
   read no counter or table.
   */
  function PlainLines(i: Instr): seq<Asm>
    requires ValidateOps(Some(i), Arity(i.op)).Ok?
  {
    match i.op
    case TLabel => [Mark(LabelTarget(i.ans.value))]
    case TVRead => [Load(Elem(4 * Strtol16(i.op2.value), i.op1.value), Eax), Store(Eax, Whole(i.ans.value))]
    case TVCopy => [Load(Whole(i.op2.value), Eax), Store(Eax, Elem(4 * Strtol16(i.op1.value), i.ans.value))]
    case TJmpF => [Load(Whole(i.op1.value), Eax), Test(Eax), Jump(IfEqual, LabelTarget(i.ans.value))]
    case TJmp => [Jump(Always, LabelTarget(i.ans.value))]
    case TFStart => [Mark(Named(i.ans.value)), PushFrame, SetFrame]
    case TRet => [Load(Whole(i.ans.value), Eax), PopFrame, Asm.Ret]
    case TFEnd => [PopFrame, Asm.Ret]
    case TCopy => [Load(Whole(i.op1.value), Eax), Store(Eax, Whole(i.ans.value))]
    case TRead => [Lea(VarPrefix + i.ans.value, Rsi), Lea(ScanfInt, Rdi), Imm(0, Eax, true), CallTo("__isoc99_scanf@PLT")]
    case _ => []
  }

  /** The cases that read no counter or table leave the counters alone. */
  lemma PlainCase(i: Instr, st: EmitState, t: Table)
    requires !IsExprOp(i.op) && i.op !in {TPrint, TArg, TCall}
    requires ValidateOps(Some(i), Arity(i.op)).Ok?
    ensures InstrLines(i, st, t) == Ok(Emitted(PlainLines(i), st))
  {
    assert ValidateOps(Some(i), Arity(i.op)) == Ok(i);
  }

  /** Only `arg` and `call` touch the argument counter, only `or` the label counter. */
  lemma InstrCounters(i: Instr, st: EmitState, t: Table)
    ensures InstrLines(i, st, t).Ok? ==> InstrLines(i, st, t).value.state == After(i.op, st)
  {
    if ValidateOps(Some(i), Arity(i.op)).Ok? {
      if i.op == TPrint {
        PrintCase(i, st, t);
      } else if i.op == TArg {
        ArgCase(i, st, t);
      } else if i.op == TCall {
        CallCase(i, st, t);
      } else if !IsExprOp(i.op) {
        PlainCase(i, st, t);
      }
    }
  }

  /** `sym`, `pow`, `not` and `unk` write nothing and leave the counters alone. */
  lemma SilentOps(i: Instr, st: EmitState, t: Table)
    requires i.op == TSym || i.op == TPow || i.op == TNot || i.op == TUnk
    ensures InstrLines(i, st, t) == Ok(Emitted([], st))
  {
    assert PlainLines(i) == [] by {
      assert ValidateOps(Some(i), Arity(i.op)).Ok?;
    }
    PlainCase(i, st, t);
  }


  /**
   Past the operand check, an instruction fails only in `print`, whose
   quote stripping overruns on a spelling shorter than two characters, and
   in `arg`, whose parameter lookup can miss.
   */
  lemma InstrFaults(i: Instr, st: EmitState, t: Table)
    requires InstrLines(i, st, t).Fail? && InstrLines(i, st, t).fault != NullHead
    ensures i.op == TPrint ==> InstrLines(i, st, t).fault == Crash
    ensures i.op == TArg ==> InstrLines(i, st, t).fault in {ArgcMismatch, MaxArgcExceeded, NullSymbol}
    ensures i.op == TPrint || i.op == TArg
  {
    if ValidateOps(Some(i), Arity(i.op)).Ok? {
      if i.op == TPrint {
        PrintCase(i, st, t);
        PrintLinesSpec(i.ans.value, t);
      } else if i.op == TArg {
        ArgCase(i, st, t);
        ArgNameSpec(Params(t, i.op1.value), st.argc);
      } else if i.op == TCall {
        CallCase(i, st, t);
      } else if !IsExprOp(i.op) {
        PlainCase(i, st, t);
      }
    }
  }

  /**
   `arg v, f` copies `v` into the parameter that argument number `argc`
   binds, as `asm_get_argname` finds it in the parameter list of `f`.
   */
  lemma ArgCase(i: Instr, st: EmitState, t: Table)
    requires i.op == TArg && ValidateOps(Some(i), 2).Ok?
    ensures match ArgName(Params(t, i.op1.value), st.argc)
            case Fail(f) => InstrLines(i, st, t) == Fail(f)
            case Ok(name) =>
              InstrLines(i, st, t) ==
              Ok(Emitted([Load(Whole(i.ans.value), Eax), Store(Eax, Whole(name))], st.(argc := st.argc + 1)))
  {
    assert !IsExprOp(i.op) && Arity(i.op) == 2;
    assert ValidateOps(Some(i), 2) == Ok(i);
  }

  // ---------------------------------------------------------------------
  // What the data-moving instructions do
  // ---------------------------------------------------------------------

  /** A load into `%eax` followed by a store from it copies one cell to another. */
  lemma MoveRuns(src: Addr, dst: Addr, m: Machine)
    ensures var p := [Load(src, Eax), Store(Eax, dst)];
            Stores(p, m, CellOf(dst), Some(Peek(m, CellOf(src))))
  {
    var p := [Load(src, Eax), Store(Eax, dst)];
    RunLoad(p, 0, m, 1, src, Eax);
    RunStoreStep(p, 1, WithReg(m, Eax, Peek(m, CellOf(src))), 0, Eax, dst);
  }



  /** `x := y` copies the cell of `y` into the cell of `x`. */
  lemma CopyMoves(i: Instr, st: EmitState, t: Table, m: Machine)
    requires i.op == TCopy && i.ans.Some? && i.op1.Some?
    ensures InstrLines(i, st, t).Ok? && InstrLines(i, st, t).value.state == st
    ensures Stores(InstrLines(i, st, t).value.lines, m, Cell(i.ans.value, 0), Some(Peek(m, Cell(i.op1.value, 0))))
  {
    assert InstrLines(i, st, t).value.lines == [Load(Whole(i.op1.value), Eax), Store(Eax, Whole(i.ans.value))];
    MoveRuns(Whole(i.op1.value), Whole(i.ans.value), m);
  }

  /**
   `x := v[i]` reads the 4-byte element at byte `4 * i` of `v`, the index
   being the operand's spelling read as hexadecimal by `asm_strtol`.
   */
  lemma VectorReadMoves(i: Instr, st: EmitState, t: Table, m: Machine)
    requires i.op == TVRead && i.ans.Some? && i.op1.Some? && i.op2.Some?
    ensures InstrLines(i, st, t).Ok? && InstrLines(i, st, t).value.state == st
    ensures Stores(InstrLines(i, st, t).value.lines, m, Cell(i.ans.value, 0),
                   Some(Peek(m, Cell(i.op1.value, 4 * Strtol16(i.op2.value)))))
  {
    var src := Elem(4 * Strtol16(i.op2.value), i.op1.value);
    assert InstrLines(i, st, t).value.lines == [Load(src, Eax), Store(Eax, Whole(i.ans.value))];
    MoveRuns(src, Whole(i.ans.value), m);
  }

  /** `v[i] := y` writes the cell of `y` into the 4-byte element at byte `4 * i` of `v`. */
  lemma VectorWriteMoves(i: Instr, st: EmitState, t: Table, m: Machine)
    requires i.op == TVCopy && i.ans.Some? && i.op1.Some? && i.op2.Some?
    ensures InstrLines(i, st, t).Ok? && InstrLines(i, st, t).value.state == st
    ensures Stores(InstrLines(i, st, t).value.lines, m, Cell(i.ans.value, 4 * Strtol16(i.op1.value)),
                   Some(Peek(m, Cell(i.op2.value, 0))))
  {
    var dst := Elem(4 * Strtol16(i.op1.value), i.ans.value);
    assert InstrLines(i, st, t).value.lines == [Load(Whole(i.op2.value), Eax), Store(Eax, dst)];
    MoveRuns(Whole(i.op2.value), dst, m);
  }

  // ---------------------------------------------------------------------
  // What the spliced lowerings emit
  // ---------------------------------------------------------------------

  /** The instruction a fragment ends with. */
  function Last(c: Chain): Instr
    requires c != []
  {
    c[|c| - 1]
  }

  /**
   The copy that `tac_gencode_attr` puts last moves the value's result into
   the target's cell; a missing operand makes the copy abort.
   */
  lemma AttrStoresValue(tarr: seq<Chain>, g: Lowering.Gen, st: EmitState, t: Table, m: Machine)
    requires Lowering.LowerAttr(tarr, g).Ok?
    ensures var e := InstrLines(Last(Lowering.LowerAttr(tarr, g).value.code), st, t);
            && (Ans(tarr[0]).None? || Ans(tarr[1]).None? ==> e == Fail(NullHead))
            && (Ans(tarr[0]).Some? && Ans(tarr[1]).Some? ==>
                  e.Ok? && e.value.state == st &&
                  Stores(e.value.lines, m, Cell(Ans(tarr[0]).value, 0), Some(Peek(m, Cell(Ans(tarr[1]).value, 0)))))
  {
    var i := Last(Lowering.LowerAttr(tarr, g).value.code);
    assert i == Instr(TCopy, Ans(tarr[0]), Ans(tarr[1]), None);
    if i.ans.Some? && i.op1.Some? {
      CopyMoves(i, st, t, m);
    }
  }

  /**
   The vector store that `tac_gencode_vattr` puts last writes the value's
   result into the element the index operand selects; a missing operand
   makes it abort.
   */
  lemma VAttrStoresElement(tarr: seq<Chain>, g: Lowering.Gen, st: EmitState, t: Table, m: Machine)
    requires Lowering.LowerVAttr(tarr, g).Ok?
    ensures var e := InstrLines(Last(Lowering.LowerVAttr(tarr, g).value.code), st, t);
            var v, k, x := Ans(tarr[0]), Ans(tarr[1]), Ans(tarr[2]);
            && (v.None? || k.None? || x.None? ==> e == Fail(NullHead))
            && (v.Some? && k.Some? && x.Some? ==>
                  e.Ok? && e.value.state == st &&
                  Stores(e.value.lines, m, Cell(v.value, 4 * Strtol16(k.value)), Some(Peek(m, Cell(x.value, 0)))))
  {
    var i := Last(Lowering.LowerVAttr(tarr, g).value.code);
    assert i == Instr(TVCopy, Ans(tarr[0]), Ans(tarr[1]), Ans(tarr[2]));
    if i.ans.Some? && i.op1.Some? && i.op2.Some? {
      VectorWriteMoves(i, st, t, m);
    }
  }

  /**
   The read that `tac_gencode_read` puts last hands `scanf` the integer
   format and the storage of the target's result.
   */
  lemma ReadScansTarget(tarr: seq<Chain>, g: Lowering.Gen, st: EmitState, t: Table)
    requires Lowering.LowerRead(tarr, g).Ok?
    ensures var e := InstrLines(Last(Lowering.LowerRead(tarr, g).value.code), st, t);
            && (Ans(tarr[0]).None? ==> e == Fail(NullHead))
            && (Ans(tarr[0]).Some? ==>
                  e == Ok(Emitted([Lea(VarPrefix + Ans(tarr[0]).value, Rsi), Lea(ScanfInt, Rdi), Imm(0, Eax, true),
                                   CallTo("__isoc99_scanf@PLT")], st)))
  {
    assert Last(Lowering.LowerRead(tarr, g).value.code) == Instr(TRead, Ans(tarr[0]), None, None);
    if Ans(tarr[0]).Some? {
      ReadLines(Ans(tarr[0]).value, st, t);
    }
  }

  lemma ReadLines(key: string, st: EmitState, t: Table)
    ensures InstrLines(Instr(TRead, Some(key), None, None), st, t) ==
            Ok(Emitted([Lea(VarPrefix + key, Rsi), Lea(ScanfInt, Rdi), Imm(0, Eax, true), CallTo("__isoc99_scanf@PLT")], st))
  {
    PlainCase(Instr(TRead, Some(key), None, None), st, t);
  }

  /**
   The return that `tac_gencode_ret` puts last loads the value's result into
   `%eax`, then leaves the frame.
   */
  lemma RetReturnsValue(tarr: seq<Chain>, g: Lowering.Gen, st: EmitState, t: Table, m: Machine)
    requires Lowering.LowerRet(tarr, g).Ok?
    ensures var e := InstrLines(Last(Lowering.LowerRet(tarr, g).value.code), st, t);
            && (Ans(tarr[0]).None? ==> e == Fail(NullHead))
            && (Ans(tarr[0]).Some? ==>
                  && e.Ok? && e.value.state == st && |e.value.lines| == 3
                  && Exec(e.value.lines[0], m) == Continue(WithReg(m, Eax, Peek(m, Cell(Ans(tarr[0]).value, 0))))
                  && e.value.lines[1..] == [PopFrame, Asm.Ret])
  {
    assert Last(Lowering.LowerRet(tarr, g).value.code) == Instr(TRet, Ans(tarr[0]), None, None);
    if Ans(tarr[0]).Some? {
      RetLines(Ans(tarr[0]).value, st, t);
    }
  }

  lemma RetLines(key: string, st: EmitState, t: Table)
    ensures InstrLines(Instr(TRet, Some(key), None, None), st, t) ==
            Ok(Emitted([Load(Whole(key), Eax), PopFrame, Asm.Ret], st))
  {
    PlainCase(Instr(TRet, Some(key), None, None), st, t);
  }

  /**
   A function lowered by `tac_gencode_fdecl` is emitted as its label and
   frame set-up, the lines of its signature and body, and a frame pop and
   return; it fails exactly when the signature and body do.
   */
  lemma FDeclFramed(n: Node, tarr: seq<Chain>, g: Lowering.Gen, st: EmitState, t: Table)
    requires Lowering.LowerFDecl(n, tarr, g).Ok?
    ensures var name, mid := Child(Child(n, 0).value, 0).value.symbol.value, tarr[0] + Lowering.At(tarr, 1);
            var whole := TacsLines(Lowering.LowerFDecl(n, tarr, g).value.code, st, t);
            && (whole.Ok? <==> TacsLines(mid, st, t).Ok?)
            && (whole.Ok? ==>
                  whole.value == Emitted([Mark(Named(name)), PushFrame, SetFrame] + TacsLines(mid, st, t).value.lines +
                                         [PopFrame, Asm.Ret], TacsLines(mid, st, t).value.state))
            && (whole.Fail? ==> whole.fault == TacsLines(mid, st, t).fault)
  {
    var name := Child(Child(n, 0).value, 0).value.symbol;
    var start, end := Instr(TFStart, name, None, None), Instr(TFEnd, name, None, None);
    assert Lowering.LowerFDecl(n, tarr, g).value.code == [start] + (tarr[0] + Lowering.At(tarr, 1)) + [end];
    FrameLines(name.value, st, t);
    WalkFramed(start, tarr[0] + Lowering.At(tarr, 1), end, st, (i, s) => InstrLines(i, s, t),
               [Mark(Named(name.value)), PushFrame, SetFrame], [PopFrame, Asm.Ret]);
  }

  /** The lines of a function's start and end markers. */
  lemma FrameLines(name: string, st: EmitState, t: Table)
    ensures InstrLines(Instr(TFStart, Some(name), None, None), st, t) ==
            Ok(Emitted([Mark(Named(name)), PushFrame, SetFrame], st))
    ensures forall s :: InstrLines(Instr(TFEnd, Some(name), None, None), s, t) == Ok(Emitted([PopFrame, Asm.Ret], s))
  {
    PlainCase(Instr(TFStart, Some(name), None, None), st, t);
    forall s: EmitState
      ensures InstrLines(Instr(TFEnd, Some(name), None, None), s, t) == Ok(Emitted([PopFrame, Asm.Ret], s))
    {
      PlainCase(Instr(TFEnd, Some(name), None, None), s, t);
    }
  }

  /**
   A walk over one instruction, a middle run and one more instruction whose
   lines ignore and keep the counters: the two instructions' lines around the
   middle's.
   */
  lemma WalkFramed(start: Instr, mid: Chain, end: Instr, st: EmitState, emit: Emitter, head: seq<Asm>, tail: seq<Asm>)
    requires emit(start, st) == Ok(Emitted(head, st))
    requires forall s :: emit(end, s) == Ok(Emitted(tail, s))
    ensures var w, wm := Walk([start] + mid + [end], st, emit), Walk(mid, st, emit);
            && (w.Ok? <==> wm.Ok?)
            && (wm.Ok? ==> w.value == Emitted(head + wm.value.lines + tail, wm.value.state))
            && (w.Fail? ==> w.fault == wm.fault)
  {
    assert [start] + mid + [end] == [start] + (mid + [end]);
    WalkAppend([start], mid + [end], st, emit);
    WalkSingle(start, st, emit);
    WalkAppend(mid, [end], st, emit);
    match Walk(mid, st, emit)
    case Fail(_) =>
    case Ok(e) =>
      WalkSingle(end, e.state, emit);
      ThenThen(head, e.lines, Walk([end], e.state, emit));
  }

  /** Walking one instruction is emitting it. */
  lemma WalkSingle(i: Instr, st: EmitState, emit: Emitter)
    ensures Walk([i], st, emit) == match emit(i, st)
                                   case Fail(f) => Fail(f)
                                   case Ok(h) => Ok(Emitted(h.lines, h.state))
  {
    assert [i][1..] == [];
    if emit(i, st).Ok? {
      assert emit(i, st).value.lines + [] == emit(i, st).value.lines;
    }
  }

  /** The three lines of a `jmpf`, wherever they sit in a program. */
  lemma JumpIfZeroRuns(p: seq<Asm>, pc: nat, x: string, target: Target, j: nat, m: Machine, fuel: nat)
    requires pc + 3 <= |p| && p[pc] == Load(Whole(x), Eax) && p[pc + 1] == Test(Eax) && p[pc + 2] == Jump(IfEqual, target)
    requires Locate(p, target) == Some(j)
    ensures var v := Peek(m, Cell(x, 0));
            var m' := WithReg(m, Eax, v).(flags := Flags(Signed(v), 0));
            Run(p, pc, m, fuel + 3) == Run(p, if v == 0 then j else pc + 3, m', fuel)
  {
    var v := Peek(m, Cell(x, 0));
    var m1 := WithReg(m, Eax, v);
    var m2 := m1.(flags := Flags(Signed(v), 0));
    RunLoad(p, pc, m, fuel + 2, Whole(x), Eax);
    RunTest(p, pc + 1, m1, fuel + 1, Eax);
    if v == 0 {
      RunJump(p, pc + 2, m2, fuel, IfEqual, target, j);
    } else {
      assert Signed(v) != 0;
      RunFall(p, pc + 2, m2, fuel, IfEqual, target);
    }
  }



  /**
   `jmpf l, x` continues after its lines when `x` is non-zero and goes to
   the first line marking `l` when it is zero, wherever it sits in a program.
   */
  lemma JumpIfFalse(i: Instr, st: EmitState, t: Table, p: seq<Asm>, pc: nat, j: nat, m: Machine, fuel: nat)
    requires i.op == TJmpF && ValidateOps(Some(i), 2).Ok?
    requires pc + 3 <= |p| && p[pc..pc + 3] == InstrLines(i, st, t).value.lines
    requires Locate(p, LabelTarget(i.ans.value)) == Some(j)
    ensures var v := Peek(m, Cell(i.op1.value, 0));
            var m' := WithReg(m, Eax, v).(flags := Flags(Signed(v), 0));
            Run(p, pc, m, fuel + 3) == Run(p, if v == 0 then j else pc + 3, m', fuel)
  {
    PlainCase(i, st, t);
    var q := [Load(Whole(i.op1.value), Eax), Test(Eax), Jump(IfEqual, LabelTarget(i.ans.value))];
    assert p[pc..pc + 3] == q;
    assert p[pc] == q[0] && p[pc + 1] == q[1] && p[pc + 2] == q[2] by {
      assert p[pc] == p[pc..pc + 3][0] && p[pc + 1] == p[pc..pc + 3][1] && p[pc + 2] == p[pc..pc + 3][2];
    }
    JumpIfZeroRuns(p, pc, i.op1.value, LabelTarget(i.ans.value), j, m, fuel);
  }

  // ---------------------------------------------------------------------
  // A chain (asm.c:400-407)
  // ---------------------------------------------------------------------

  /** Both counters start at zero. */
  const Start: EmitState := EmitState(0, 0)

  /** The number of `or` instructions in a chain. */
  function OrCount(c: Chain): nat {
    if c == [] then 0 else (if c[0].op == TOr then 1 else 0) + OrCount(c[1..])
  }

  /** What writes the lines of one instruction, given the counters before it. */
  type Emitter = (Instr, EmitState) -> Result<Emitted>

  /** `lines` written before the emission `r`, or the fault that ended it. */
  function Then(lines: seq<Asm>, r: Result<Emitted>): Result<Emitted> {
    match r
    case Fail(f) => Fail(f)
    case Ok(e) => Ok(Emitted(lines + e.lines, e.state))
  }

  /**
   The walk of `asm_print_tacs`: every instruction, head to tail, each
   starting from the counters the previous one left; the first failure ends
   it.
   */
  function Walk(c: Chain, st: EmitState, emit: Emitter): (r: Result<Emitted>)
    decreases |c|
  {
    if c == [] then Ok(Emitted([], st))
    else
      match emit(c[0], st)
      case Fail(f) => Fail(f)
      case Ok(h) => Then(h.lines, Walk(c[1..], h.state, emit))
  }

  /** `asm_print_tacs` from the counters `st`. */
  function TacsLines(c: Chain, st: EmitState, t: Table): (r: Result<Emitted>)
    ensures c == [] ==> r == Ok(Emitted([], st))
    ensures c != [] && InstrLines(c[0], st, t).Fail? ==> r == Fail(InstrLines(c[0], st, t).fault)
    ensures c != [] && r.Ok? ==> InstrLines(c[0], st, t).Ok? && InstrLines(c[0], st, t).value.lines <= r.value.lines
  {
    Walk(c, st, (i, s) => InstrLines(i, s, t))
  }

  lemma ThenNil(r: Result<Emitted>)
    ensures Then([], r) == r
  {
    if r.Ok? {
      assert [] + r.value.lines == r.value.lines;
    }
  }

  lemma ThenThen(a: seq<Asm>, b: seq<Asm>, r: Result<Emitted>)
    ensures Then(a, Then(b, r)) == Then(a + b, r)
  {
    if r.Ok? {
      assert a + (b + r.value.lines) == (a + b) + r.value.lines;
    }
  }

  /** Walking a concatenation walks the first part, then the second from where the first left off. */
  lemma {:induction false} WalkAppend(a: Chain, b: Chain, st: EmitState, emit: Emitter)
    ensures Walk(a + b, st, emit) ==
            match Walk(a, st, emit)
            case Fail(f) => Fail(f)
            case Ok(e) => Then(e.lines, Walk(b, e.state, emit))
    decreases |a|
  {
    if a == [] {
      assert a + b == b;
      ThenNil(Walk(b, st, emit));
    } else {
      assert (a + b)[0] == a[0] && (a + b)[1..] == a[1..] + b;
      match emit(a[0], st)
      case Fail(_) =>
      case Ok(h) =>
        WalkAppend(a[1..], b, h.state, emit);
        match Walk(a[1..], h.state, emit)
        case Fail(_) =>
        case Ok(e) => ThenThen(h.lines, e.lines, Walk(b, e.state, emit));
    }
  }

  /** Every line of a walk is a line some instruction of the chain wrote. */
  lemma {:induction false} WalkLineSource(c: Chain, st: EmitState, emit: Emitter, k: nat)
    requires Walk(c, st, emit).Ok? && k < |Walk(c, st, emit).value.lines|
    ensures exists j, s :: 0 <= j < |c| && emit(c[j], s).Ok? && Walk(c, st, emit).value.lines[k] in emit(c[j], s).value.lines
                           && forall x :: x in emit(c[j], s).value.lines ==> x in Walk(c, st, emit).value.lines
    decreases |c|
  {
    var h := emit(c[0], st).value;
    var rest := Walk(c[1..], h.state, emit).value;
    var p := Walk(c, st, emit).value.lines;
    assert p == h.lines + rest.lines;
    if k < |h.lines| {
      assert p[k] == h.lines[k];
    } else {
      WalkLineSource(c[1..], h.state, emit, k - |h.lines|);
      var j, s :| 0 <= j < |c[1..]| && emit(c[1..][j], s).Ok? && rest.lines[k - |h.lines|] in emit(c[1..][j], s).value.lines
                  && forall x :: x in emit(c[1..][j], s).value.lines ==> x in rest.lines;
      assert c[1..][j] == c[j + 1];
      assert p[k] == rest.lines[k - |h.lines|];
    }
  }

  /** Every line every instruction of the chain wrote is in the walk. */
  lemma {:induction false} WalkKeepsLines(c: Chain, st: EmitState, emit: Emitter, j: nat)
    requires Walk(c, st, emit).Ok? && j < |c|
    ensures exists s :: emit(c[j], s).Ok? && forall x :: x in emit(c[j], s).value.lines ==> x in Walk(c, st, emit).value.lines
    decreases |c|
  {
    var h := emit(c[0], st).value;
    var rest := Walk(c[1..], h.state, emit).value;
    assert Walk(c, st, emit).value.lines == h.lines + rest.lines;
    if j > 0 {
      WalkKeepsLines(c[1..], h.state, emit, j - 1);
      assert c[1..][j - 1] == c[j];
    }
  }

  /** Every `or` takes three label numbers, so the counter ends three per `or` further on. */
  lemma {:induction false} OrLabelsCounted(c: Chain, st: EmitState, t: Table)
    requires TacsLines(c, st, t).Ok?
    ensures TacsLines(c, st, t).value.state.orLabels == st.orLabels + 3 * OrCount(c)
    decreases |c|
  {
    if c != [] {
      var h := InstrLines(c[0], st, t).value;
      InstrCounters(c[0], st, t);
      OrLabelsCounted(c[1..], h.state, t);
    }
  }

  /** `asm_print_tacs` as the C loop runs it: one instruction at a time, counters carried along. */
  method EmitTacs(c: Chain, t: Table) returns (r: Result<seq<Asm>>)
    ensures r.Ok? <==> TacsLines(c, Start, t).Ok?
    ensures r.Ok? ==> r.value == TacsLines(c, Start, t).value.lines
    ensures r.Fail? ==> r.fault == TacsLines(c, Start, t).fault
  {
    var emit: Emitter := (i, s) => InstrLines(i, s, t);
    var out: seq<Asm> := [];
    var st := Start;
    var k := 0;
    ThenNil(Walk(c, Start, emit));
    while k < |c|
      invariant 0 <= k <= |c|
      invariant Walk(c, Start, emit) == Then(out, Walk(c[k..], st, emit))
    {
      assert c[k..][0] == c[k] && c[k..][1..] == c[k + 1..];
      var e := InstrLines(c[k], st, t);
      if e.Fail? {
        return Fail(e.fault);
      }
      ThenThen(out, e.value.lines, Walk(c[k + 1..], e.value.state, emit));
      out := out + e.value.lines;
      st := e.value.state;
      k := k + 1;
    }
    assert c[k..] == [];
    assert out + [] == out;
    return Ok(out);
  }

  // ---------------------------------------------------------------------
  // Jumps and labels
  // ---------------------------------------------------------------------

  /** A line that jumps to a named target. */
  predicate NamedJump(x: Asm) {
    x.Jump? && x.target.Named?
  }

  /** A line that jumps to a local label of an `or`. */
  predicate LocalJump(x: Asm) {
    x.Jump? && x.target.Local?
  }

  /** The `or` block jumps only to its three local labels, each of which it marks. */
  lemma OrBlockJumps(n: nat, x: string, y: string, ans: string)
    ensures var p := ExprBlock(TOr, n, x, y, ans);
            && (forall a :: a in p ==> !NamedJump(a))
            && (forall a :: a in p && LocalJump(a) ==> Mark(a.target) in p)
  {
    var p := ExprBlock(TOr, n, x, y, ans);
    assert p == [Load(Whole(x), Eax), Load(Whole(y), Edx)] + OrBody(n) + [Store(Eax, Whole(ans))];
    assert forall a :: a in p ==> a in OrBody(n) || a.Load? || a.Store?;
    assert Mark(Local(OrTrue(n))) in p && Mark(Local(OrFalse(n + 1))) in p && Mark(Local(OrFinish(n + 2))) in p;
  }

  /** The other expression blocks do not jump at all. */
  lemma StraightBlock(op: Opcode, n: nat, x: string, y: string, ans: string)
    requires IsExprOp(op) && op != TOr
    ensures forall a :: a in ExprBlock(op, n, x, y, ans) ==> !a.Jump?
  {
    var b := ExprBody(op, n).value;
    if IsComparison(op) {
      assert b == [Cmp(Edx, Eax), SetCond(CondOf(op)), Movzbl];
    }
    assert forall a :: a in b ==> !a.Jump?;
    assert forall a :: a in ExprBlock(op, n, x, y, ans) ==> a in b || a.Load? || a.Store?;
  }

  /** The expression blocks jump only to their own local labels, and mark each one. */
  lemma ExprJumpsLocal(i: Instr, st: EmitState)
    requires ExprLines(i, st).Ok?
    ensures forall x :: x in ExprLines(i, st).value.lines ==> !NamedJump(x)
    ensures forall x :: x in ExprLines(i, st).value.lines && LocalJump(x) ==> Mark(x.target) in ExprLines(i, st).value.lines
  {
    var n := st.orLabels;
    assert ExprLines(i, st).value.lines == ExprBlock(i.op, n, i.op1.value, i.op2.value, i.ans.value);
    if i.op == TOr {
      OrBlockJumps(n, i.op1.value, i.op2.value, i.ans.value);
    } else {
      StraightBlock(i.op, n, i.op1.value, i.op2.value, i.ans.value);
    }
  }

  /** Only `jmp` and `jmpf` jump to a named target, and only to their own label. */
  lemma InstrJumps(i: Instr, st: EmitState, t: Table)
    requires InstrLines(i, st, t).Ok?
    ensures forall x :: x in InstrLines(i, st, t).value.lines && NamedJump(x) ==>
              Findings.IsJump(i) && i.ans.Some? && x.target == LabelTarget(i.ans.value)
    ensures forall x :: x in InstrLines(i, st, t).value.lines && LocalJump(x) ==>
              Mark(x.target) in InstrLines(i, st, t).value.lines
  {
    if IsExprOp(i.op) {
      ExprJumpsLocal(i, st);
    } else {
      OtherJumps(i, st, t);
    }
  }

  lemma OtherJumps(i: Instr, st: EmitState, t: Table)
    requires InstrLines(i, st, t).Ok? && !IsExprOp(i.op)
    ensures forall x :: x in InstrLines(i, st, t).value.lines ==> !LocalJump(x)
    ensures forall x :: x in InstrLines(i, st, t).value.lines && NamedJump(x) ==>
              Findings.IsJump(i) && i.ans.Some? && x.target == LabelTarget(i.ans.value)
  {
    if i.op == TArg {
      ArgCase(i, st, t);
      var p := InstrLines(i, st, t).value.lines;
      assert forall x :: x in p ==> x.Load? || x.Store?;
    } else if i.op == TPrint {
      PrintCase(i, st, t);
      PrintNoControl(i.ans.value, t);
    } else if i.op == TCall {
      CallCase(i, st, t);
    } else {
      PlainCase(i, st, t);
      PlainJumps(i);
    }
  }

  /** `print` writes the lines of `asm_print_print`, counters untouched. */
  lemma PrintCase(i: Instr, st: EmitState, t: Table)
    requires i.op == TPrint && i.ans.Some?
    ensures match PrintLines(i.ans.value, t)
            case Fail(f) => InstrLines(i, st, t) == Fail(f)
            case Ok(lines) => InstrLines(i, st, t) == Ok(Emitted(lines, st))
  {
    assert !IsExprOp(i.op) && Arity(i.op) == 1;
    assert ValidateOps(Some(i), 1) == Ok(i);
  }

  /** `print` neither jumps nor marks. */
  lemma PrintNoControl(key: string, t: Table)
    requires PrintLines(key, t).Ok?
    ensures forall x :: x in PrintLines(key, t).value ==> !x.Jump? && !x.Mark?
  {
  }

  /** `call f` calls `f`, stores its result and resets the argument counter. */
  lemma CallCase(i: Instr, st: EmitState, t: Table)
    requires i.op == TCall && i.ans.Some? && i.op1.Some?
    ensures InstrLines(i, st, t) == Ok(Emitted([CallTo(i.op1.value), Store(Eax, Whole(i.ans.value))], st.(argc := 0)))
  {
    assert !IsExprOp(i.op) && Arity(i.op) == 2;
    assert ValidateOps(Some(i), 2) == Ok(i);
  }

  lemma PlainJumps(i: Instr)
    requires ValidateOps(Some(i), Arity(i.op)).Ok?
    ensures forall x :: x in PlainLines(i) ==> !LocalJump(x)
    ensures forall x :: x in PlainLines(i) && NamedJump(x) ==>
              Findings.IsJump(i) && i.ans.Some? && x.target == LabelTarget(i.ans.value)
  {
    var p := PlainLines(i);
    match i.op
    case TJmp =>
      assert p == [Jump(Always, LabelTarget(i.ans.value))];
    case TJmpF =>
      assert p == [Load(Whole(i.op1.value), Eax), Test(Eax), Jump(IfEqual, LabelTarget(i.ans.value))];
    case _ =>
      assert forall x :: x in p ==> !x.Jump?;
  }

  /** A `label l` marks `l`, whatever the counters. */
  lemma LabelMarks(l: string, st: EmitState, t: Table)
    ensures InstrLines(Lowering.LabelInstr(l), st, t) == Ok(Emitted([Mark(LabelTarget(l))], st))
  {
    PlainCase(Lowering.LabelInstr(l), st, t);
  }

  /**
   When every jump of a chain names a label the chain defines, every jump of
   the emitted lines, named or local, has a line marking its target.
   */
  lemma JumpsResolve(c: Chain, st: EmitState, t: Table)
    requires Findings.JumpsLand(c) && TacsLines(c, st, t).Ok?
    ensures var p := TacsLines(c, st, t).value.lines;
            forall k :: 0 <= k < |p| && p[k].Jump? ==> Locate(p, p[k].target).Some?
  {
    var emit: Emitter := (i, s) => InstrLines(i, s, t);
    var p := TacsLines(c, st, t).value.lines;
    forall k | 0 <= k < |p| && p[k].Jump?
      ensures Locate(p, p[k].target).Some?
    {
      WalkLineSource(c, st, emit, k);
      var j, s :| 0 <= j < |c| && emit(c[j], s).Ok? && p[k] in emit(c[j], s).value.lines
                  && forall x :: x in emit(c[j], s).value.lines ==> x in p;
      InstrJumps(c[j], s, t);
      if p[k].target.Named? {
        var l := c[j].ans.value;
        assert Findings.Defines(c, l);
        var d :| 0 <= d < |c| && c[d] == Lowering.LabelInstr(l);
        WalkKeepsLines(c, st, emit, d);
        var s' :| emit(c[d], s').Ok? && forall x :: x in emit(c[d], s').value.lines ==> x in p;
        LabelMarks(l, s', t);
        assert Mark(p[k].target) in emit(c[d], s').value.lines;
      }
      assert Mark(p[k].target) in p;
      LocateSpec(p, p[k].target, 0);
    }
  }

  // ---------------------------------------------------------------------
  // Local labels
  // ---------------------------------------------------------------------

  /** Every local label marked in `p` is numbered in `[lo, hi)`. */
  ghost predicate LocalMarksIn(p: seq<Asm>, lo: nat, hi: nat) {
    forall x :: x in p && x.Mark? && x.at.Local? ==> lo <= x.at.local.n < hi
  }

  /** No local label is marked twice in `p`. */
  ghost predicate LocalMarksUnique(p: seq<Asm>) {
    forall a, b :: 0 <= a < b < |p| && p[a].Mark? && p[a].at.Local? ==> p[a] != p[b]
  }

  /** The `or` block marks its three labels once each, numbered from the counter. */
  lemma OrBlockMarks(n: nat, x: string, y: string, ans: string)
    ensures LocalMarksIn(ExprBlock(TOr, n, x, y, ans), n, n + 3)
    ensures LocalMarksUnique(ExprBlock(TOr, n, x, y, ans))
  {
    var p := ExprBlock(TOr, n, x, y, ans);
    assert p == [Load(Whole(x), Eax), Load(Whole(y), Edx),
                 Test(Eax), Jump(IfNotEqual, Local(OrTrue(n))),
                 Test(Edx), Jump(IfEqual, Local(OrFalse(n + 1))),
                 Mark(Local(OrTrue(n))), Imm(1, Eax, true), Jump(Always, Local(OrFinish(n + 2))),
                 Mark(Local(OrFalse(n + 1))), Imm(0, Eax, false),
                 Mark(Local(OrFinish(n + 2))), Store(Eax, Whole(ans))];
    assert forall a :: 0 <= a < |p| && p[a].Mark? ==> a == 6 || a == 9 || a == 11;
  }

  /** The expression blocks other than `or` mark nothing. */
  lemma StraightNoMarks(op: Opcode, n: nat, x: string, y: string, ans: string)
    requires IsExprOp(op) && op != TOr
    ensures forall a :: a in ExprBlock(op, n, x, y, ans) ==> !a.Mark?
  {
    var b := ExprBody(op, n).value;
    if IsComparison(op) {
      assert b == [Cmp(Edx, Eax), SetCond(CondOf(op)), Movzbl];
    }
    assert forall a :: a in b ==> !a.Mark?;
    assert forall a :: a in ExprBlock(op, n, x, y, ans) ==> a in b || a.Load? || a.Store?;
  }

  /** Apart from `or`, no instruction marks a local label. */
  lemma NoLocalMarks(i: Instr, st: EmitState, t: Table)
    requires InstrLines(i, st, t).Ok? && i.op != TOr
    ensures forall x :: x in InstrLines(i, st, t).value.lines ==> !(x.Mark? && x.at.Local?)
  {
    if IsExprOp(i.op) {
      assert InstrLines(i, st, t).value.lines == ExprBlock(i.op, st.orLabels, i.op1.value, i.op2.value, i.ans.value);
      StraightNoMarks(i.op, st.orLabels, i.op1.value, i.op2.value, i.ans.value);
    } else {
      OtherNoLocalMarks(i, st, t);
    }
  }

  lemma OtherNoLocalMarks(i: Instr, st: EmitState, t: Table)
    requires InstrLines(i, st, t).Ok? && !IsExprOp(i.op)
    ensures forall x :: x in InstrLines(i, st, t).value.lines ==> !(x.Mark? && x.at.Local?)
  {
    if i.op == TArg {
      ArgCase(i, st, t);
    } else if i.op == TPrint {
      PrintCase(i, st, t);
      PrintNoControl(i.ans.value, t);
    } else if i.op == TCall {
      CallCase(i, st, t);
    } else {
      PlainCase(i, st, t);
    }
  }

  /** One instruction's local labels are its own: numbered from the counter it starts at, each marked once. */
  lemma InstrLocalMarks(i: Instr, st: EmitState, t: Table)
    requires InstrLines(i, st, t).Ok?
    ensures LocalMarksIn(InstrLines(i, st, t).value.lines, st.orLabels, After(i.op, st).orLabels)
    ensures LocalMarksUnique(InstrLines(i, st, t).value.lines)
  {
    if i.op == TOr {
      assert InstrLines(i, st, t).value.lines == ExprBlock(TOr, st.orLabels, i.op1.value, i.op2.value, i.ans.value);
      OrBlockMarks(st.orLabels, i.op1.value, i.op2.value, i.ans.value);
    } else {
      NoLocalMarks(i, st, t);
    }
  }

  /** Lines whose local labels fall in disjoint ranges, each part marking each label once, mark each label once. */
  lemma UniqueConcat(h: seq<Asm>, r: seq<Asm>, lo: nat, mid: nat, hi: nat)
    requires LocalMarksIn(h, lo, mid) && LocalMarksIn(r, mid, hi)
    requires LocalMarksUnique(h) && LocalMarksUnique(r)
    ensures LocalMarksIn(h + r, lo, hi) || lo > mid || mid > hi
    ensures LocalMarksUnique(h + r)
  {
    var p := h + r;
    forall a, b | 0 <= a < b < |p| && p[a].Mark? && p[a].at.Local?
      ensures p[a] != p[b]
    {
      if b < |h| {
        assert p[a] == h[a] && p[b] == h[b];
      } else if a >= |h| {
        assert p[a] == r[a - |h|] && p[b] == r[b - |h|];
      } else {
        assert p[a] == h[a] && h[a] in h;
        assert p[b] == r[b - |h|] && r[b - |h|] in r;
      }
    }
    if lo <= mid <= hi {
      forall x | x in p && x.Mark? && x.at.Local?
        ensures lo <= x.at.local.n < hi
      {
        assert x in h || x in r;
      }
    }
  }

  /**
   The `or` counter keeps local labels apart: across a whole chain every
   local label is marked at most once, numbered in the range the counter
   swept.
   */
  lemma {:induction false} LocalLabelsUnique(c: Chain, st: EmitState, t: Table)
    requires TacsLines(c, st, t).Ok?
    ensures LocalMarksIn(TacsLines(c, st, t).value.lines, st.orLabels, TacsLines(c, st, t).value.state.orLabels)
    ensures LocalMarksUnique(TacsLines(c, st, t).value.lines)
    decreases |c|
  {
    if c != [] {
      var h := InstrLines(c[0], st, t).value;
      var r := TacsLines(c[1..], h.state, t).value;
      InstrCounters(c[0], st, t);
      InstrLocalMarks(c[0], st, t);
      LocalLabelsUnique(c[1..], h.state, t);
      OrLabelsCounted(c[1..], h.state, t);
      assert TacsLines(c, st, t).value == Emitted(h.lines + r.lines, r.state);
      UniqueConcat(h.lines, r.lines, st.orLabels, h.state.orLabels, r.state.orLabels);
    }
  }

  // ---------------------------------------------------------------------
  // Argument binding
  // ---------------------------------------------------------------------

  /** Every cell of a parameter list names its parameter. */
  predicate AllNamed(cells: seq<Node>) {
    forall k :: 0 <= k < |cells| ==> ArgCellNamed(cells[k])
  }

  /** The names a parameter list declares, in list order. */
  function ParamNames(cells: seq<Node>): (r: seq<string>)
    requires AllNamed(cells)
    ensures |r| == |cells| && forall k :: 0 <= k < |cells| ==> r[k] == ParamName(cells[k])
  {
    seq(|cells|, k requires 0 <= k < |cells| => ParamName(cells[k]))
  }

  /** The values the argument expressions leave, in list order. */
  function ArgValues(es: seq<Findings.Term>): (r: seq<string>)
    ensures |r| == |es| && forall k :: 0 <= k < |es| ==> Some(r[k]) == Findings.TermAns(es[k])
  {
    seq(|es|, k requires 0 <= k < |es| => match es[k] case Leaf(key) => key case Bin(_, tmp, _, _) => tmp)
  }

  /** Copies of `values[k]` into `names[k]`, the last pair first. */
  function Bindings(values: seq<string>, names: seq<string>): seq<Asm>
    requires |values| == |names|
  {
    if values == [] then []
    else [Load(Whole(values[|values| - 1]), Eax), Store(Eax, Whole(names[|names| - 1]))]
         + Bindings(values[..|values| - 1], names[..|names| - 1])
  }

  /** Copy number `n - 1 - k` of `Bindings` moves the k-th value into the k-th name. */
  lemma {:induction false} BindingsPair(values: seq<string>, names: seq<string>, k: nat)
    requires |values| == |names| && k < |values|
    ensures var n := |values|;
            && |Bindings(values, names)| == 2 * n
            && Bindings(values, names)[2 * (n - 1 - k)] == Load(Whole(values[k]), Eax)
            && Bindings(values, names)[2 * (n - 1 - k) + 1] == Store(Eax, Whole(names[k]))
    decreases |values|
  {
    var n := |values|;
    var rest := Bindings(values[..n - 1], names[..n - 1]);
    if k < n - 1 {
      BindingsPair(values[..n - 1], names[..n - 1], k);
    } else {
      BindingsLength(values[..n - 1], names[..n - 1]);
    }
  }

  lemma {:induction false} BindingsLength(values: seq<string>, names: seq<string>)
    requires |values| == |names|
    ensures |Bindings(values, names)| == 2 * |values|
    decreases |values|
  {
    if values != [] {
      BindingsLength(values[..|values| - 1], names[..|names| - 1]);
    }
  }

  /** A walk that starts with a successful instruction. */
  lemma WalkCons(c: Chain, st: EmitState, emit: Emitter, h: Emitted)
    requires c != [] && emit(c[0], st) == Ok(h)
    ensures Walk(c, st, emit) == Then(h.lines, Walk(c[1..], h.state, emit))
  {
  }

  /** One `arg`: argument number `argc` of a list of `n` named cells binds cell `n - 1 - argc`. */
  lemma ArgStep(v: string, f: string, t: Table, st: EmitState)
    requires st.argc < |Spine(Params(t, f))| < MaxArgc && AllNamed(Spine(Params(t, f)))
    ensures var cells := Spine(Params(t, f));
            InstrLines(Lowering.ArgInstr(Some(v), Some(f)), st, t) ==
            Ok(Emitted([Load(Whole(v), Eax), Store(Eax, Whole(ParamName(cells[|cells| - 1 - st.argc])))],
                       st.(argc := st.argc + 1)))
  {
    var cells := Spine(Params(t, f));
    var k := |cells| - 1 - st.argc;
    assert ArgCellNamed(cells[k]);
    ArgNameSpec(Params(t, f), st.argc);
    var r := ArgName(Params(t, f), st.argc);
    assert r == Ok(ParamName(cells[k]));
    ArgCase(Lowering.ArgInstr(Some(v), Some(f)), st, t);
  }

  /** `ArgsWalk` over every argument. */
  lemma ArgsWalkAll(es: seq<Findings.Term>, names: seq<string>, f: string, lab: nat, emit: Emitter)
    requires |es| == |names| && ArgsEmit(es, names, |es|, f, lab, emit)
    ensures Walk(Findings.ExpectedArgs(es, Some(f)), EmitState(0, lab), emit) ==
            Ok(Emitted(Bindings(ArgValues(es), names), EmitState(|es|, lab)))
  {
    ArgsWalk(es, names, |es|, f, lab, emit);
    assert es[..|es|] == es && ArgValues(es)[..|es|] == ArgValues(es) && names[..|es|] == names;
  }

  /** The `arg` of argument `k` copies its value into parameter `k`. */
  lemma ArgBindsCell(es: seq<Findings.Term>, f: string, t: Table, k: nat)
    requires |Spine(Params(t, f))| == |es| < MaxArgc && AllNamed(Spine(Params(t, f)))
    requires k < |es|
    ensures InstrLines(Lowering.ArgInstr(Some(ArgValues(es)[k]), Some(f)), EmitState(|es| - 1 - k, 0), t) ==
            Ok(Emitted([Load(Whole(ArgValues(es)[k]), Eax), Store(Eax, Whole(ParamNames(Spine(Params(t, f)))[k]))],
                       EmitState(|es| - k, 0)))
  {
    var cells := Spine(Params(t, f));
    var st := EmitState(|es| - 1 - k, 0);
    assert |cells| - 1 - st.argc == k;
    ArgStep(ArgValues(es)[k], f, t, st);
  }

  /**
   `emit` turns the `arg` of each of the first `m` arguments `k`, met with
   `argc == |es| - 1 - k`, into the copy of its value into `names[k]`.
   */
  ghost predicate ArgsEmit(es: seq<Findings.Term>, names: seq<string>, m: nat, f: string, lab: nat, emit: Emitter)
    requires m <= |es| == |names|
  {
    forall k :: 0 <= k < m ==>
      emit(Lowering.ArgInstr(Some(ArgValues(es)[k]), Some(f)), EmitState(|es| - 1 - k, lab)) ==
      Ok(Emitted([Load(Whole(ArgValues(es)[k]), Eax), Store(Eax, Whole(names[k]))], EmitState(|es| - k, lab)))
  }

  /** Emission binds every argument of a call to its parameter. */
  lemma ArgsEmitted(es: seq<Findings.Term>, f: string, t: Table)
    requires |Spine(Params(t, f))| == |es| < MaxArgc && AllNamed(Spine(Params(t, f)))
    ensures ArgsEmit(es, ParamNames(Spine(Params(t, f))), |es|, f, 0, (i, s) => InstrLines(i, s, t))
  {
    forall k | 0 <= k < |es| {
      ArgBindsCell(es, f, t, k);
    }
  }

  /**
   The `arg`s of `es[..m]`, walked with any emitter that turns the `arg` of
   argument `k`, met with `argc == |es| - 1 - k`, into the copy of
   `ArgValues(es)[k]` into `names[k]`.
   */
  lemma {:induction false} ArgsWalk(es: seq<Findings.Term>, names: seq<string>, m: nat, f: string, lab: nat, emit: Emitter)
    requires m <= |es| == |names|
    requires ArgsEmit(es, names, m, f, lab, emit)
    ensures Walk(Findings.ExpectedArgs(es[..m], Some(f)), EmitState(|es| - m, lab), emit) ==
            Ok(Emitted(Bindings(ArgValues(es)[..m], names[..m]), EmitState(|es|, lab)))
    decreases m
  {
    var values := ArgValues(es);
    if m == 0 {
      assert es[..0] == [];
      assert values[..0] == [] && names[..0] == [];
    } else {
      var c := Findings.ExpectedArgs(es[..m], Some(f));
      var rest := Findings.ExpectedArgs(es[..m - 1], Some(f));
      assert c == [Lowering.ArgInstr(Some(values[m - 1]), Some(f))] + rest by {
        assert es[..m][..m - 1] == es[..m - 1];
      }
      var first := [Load(Whole(values[m - 1]), Eax), Store(Eax, Whole(names[m - 1]))];
      WalkCons(c, EmitState(|es| - m, lab), emit, Emitted(first, EmitState(|es| - m + 1, lab)));
      assert c[1..] == rest;
      ArgsWalk(es, names, m - 1, f, lab, emit);
      assert Bindings(values[..m], names[..m]) == first + Bindings(values[..m - 1], names[..m - 1]) by {
        assert values[..m][..m - 1] == values[..m - 1] && names[..m][..m - 1] == names[..m - 1];
      }
    }
  }

  /**
   Arguments bind by position: the `arg`s lowering emits for a call, last
   argument first, are exactly the copies `Bindings` pairs up, value of
   argument `k` into parameter `k` of the callee's list (`BindingsPair`),
   provided the list has as many named cells as there are arguments and
   fewer than `MaxArgc`; the argument counter ends at the argument count,
   ready for the `call` that resets it.
   */
  lemma ArgumentsBindByPosition(es: seq<Findings.Term>, f: string, t: Table)
    requires |Spine(Params(t, f))| == |es| < MaxArgc && AllNamed(Spine(Params(t, f)))
    ensures TacsLines(Findings.ExpectedArgs(es, Some(f)), Start, t) ==
            Ok(Emitted(Bindings(ArgValues(es), ParamNames(Spine(Params(t, f)))), EmitState(|es|, 0)))
  {
    ArgsEmitted(es, f, t);
    ArgsWalkAll(es, ParamNames(Spine(Params(t, f))), f, 0, (i, s) => InstrLines(i, s, t));
  }


}

=== FILE: ir.dfy ===
/**
 The three-address code of tac.h and the chain utilities of tac.c.

 The C program keeps instructions in a doubly linked list and passes a
 fragment around as a pointer to its last node (its tail). Here a fragment is
 the value `Chain`, the instructions from head to tail, and the NULL fragment
 is the empty chain. `Handle` keeps the pointer view for `tac_cat_tails`,
 whose one failure mode, a pointer that is not a tail, needs it; the lemma
 `CatTailsIsConcatenation` then licenses writing `+` everywhere else.
 Instruction operands point to symbol-table entries; an operand is the key of
 its entry.
 */
module Ir {
  import opened Outcomes
  import opened Syntax

  /** `enum ttype_t` (tac.h:7-43), in declaration order. */
  datatype Opcode =
    | TSym | TVRead | TAdd | TSub | TMul | TDiv | TLe | TGe | TGt | TLt | TEq | TNe
    | TOr | TAnd | TPow | TNot | TCopy | TVCopy | TCall | TArg | TFStart | TFEnd
    | TRet | TJmp | TJmpF | TLabel | TRead | TPrint | TUnk

  /** `struct tac_node` (tac.h:45-49) without its links: opcode and three operands. */
  datatype Instr = Instr(op: Opcode, ans: Option<string>, op1: Option<string>, op2: Option<string>)

  /** A fragment, head first. */
  type Chain = seq<Instr>

  /** The `ans` operand of a fragment's tail: what `tarr[i]->ans` reads. */
  function Ans(c: Chain): Option<string> {
    if c == [] then None else c[|c| - 1].ans
  }

  // ---------------------------------------------------------------------
  // tac_cat_tails
  // ---------------------------------------------------------------------

  /** A pointer to node `at` of the list `list`. */
  datatype Handle = Handle(list: Chain, at: nat)

  predicate Points(h: Option<Handle>) {
    h.Some? ==> h.value.at < |h.value.list|
  }

  /** The node has no successor: its `next` link is NULL. */
  predicate IsTail(h: Handle) {
    h.at + 1 == |h.list|
  }

  /** The tail pointer of a fragment, NULL for the empty one. */
  function TailOf(c: Chain): (h: Option<Handle>)
    ensures Points(h)
    ensures h.None? <==> c == []
    ensures h.Some? ==> h.value.list == c && IsTail(h.value)
  {
    if c == [] then None else Some(Handle(c, |c| - 1))
  }

  /**
   `tac_cat_tails` (tac.c:160-183): a NULL side yields the other side; two
   tails are spliced, the second list after the first, and the result points
   to the second tail; a pointer that is not a tail aborts the run.
   */
  function CatTails(h1: Option<Handle>, h2: Option<Handle>): (r: Result<Option<Handle>>)
    requires Points(h1) && Points(h2)
    ensures h1.None? ==> r == Ok(h2)
    ensures h1.Some? && h2.None? ==> r == Ok(h1)
    ensures h1.Some? && h2.Some? ==> (r.Ok? <==> IsTail(h1.value) && IsTail(h2.value))
    ensures r.Fail? ==> r.fault == NotATail
    ensures r.Ok? ==> Points(r.value)
    ensures r.Ok? && h1.Some? && h2.Some? ==>
              r.value.Some? &&
              var a, b, c := h1.value.list, h2.value.list, r.value.value;
              && |a| <= |c.list|
              && c.list[..|a|] == a
              && c.list[|a|..] == b
              && IsTail(c)
              && c.list[c.at] == b[h2.value.at]
  {
    if h1.None? then Ok(h2)
    else if h2.None? then Ok(h1)
    else if !IsTail(h1.value) || !IsTail(h2.value) then Fail(NotATail)
    else
      var a, b := h1.value.list, h2.value.list;
      Ok(Some(Handle(a + b, |a| + h2.value.at)))
  }

  /** On fragments, `tac_cat_tails` is concatenation: the model may write `a + b`. */
  lemma CatTailsIsConcatenation(a: Chain, b: Chain)
    ensures CatTails(TailOf(a), TailOf(b)) == Ok(TailOf(a + b))
  {
    if a != [] && b != [] {
      assert a + b != [];
      assert |a| + (|b| - 1) == |a + b| - 1;
    } else if a == [] {
      assert a + b == b;
    } else {
      assert a + b == a;
    }
  }

  /**
   `tac_cat_tails` on the tails of two fragments, the result read back as the
   fragment it ends: the second fragment after the first.
   */
  function Splice(a: Chain, b: Chain): (r: Chain)
    ensures r == a + b
  {
    CatTailsIsConcatenation(a, b);
    var h := CatTails(TailOf(a), TailOf(b)).value;
    if h.None? then [] else h.value.list
  }

  /** The two regroupings of four pieces that the lowerings' splices produce. */
  lemma Regroup(a: Chain, b: Chain, c: Chain, d: Chain)
    ensures (a + b) + (c + d) == a + b + c + d
    ensures a + ((b + c) + d) == a + b + c + d
  {
  }

  /** Splicing three fragments gives the same list whichever pair is joined first. */
  lemma CatTailsAssociative(a: Chain, b: Chain, c: Chain)
    ensures var ab := CatTails(TailOf(a), TailOf(b)).value;
            var bc := CatTails(TailOf(b), TailOf(c)).value;
            Points(ab) && Points(bc) &&
            CatTails(ab, TailOf(c)) == CatTails(TailOf(a), bc)
  {
    CatTailsIsConcatenation(a, b);
    CatTailsIsConcatenation(b, c);
    CatTailsIsConcatenation(a + b, c);
    CatTailsIsConcatenation(a, b + c);
    assert (a + b) + c == a + (b + c);
  }

  // ---------------------------------------------------------------------
  // tac_cat_tails_arr and the compaction in tac_gencode
  // ---------------------------------------------------------------------

  /** The fragments one after the other. */
  function Flatten(fs: seq<Chain>): (c: Chain)
    ensures fs == [] ==> c == []
  {
    if fs == [] then [] else fs[0] + Flatten(fs[1..])
  }

  lemma {:induction false} FlattenAppend(a: seq<Chain>, b: seq<Chain>)
    ensures Flatten(a + b) == Flatten(a) + Flatten(b)
    decreases |a|
  {
    if a == [] {
      assert a + b == b;
    } else {
      assert (a + b)[1..] == a[1..] + b;
      FlattenAppend(a[1..], b);
    }
  }

  /** One unfolding of `Flatten` at position `k`. */
  lemma FlattenAt(fs: seq<Chain>, k: nat)
    requires k < |fs|
    ensures Flatten(fs[k..]) == fs[k] + Flatten(fs[k + 1..])
  {
    assert fs[k..][1..] == fs[k + 1..];
  }

  /** Flattening one, two or three fragments. */
  lemma FlattenSmall(x: Chain, y: Chain, z: Chain)
    ensures Flatten([x]) == x && Flatten([x, y]) == x + y && Flatten([x, y, z]) == x + y + z
  {
    assert [x][1..] == [] && [x, y][1..] == [y] && [x, y, z][1..] == [y, z];
    assert [y, z][1..] == [z] && [z][1..] == [];
    assert Flatten([y, z]) == y + z;
    assert x + (y + z) == x + y + z;
  }

  /** Flattening three runs of fragments joined. */
  lemma FlattenJoin(a: seq<Chain>, b: seq<Chain>, c: seq<Chain>)
    ensures Flatten(a + b + c) == Flatten(a) + Flatten(b) + Flatten(c)
  {
    FlattenAppend(a, b);
    FlattenAppend(a + b, c);
  }

  /** Each instruction as a fragment of its own. */
  function Singletons(xs: Chain): (fs: seq<Chain>)
    ensures |fs| == |xs|
    ensures forall i :: 0 <= i < |xs| ==> fs[i] == [xs[i]]
  {
    seq(|xs|, i requires 0 <= i < |xs| => [xs[i]])
  }

  lemma {:induction false} FlattenSingletons(xs: Chain)
    ensures Flatten(Singletons(xs)) == xs
    decreases |xs|
  {
    if xs != [] {
      assert Singletons(xs)[1..] == Singletons(xs[1..]);
      FlattenSingletons(xs[1..]);
      assert xs == [xs[0]] + xs[1..];
    }
  }

  /** Joining two runs of present fragments leaves no fragment empty. */
  lemma NoEmptyJoin(a: seq<Chain>, b: seq<Chain>)
    requires forall i :: 0 <= i < |a| ==> a[i] != []
    requires forall i :: 0 <= i < |b| ==> b[i] != []
    ensures forall i :: 0 <= i < |a + b| ==> (a + b)[i] != []
  {
    forall i | 0 <= i < |a + b|
      ensures (a + b)[i] != []
    {
      if i >= |a| {
        assert (a + b)[i] == b[i - |a|];
      }
    }
  }

  /** Index of the first empty fragment, or the length when there is none. */
  function FirstEmpty(fs: seq<Chain>): (k: nat)
    ensures k <= |fs|
    ensures forall i :: 0 <= i < k ==> fs[i] != []
    ensures k < |fs| ==> fs[k] == []
  {
    if fs == [] || fs[0] == [] then 0 else 1 + FirstEmpty(fs[1..])
  }

  /**
   `tac_cat_tails_arr` (tac.c:185-202): the fragments before the first NULL,
   in index order; whatever follows the first NULL is dropped.
   */
  function CatArr(fs: seq<Chain>): (c: Chain)
    ensures (forall i :: 0 <= i < |fs| ==> fs[i] != []) ==> c == Flatten(fs)
    ensures forall k :: 0 <= k < |fs| && fs[k] == [] && (forall i :: 0 <= i < k ==> fs[i] != []) ==>
              c == Flatten(fs[..k])
  {
    assert fs[..|fs|] == fs;
    Flatten(fs[..FirstEmpty(fs)])
  }

  /**
   The loop of `tac_cat_tails_arr` as written: count the leading non-NULL
   entries, then splice them from the last one back to the first.
   */
  method CatArrLoop(fs: seq<Chain>) returns (c: Chain)
    ensures c == CatArr(fs)
  {
    var n := 0;
    while n < |fs| && fs[n] != []
      invariant n <= |fs|
      invariant forall i :: 0 <= i < n ==> fs[i] != []
    {
      n := n + 1;
    }
    assert n == FirstEmpty(fs);
    c := [];
    var i := n;
    while i > 0
      invariant 0 <= i <= n
      invariant c == Flatten(fs[i..n])
    {
      i := i - 1;
      assert fs[i..n] == [fs[i]] + fs[i + 1..n];
      c := fs[i] + c;
    }
  }

  /**
   The compaction step of `tac_gencode` (tac.c:614-619): the non-NULL
   fragments, in their order.
   */
  function Compact(fs: seq<Chain>): (r: seq<Chain>)
    ensures |r| <= |fs|
    ensures forall i :: 0 <= i < |r| ==> r[i] != []
    ensures (forall i :: 0 <= i < |fs| ==> fs[i] != []) ==> r == fs
  {
    if fs == [] then []
    else if fs[0] == [] then Compact(fs[1..])
    else [fs[0]] + Compact(fs[1..])
  }

  /** Dropping the NULL entries loses no instruction and reorders none. */
  lemma {:induction false} CompactKeepsCode(fs: seq<Chain>)
    ensures Flatten(Compact(fs)) == Flatten(fs)
    ensures CatArr(Compact(fs)) == Flatten(fs)
    decreases |fs|
  {
    if fs != [] {
      CompactKeepsCode(fs[1..]);
      if fs[0] != [] {
        assert ([fs[0]] + Compact(fs[1..]))[1..] == Compact(fs[1..]);
      }
    }
  }

  /** The compaction loop as written: copy each non-NULL entry to the next free slot. */
  method CompactLoop(fs: seq<Chain>) returns (r: seq<Chain>)
    ensures r == Compact(fs)
  {
    r := [];
    var i := |fs|;
    while i > 0
      invariant 0 <= i <= |fs|
      invariant r == Compact(fs[i..])
    {
      i := i - 1;
      assert fs[i..][1..] == fs[i + 1..];
      if fs[i] != [] {
        r := [fs[i]] + r;
      }
    }
    assert fs[0..] == fs;
  }

  // ---------------------------------------------------------------------
  // Opcode classification
  // ---------------------------------------------------------------------

  /** The tree kinds that lower to an instruction of their own opcode. */
  predicate Mapped(k: Kind) {
    k in {Sym, VSym, Add, Sub, Mul, Div, Le, Ge, Lt, Gt, Eq, Ne, Or, And, Pow, Not, Attr, VAttr}
  }

  /** `tac_ttype_from_atype` (tac.c:204-247): the opcode of an operator or assignment node. */
  function OpcodeOf(k: Kind): (op: Opcode)
    ensures op != TUnk <==> Mapped(k)
  {
    match k
    case Sym => TSym
    case VSym => TVRead
    case Add => TAdd
    case Sub => TSub
    case Mul => TMul
    case Div => TDiv
    case Le => TLe
    case Ge => TGe
    case Lt => TLt
    case Gt => TGt
    case Eq => TEq
    case Ne => TNe
    case Or => TOr
    case And => TAnd
    case Pow => TPow
    case Not => TNot
    case Attr => TCopy
    case VAttr => TVCopy
    case _ => TUnk
  }

  /** Distinct mapped kinds get distinct opcodes. */
  lemma OpcodeOfInjective(k1: Kind, k2: Kind)
    requires Mapped(k1) && Mapped(k2) && OpcodeOf(k1) == OpcodeOf(k2)
    ensures k1 == k2
  {
  }

  /** The opcodes whose instructions `tac_count_dups` treats as having two operands. */
  predicate Operator(op: Opcode) {
    match op
    case TAdd | TSub | TMul | TDiv | TLe | TGe | TGt | TLt | TEq | TNe | TOr | TAnd | TPow | TNot | TVRead => true
    case _ => false
  }

  /** `tac_is_expr` (tac.c:249-274): the opcodes whose instruction yields a value. */
  predicate IsExpr(op: Opcode) {
    match op
    case TSym | TVRead | TAdd | TSub | TMul | TDiv | TLe | TGe | TGt | TLt | TEq | TNe | TOr | TAnd | TPow | TNot | TCall => true
    case _ => false
  }

  /**
   The value-producing opcodes are exactly the two-operand ones, the leaf and
   the call; and every expression node of the tree lowers to one of them.
   */
  lemma ExprOpcodes(op: Opcode, k: Kind)
    ensures IsExpr(op) <==> Operator(op) || op == TSym || op == TCall
    ensures Mapped(k) && k != Attr && k != VAttr ==> IsExpr(OpcodeOf(k))
    ensures !IsExpr(OpcodeOf(Attr)) && !IsExpr(OpcodeOf(VAttr))
  {
  }

  // ---------------------------------------------------------------------
  // tac_count_dups
  // ---------------------------------------------------------------------

  /**
   `tac_count_dups` (tac.c:276-310) on the node at index `i` of `c` (index -1
   is NULL): zero for NULL and for a non-operator; for an operator, two plus
   the counts of its predecessor and of the predecessor's predecessor. An
   operator at the head dereferences the NULL predecessor's link.
   */
  function CountDups(c: Chain, i: int): (r: Result<nat>)
    requires -1 <= i < |c|
    ensures i == -1 || !Operator(c[i].op) ==> r == Ok(0)
    ensures r.Ok? ==> r.value % 2 == 0
    ensures r.Ok? && i >= 0 && Operator(c[i].op) ==> r.value >= 2
    ensures r.Fail? ==> r.fault == Crash
    decreases i + 1
  {
    if i == -1 || !Operator(c[i].op) then Ok(0)
    else if i == 0 then Fail(Crash)
    else
      var d1, d2 := CountDups(c, i - 1), CountDups(c, i - 2);
      if d1.Fail? then d1
      else if d2.Fail? then d2
      else Ok(d1.value + d2.value + 2)
  }

  /** A chain without operators never makes the count fail and never skips anything. */
  lemma {:induction false} NoOperatorsNoDups(c: Chain, i: int)
    requires -1 <= i < |c|
    requires forall j :: 0 <= j < |c| ==> !Operator(c[j].op)
    ensures CountDups(c, i) == Ok(0)
  {
    if i >= 0 {
      assert !Operator(c[i].op);
    }
  }

  // ---------------------------------------------------------------------
  // tac_get_head and tac_validate_ops
  // ---------------------------------------------------------------------

  /** The `prev` link of a node: NULL exactly at the head of its list. */
  function PrevLink(h: Handle): (r: Option<Handle>)
    ensures r.None? <==> h.at == 0
    ensures r.Some? ==> r.value.list == h.list && r.value.at + 1 == h.at
  {
    if h.at == 0 then None else Some(Handle(h.list, h.at - 1))
  }

  /**
   `tac_get_head` (tac.c:698-710): follow the `prev` links from `h` to the
   first node. `prev` starts at the node itself and afterwards is always the
   link of `ans`, so the loop stops exactly at a node without a predecessor.
   */
  method GetHead(h: Option<Handle>) returns (r: Option<Instr>)
    requires Points(h)
    ensures h.None? <==> r.None?
    ensures h.Some? ==> r == Some(h.value.list[0])
  {
    if h.None? {
      return None;
    }
    var ans := h.value;
    var prev := h;
    while prev.Some?
      invariant ans.list == h.value.list && ans.at < |ans.list|
      invariant prev == Some(ans) || prev == PrevLink(ans)
      decreases if prev.Some? then prev.value.at + 1 else 0
    {
      ans := prev.value;
      prev := PrevLink(ans);
    }
    r := Some(ans.list[ans.at]);
  }

  /**
   `tac_validate_ops` (tac.c:712-729): the instruction is present and its
   first `nops` operand slots are set; only counts 1, 2 and exactly 3 are
   inspected, so a larger count checks two slots.
   */
  function ValidateOps(t: Option<Instr>, nops: nat): (r: Result<Instr>)
    ensures r.Ok? <==> t.Some? && (nops >= 1 ==> t.value.ans.Some?)
                               && (nops >= 2 ==> t.value.op1.Some?)
                               && (nops == 3 ==> t.value.op2.Some?)
    ensures r.Ok? ==> r.value == t.value
    ensures r.Fail? ==> r.fault == NullHead
  {
    if t.None? then Fail(NullHead)
    else if nops >= 1 && t.value.ans.None? then Fail(NullHead)
    else if nops >= 2 && t.value.op1.None? then Fail(NullHead)
    else if nops == 3 && t.value.op2.None? then Fail(NullHead)
    else Ok(t.value)
  }

  /** Checking more slots is stricter, up to three; past three only two are checked. */
  lemma ValidateOpsMonotone(t: Option<Instr>, m: nat, n: nat)
    requires m <= n
    ensures n <= 3 && ValidateOps(t, n).Ok? ==> ValidateOps(t, m).Ok?
    ensures n > 3 ==> ValidateOps(t, n) == ValidateOps(t, 2)
  {
  }
}

=== FILE: lowering.dfy ===
/**
 `tac_gencode` and its per-construct helpers (tac.c:312-696): lowering a
 syntax tree to a chain of three-address instructions.

 The hidden counters of hash.c (`DUMMYCT` for temporaries, `LABELCT` for
 labels) and the symbol table the generators insert into travel through the
 lowering as one `Gen` value. Children are lowered first, left to right, so
 every temporary or label a construct creates is numbered after those of its
 children.
 */
module Lowering {
  import opened Outcomes
  import opened Syntax
  import opened Symbols
  import opened Ir

  /** What lowering threads from call to call: the table and the two generator counters. */
  datatype Gen = Gen(table: Table, dummies: nat, labels: nat)

  /** The table keeps every entry and the counters never go back. */
  ghost predicate Advances(g: Gen, g': Gen) {
    Grows(g.table, g'.table) && g.dummies <= g'.dummies && g.labels <= g'.labels
  }

  lemma AdvancesTransitive(g1: Gen, g2: Gen, g3: Gen)
    requires Advances(g1, g2) && Advances(g2, g3)
    ensures Advances(g1, g3)
  {
  }

  /** A fragment and the state after producing it. */
  datatype Lowered = Lowered(code: Chain, gen: Gen)

  /** A generated name and the state after generating it. */
  datatype Temp = Temp(key: string, gen: Gen)

  /** `hash_create_dummy` on the threaded state: a fresh temporary. */
  function NewDummy(g: Gen): (r: Temp)
    ensures r.key == DummyKey(g.dummies)
    ensures r.gen.dummies == g.dummies + 1 && r.gen.labels == g.labels
    ensures Holds(r.gen.table, r.key)
    ensures Advances(g, r.gen)
  {
    var f := CreateDummy(g.table, g.dummies);
    Temp(f.entry.key, Gen(f.table, f.next, g.labels))
  }

  /** `hash_create_label` on the threaded state: a fresh label. */
  function NewLabel(g: Gen): (r: Temp)
    ensures r.key == LabelKey(g.labels)
    ensures r.gen.labels == g.labels + 1 && r.gen.dummies == g.dummies
    ensures Holds(r.gen.table, r.key)
    ensures Advances(g, r.gen)
  {
    var f := CreateLabel(g.table, g.labels);
    Temp(f.entry.key, Gen(f.table, g.dummies, f.next))
  }

  /** The instruction that marks label `key`. */
  function LabelInstr(key: string): Instr {
    Instr(TLabel, Some(key), None, None)
  }

  /** Slot `i` of a child-fragment array; slots past the stored ones are NULL. */
  function At(tarr: seq<Chain>, i: nat): Chain {
    if i < |tarr| then tarr[i] else []
  }

  /**
   `tac_validate_children` (tac.c:148-158): at most NUM_CHILDREN slots are
   asked for and the first `count` fragments are all non-NULL.
   */
  function ValidateFrags(tarr: seq<Chain>, count: nat): (r: Result<()>)
    ensures r.Ok? <==> count <= NumChildren && forall i :: 0 <= i < count ==> At(tarr, i) != []
    ensures r.Fail? ==> r.fault == NullHead
  {
    if count > NumChildren then Fail(NullHead)
    else Need(forall i :: 0 <= i < count ==> At(tarr, i) != [], NullHead)
  }

  // ---------------------------------------------------------------------
  // Leaves, operators and assignments
  // ---------------------------------------------------------------------

  /**
   `tac_gencode_sym` (tac.c:320-335): a leaf becomes the pseudo-instruction
   naming its symbol; a leaf with children aborts the run.
   */
  function LowerSym(n: Node, nchild: nat, g: Gen): (r: Result<Lowered>)
    ensures r.Ok? <==> nchild == 0
    ensures r.Fail? ==> r.fault == LeafWithChildren
    ensures r.Ok? ==> r.value.gen == g && |r.value.code| == 1
    ensures r.Ok? ==> r.value.code[0].op == TSym && Ans(r.value.code) == n.symbol
  {
    if nchild > 0 then Fail(LeafWithChildren)
    else Ok(Lowered([Instr(TSym, n.symbol, None, None)], g))
  }

  /**
   `tac_gencode_expr` and `tac_gencode_vsym` (tac.c:312-318, 337-343): both
   operands' code, then the operator applied to their results into a fresh
   temporary, which becomes the fragment's result.
   */
  function LowerBinary(op: Opcode, tarr: seq<Chain>, g: Gen): (r: Result<Lowered>)
    ensures r.Ok? <==> At(tarr, 0) != [] && At(tarr, 1) != []
    ensures r.Fail? ==> r.fault == NullHead
    ensures r.Ok? ==>
              var t0, t1, d := tarr[0], tarr[1], DummyKey(g.dummies);
              && r.value.code == t0 + t1 + [Instr(op, Some(d), Ans(t0), Ans(t1))]
              && Ans(r.value.code) == Some(d)
              && Holds(r.value.gen.table, d)
              && r.value.gen.dummies == g.dummies + 1 && r.value.gen.labels == g.labels
              && Advances(g, r.value.gen)
  {
    var _ :- ValidateFrags(tarr, 2);
    var d := NewDummy(g);
    Ok(Lowered(tarr[0] + tarr[1] + [Instr(op, Some(d.key), Ans(tarr[0]), Ans(tarr[1]))], d.gen))
  }

  /**
   `tac_gencode_attr` (tac.c:345-351): target and value code, then a copy
   from the value's result into the target's, joined by two tail splices.
   */
  function LowerAttr(tarr: seq<Chain>, g: Gen): (r: Result<Lowered>)
    ensures r.Ok? <==> At(tarr, 0) != [] && At(tarr, 1) != []
    ensures r.Fail? ==> r.fault == NullHead
    ensures r.Ok? ==> r.value.gen == g
    ensures r.Ok? ==> r.value.code == tarr[0] + tarr[1] + [Instr(TCopy, Ans(tarr[0]), Ans(tarr[1]), None)]
  {
    var _ :- ValidateFrags(tarr, 2);
    var front := Splice(tarr[0], tarr[1]);
    var whole := Splice(front, [Instr(TCopy, Ans(tarr[0]), Ans(tarr[1]), None)]);
    Ok(Lowered(whole, g))
  }

  /**
   `tac_gencode_vattr` (tac.c:353-359): vector, index and value code, then a
   vector store of the value at the index; vector and index are spliced,
   value and store are spliced, and then the two halves.
   */
  function LowerVAttr(tarr: seq<Chain>, g: Gen): (r: Result<Lowered>)
    ensures r.Ok? <==> At(tarr, 0) != [] && At(tarr, 1) != [] && At(tarr, 2) != []
    ensures r.Fail? ==> r.fault == NullHead
    ensures r.Ok? ==> r.value.gen == g
    ensures r.Ok? ==> r.value.code == tarr[0] + tarr[1] + tarr[2] +
                                      [Instr(TVCopy, Ans(tarr[0]), Ans(tarr[1]), Ans(tarr[2]))]
  {
    var _ :- ValidateFrags(tarr, 3);
    var front := Splice(tarr[0], tarr[1]);
    var back := Splice(tarr[2], [Instr(TVCopy, Ans(tarr[0]), Ans(tarr[1]), Ans(tarr[2]))]);
    var whole := Splice(front, back);
    Regroup(tarr[0], tarr[1], tarr[2], [Instr(TVCopy, Ans(tarr[0]), Ans(tarr[1]), Ans(tarr[2]))]);
    Ok(Lowered(whole, g))
  }

  // ---------------------------------------------------------------------
  // Calls
  // ---------------------------------------------------------------------

  /** The instruction passing `value` to `callee`. */
  function ArgInstr(value: Option<string>, callee: Option<string>): Instr {
    Instr(TArg, value, callee, None)
  }

  /**
   The argument walk of `tac_gencode_call` (tac.c:368-378), from index `i` of
   the argument chain back to its head: an `arg` for the node at `i`, then a
   jump back over `tac_count_dups` nodes and one more. Stepping past the head
   inside the skip dereferences NULL.
   */
  function ArgWalk(c: Chain, i: int, callee: Option<string>): (r: Result<Chain>)
    requires -1 <= i < |c|
    ensures r.Ok? ==> |r.value| <= i + 1
    ensures r.Ok? ==> forall j :: 0 <= j < |r.value| ==> r.value[j].op == TArg && r.value[j].op1 == callee
    ensures r.Ok? && i >= 0 ==> |r.value| >= 1 && r.value[0] == ArgInstr(c[i].ans, callee)
    ensures r.Fail? ==> r.fault == Crash
    decreases i + 1
  {
    if i == -1 then Ok([])
    else
      var d :- CountDups(c, i);
      if d > i then Fail(Crash)
      else
        var rest :- ArgWalk(c, i - d - 1, callee);
        Ok([ArgInstr(c[i].ans, callee)] + rest)
  }

  /** An argument list of plain values gets one `arg` per value, last value first. */
  lemma {:induction false} ArgWalkPlain(c: Chain, i: int, callee: Option<string>)
    requires -1 <= i < |c|
    requires forall j :: 0 <= j < |c| ==> !Operator(c[j].op)
    ensures ArgWalk(c, i, callee).Ok?
    ensures |ArgWalk(c, i, callee).value| == i + 1
    ensures forall j :: 0 <= j <= i ==> ArgWalk(c, i, callee).value[j] == ArgInstr(c[i - j].ans, callee)
    decreases i + 1
  {
    if i >= 0 {
      NoOperatorsNoDups(c, i);
      ArgWalkPlain(c, i - 1, callee);
      var rest := ArgWalk(c, i - 1, callee).value;
      assert ArgWalk(c, i, callee).value == [ArgInstr(c[i].ans, callee)] + rest;
      forall j | 1 <= j <= i
        ensures ArgWalk(c, i, callee).value[j] == ArgInstr(c[i - j].ans, callee)
      {
        assert rest[j - 1] == ArgInstr(c[i - 1 - (j - 1)].ans, callee);
      }
    }
  }

  /**
   `tac_gencode_call` (tac.c:361-382): the argument code, one `arg` per walked
   argument naming the callee, and a call whose result is a fresh temporary.
   */
  function LowerCall(tarr: seq<Chain>, g: Gen): (r: Result<Lowered>)
    ensures At(tarr, 0) == [] ==> r == Fail(NullHead)
    ensures r.Ok? ==>
              var args, d := At(tarr, 1), DummyKey(g.dummies);
              && |r.value.code| >= |args| + 1
              && r.value.code[..|args|] == args
              && r.value.code[|r.value.code| - 1] == Instr(TCall, Some(d), Ans(At(tarr, 0)), None)
              && (forall j :: |args| <= j < |r.value.code| - 1 ==>
                    r.value.code[j].op == TArg && r.value.code[j].op1 == Ans(At(tarr, 0)))
              && r.value.gen.dummies == g.dummies + 1 && r.value.gen.labels == g.labels
              && Advances(g, r.value.gen)
    ensures r.Fail? ==> r.fault == NullHead || r.fault == Crash
  {
    var _ :- ValidateFrags(tarr, 1);
    var args, callee := At(tarr, 1), Ans(At(tarr, 0));
    var walked :- ArgWalk(args, |args| - 1, callee);
    var d := NewDummy(g);
    var code := args + walked + [Instr(TCall, Some(d.key), callee, None)];
    assert code[..|args|] == args;
    Ok(Lowered(code, d.gen))
  }

  // ---------------------------------------------------------------------
  // Function declarations, commands and control flow
  // ---------------------------------------------------------------------

  /**
   `tac_gencode_fdecl` (tac.c:384-395): the signature and body code between a
   function-start and a function-end marker, both naming the function. The
   declaration needs its signature and body slots and a named signature.
   */
  function LowerFDecl(n: Node, tarr: seq<Chain>, g: Gen): (r: Result<Lowered>)
    ensures r.Ok? <==> At(tarr, 0) != [] && Child(n, 1).Some? && ValidateSymbol(Child(n, 0), 1).Ok?
    ensures r.Ok? ==>
              var name := Child(Child(n, 0).value, 0).value.symbol;
              && name.Some?
              && r.value.code == [Instr(TFStart, name, None, None)] + tarr[0] + At(tarr, 1) +
                                 [Instr(TFEnd, name, None, None)]
              && r.value.gen == g
    ensures r.Fail? ==> r.fault == NullHead || r.fault == NullSymbol
  {
    var _ :- ValidateFrags(tarr, 1);
    var _ :- ValidateChildren(Some(n), 2);
    var sig :- ValidateSymbol(Child(n, 0), 1);
    var name := Child(sig, 0).value.symbol;
    var sigBody := Splice(tarr[0], At(tarr, 1));
    var ans := Splice(sigBody, [Instr(TFEnd, name, None, None)]);
    var whole := Splice([Instr(TFStart, name, None, None)], ans);
    Regroup([Instr(TFStart, name, None, None)], tarr[0], At(tarr, 1), [Instr(TFEnd, name, None, None)]);
    Ok(Lowered(whole, g))
  }

  /**
   `tac_gencode_cond` (tac.c:397-438): the condition, a jump-if-false to a
   fresh label, the then-branch and the label; with an else-branch, a jump to
   a second fresh label follows the then-branch and the else-branch sits
   between the two labels. Both layouts go through `tac_cat_tails_arr`, so an
   empty then-branch cuts the layout short after the conditional jump.
   */
  function LowerCond(tarr: seq<Chain>, g: Gen): (r: Result<Lowered>)
    ensures r.Ok? <==> At(tarr, 0) != []
    ensures r.Fail? ==> r.fault == NullHead
    ensures r.Ok? ==>
              var t0, t1, t2, l1 := tarr[0], At(tarr, 1), At(tarr, 2), LabelKey(g.labels);
              var jmpf := Instr(TJmpF, Some(l1), Ans(t0), None);
              && Advances(g, r.value.gen)
              && r.value.gen.dummies == g.dummies
              && r.value.gen.labels == g.labels + (if t2 == [] then 1 else 2)
              && (t1 == [] ==> r.value.code == t0 + [jmpf])
              && (t1 != [] && t2 == [] ==> r.value.code == t0 + [jmpf] + t1 + [LabelInstr(l1)])
              && (t1 != [] && t2 != [] ==>
                    var l2 := LabelKey(g.labels + 1);
                    r.value.code == t0 + [jmpf] + t1 + [Instr(TJmp, Some(l2), None, None), LabelInstr(l1)] +
                                    t2 + [LabelInstr(l2)])
  {
    var _ :- ValidateFrags(tarr, 1);
    var l1 := NewLabel(g);
    var t0, t1, t2 := tarr[0], At(tarr, 1), At(tarr, 2);
    var jmpf := Instr(TJmpF, Some(l1.key), Ans(t0), None);
    if t2 == [] then
      CondLayout(t0, jmpf, t1, l1.key);
      Ok(Lowered(CatArr([t0, [jmpf], t1, [LabelInstr(l1.key)]]), l1.gen))
    else
      var l2 := NewLabel(l1.gen);
      var jmp := Instr(TJmp, Some(l2.key), None, None);
      CondElseLayout(t0, jmpf, t1, jmp, l1.key, t2, l2.key);
      Ok(Lowered(CatArr([t0, [jmpf], t1] + Singletons([jmp, LabelInstr(l1.key)]) + [t2, [LabelInstr(l2.key)]]), l2.gen))
  }

  lemma CondLayout(t0: Chain, jmpf: Instr, t1: Chain, l1: string)
    requires t0 != []
    ensures var fs := [t0, [jmpf], t1, [LabelInstr(l1)]];
            && (t1 == [] ==> CatArr(fs) == t0 + [jmpf])
            && (t1 != [] ==> CatArr(fs) == t0 + [jmpf] + t1 + [LabelInstr(l1)])
  {
    var fs := [t0, [jmpf], t1, [LabelInstr(l1)]];
    assert fs[..2] == [t0, [jmpf]];
    FlattenAt(fs[..2], 0);
    FlattenAt(fs[..2], 1);
    assert fs[..2][2..] == [];
    if t1 != [] {
      FlattenAt(fs, 0);
      FlattenAt(fs, 1);
      FlattenAt(fs, 2);
      FlattenAt(fs, 3);
      assert fs[4..] == [] && fs[0..] == fs;
    }
  }

  lemma CondElseLayout(t0: Chain, jmpf: Instr, t1: Chain, jmp: Instr, l1: string, t2: Chain, l2: string)
    requires t0 != [] && t2 != []
    ensures var fs := [t0, [jmpf], t1] + Singletons([jmp, LabelInstr(l1)]) + [t2, [LabelInstr(l2)]];
            && (t1 == [] ==> CatArr(fs) == t0 + [jmpf])
            && (t1 != [] ==> CatArr(fs) == t0 + [jmpf] + t1 + [jmp, LabelInstr(l1)] + t2 + [LabelInstr(l2)])
  {
    var a, b, c := [t0, [jmpf], t1], Singletons([jmp, LabelInstr(l1)]), [t2, [LabelInstr(l2)]];
    var fs := a + b + c;
    assert fs[..2] == [t0, [jmpf]];
    FlattenAt(fs[..2], 0);
    FlattenAt(fs[..2], 1);
    assert fs[..2][2..] == [];
    if t1 != [] {
      FlattenAt(a, 0);
      FlattenAt(a, 1);
      FlattenAt(a, 2);
      assert a[3..] == [] && a[0..] == a;
      FlattenAt(c, 0);
      FlattenAt(c, 1);
      assert c[2..] == [] && c[0..] == c;
      FlattenSingletons([jmp, LabelInstr(l1)]);
      FlattenAppend(a, b);
      FlattenAppend(a + b, c);
      assert forall i :: 0 <= i < |fs| ==> fs[i] != [];
    }
  }

  /**
   `tac_gencode_loop` (tac.c:440-512), for `for (id : ini, endc, inc) cmd`:
   the code of the four operands, a copy of the initial value into the
   variable, the check label, a less-than into a fresh temporary, a
   jump-if-false to the end label, the body when there is one, the increment
   added into the variable, a jump back to the check and the end label.
   */
  function LowerLoop(tarr: seq<Chain>, g: Gen): (r: Result<Lowered>)
    ensures r.Ok? <==> At(tarr, 0) != [] && At(tarr, 1) != [] && At(tarr, 2) != [] && At(tarr, 3) != []
    ensures r.Fail? ==> r.fault == NullHead
    ensures r.Ok? ==>
              var id, ini, endc, inc := Ans(tarr[0]), Ans(tarr[1]), Ans(tarr[2]), Ans(tarr[3]);
              var check, end, tmp := LabelKey(g.labels), LabelKey(g.labels + 1), DummyKey(g.dummies);
              && r.value.code == tarr[0] + tarr[1] + tarr[2] + tarr[3] +
                                 [ Instr(TCopy, id, ini, None), LabelInstr(check),
                                   Instr(TLt, Some(tmp), id, endc), Instr(TJmpF, Some(end), Some(tmp), None) ] +
                                 At(tarr, 4) +
                                 [ Instr(TAdd, id, id, inc), Instr(TJmp, Some(check), None, None), LabelInstr(end) ]
              && r.value.gen.labels == g.labels + 2 && r.value.gen.dummies == g.dummies + 1
              && Advances(g, r.value.gen)
  {
    var _ :- ValidateFrags(tarr, 4);
    var check := NewLabel(g);
    var end := NewLabel(check.gen);
    var tmp := NewDummy(end.gen);
    var id, ini, endc, inc := Ans(tarr[0]), Ans(tarr[1]), Ans(tarr[2]), Ans(tarr[3]);
    var head := [Instr(TCopy, id, ini, None), LabelInstr(check.key),
                 Instr(TLt, Some(tmp.key), id, endc), Instr(TJmpF, Some(end.key), Some(tmp.key), None)];
    var tail := [Instr(TAdd, id, id, inc), Instr(TJmp, Some(check.key), None, None), LabelInstr(end.key)];
    var body := if At(tarr, 4) == [] then [] else [At(tarr, 4)];
    var fs := [tarr[0], tarr[1], tarr[2], tarr[3]] + Singletons(head) + body + Singletons(tail);
    LoopLayout(tarr[0], tarr[1], tarr[2], tarr[3], head, At(tarr, 4), tail);
    Ok(Lowered(CatArr(fs), tmp.gen))
  }

  lemma LoopLayout(t0: Chain, t1: Chain, t2: Chain, t3: Chain, head: Chain, body: Chain, tail: Chain)
    requires t0 != [] && t1 != [] && t2 != [] && t3 != [] && head != [] && tail != []
    ensures var fs := [t0, t1, t2, t3] + Singletons(head) + (if body == [] then [] else [body]) + Singletons(tail);
            CatArr(fs) == t0 + t1 + t2 + t3 + head + body + tail
  {
    var a, h, m, tl := [t0, t1, t2, t3], Singletons(head), (if body == [] then [] else [body]), Singletons(tail);
    FlattenSmall(t0, t1, []);
    FlattenSmall(t2, t3, []);
    assert a == [t0, t1] + [t2, t3];
    FlattenAppend([t0, t1], [t2, t3]);
    if body != [] {
      FlattenSmall(body, [], []);
    }
    FlattenSingletons(head);
    FlattenSingletons(tail);
    FlattenJoin(a, h, m);
    FlattenAppend(a + h + m, tl);
    NoEmptyJoin(a, h);
    NoEmptyJoin(a + h, m);
    NoEmptyJoin(a + h + m, tl);
  }

  /**
   `tac_gencode_whiledo` (tac.c:522-568): the check label, the condition, a
   jump-if-false to the end label, the body when there is one, a jump back
   to the check and the end label.
   */
  function LowerWhile(tarr: seq<Chain>, g: Gen): (r: Result<Lowered>)
    ensures r.Ok? <==> At(tarr, 0) != []
    ensures r.Fail? ==> r.fault == NullHead
    ensures r.Ok? ==>
              var check, end := LabelKey(g.labels), LabelKey(g.labels + 1);
              && r.value.code == [LabelInstr(check)] + tarr[0] + [Instr(TJmpF, Some(end), Ans(tarr[0]), None)] +
                                 At(tarr, 1) + [Instr(TJmp, Some(check), None, None), LabelInstr(end)]
              && r.value.gen.labels == g.labels + 2 && r.value.gen.dummies == g.dummies
              && Advances(g, r.value.gen)
  {
    var _ :- ValidateFrags(tarr, 1);
    var check := NewLabel(g);
    var end := NewLabel(check.gen);
    var jf := Instr(TJmpF, Some(end.key), Ans(tarr[0]), None);
    var jmp := Instr(TJmp, Some(check.key), None, None);
    var fs := if At(tarr, 1) != [] then
                [[LabelInstr(check.key)], tarr[0], [jf], At(tarr, 1), [jmp], [LabelInstr(end.key)]]
              else
                [[LabelInstr(check.key)], tarr[0], [jf], [jmp], [LabelInstr(end.key)]];
    WhileLayout(LabelInstr(check.key), tarr[0], jf, At(tarr, 1), jmp, LabelInstr(end.key), fs);
    Ok(Lowered(CatArr(fs), end.gen))
  }

  lemma WhileLayout(a: Instr, t0: Chain, jf: Instr, body: Chain, jmp: Instr, b: Instr, fs: seq<Chain>)
    requires t0 != []
    requires fs == if body != [] then [[a], t0, [jf], body, [jmp], [b]] else [[a], t0, [jf], [jmp], [b]]
    ensures CatArr(fs) == [a] + t0 + [jf] + body + [jmp, b]
  {
    var pre, post := [[a], t0, [jf]], [[jmp], [b]];
    FlattenSmall([a], t0, [jf]);
    FlattenSmall([jmp], [b], []);
    assert [jmp] + [b] == [jmp, b];
    if body != [] {
      assert fs == pre + [body] + post;
      FlattenSmall(body, [], []);
      FlattenJoin(pre, [body], post);
    } else {
      assert fs == pre + [] + post;
      FlattenJoin(pre, [], post);
    }
    assert forall i :: 0 <= i < |fs| ==> fs[i] != [];
  }

  /** `tac_gencode_read` (tac.c:514-520): the target's code spliced before a read into its result. */
  function LowerRead(tarr: seq<Chain>, g: Gen): (r: Result<Lowered>)
    ensures r.Ok? <==> At(tarr, 0) != []
    ensures r.Fail? ==> r.fault == NullHead
    ensures r.Ok? ==> r.value.gen == g
    ensures r.Ok? ==> r.value.code == tarr[0] + [Instr(TRead, Ans(tarr[0]), None, None)]
  {
    var _ :- ValidateFrags(tarr, 1);
    var whole := Splice(tarr[0], [Instr(TRead, Ans(tarr[0]), None, None)]);
    Ok(Lowered(whole, g))
  }

  /** `tac_gencode_ret` (tac.c:570-576): the value's code spliced before a return of its result. */
  function LowerRet(tarr: seq<Chain>, g: Gen): (r: Result<Lowered>)
    ensures r.Ok? <==> At(tarr, 0) != []
    ensures r.Fail? ==> r.fault == NullHead
    ensures r.Ok? ==> r.value.gen == g
    ensures r.Ok? ==> r.value.code == tarr[0] + [Instr(TRet, Ans(tarr[0]), None, None)]
  {
    var _ :- ValidateFrags(tarr, 1);
    var whole := Splice(tarr[0], [Instr(TRet, Ans(tarr[0]), None, None)]);
    Ok(Lowered(whole, g))
  }

  /**
   The backward walk of `tac_gencode_print` (tac.c:583-594): from index `i`
   towards the head, one print per node while the nodes yield values; the
   first node that does not stops the walk.
   */
  function PrintWalk(c: Chain, i: int): (r: Chain)
    requires -1 <= i < |c|
    ensures |r| <= i + 1
    ensures forall j :: 0 <= j < |r| ==> r[j].op == TPrint
    decreases i + 1
  {
    if i == -1 || !IsExpr(c[i].op) then []
    else [Instr(TPrint, c[i].ans, None, None)] + PrintWalk(c, i - 1)
  }

  /**
   The walk prints, last first, exactly the longest run of value-producing
   nodes that ends at index `i`.
   */
  lemma {:induction false} PrintWalkMeaning(c: Chain, i: int)
    requires -1 <= i < |c|
    ensures var r := PrintWalk(c, i);
            && (forall k :: i - |r| < k <= i ==> IsExpr(c[k].op) && r[i - k] == Instr(TPrint, c[k].ans, None, None))
            && (|r| <= i ==> !IsExpr(c[i - |r|].op))
    decreases i + 1
  {
    if i >= 0 && IsExpr(c[i].op) {
      PrintWalkMeaning(c, i - 1);
      var rest := PrintWalk(c, i - 1);
      var r := PrintWalk(c, i);
      assert r == [Instr(TPrint, c[i].ans, None, None)] + rest;
      forall k | i - |r| < k <= i
        ensures IsExpr(c[k].op) && r[i - k] == Instr(TPrint, c[k].ans, None, None)
      {
        if k < i {
          assert r[i - k] == rest[(i - 1) - k];
        }
      }
    }
  }

  /**
   `tac_gencode_print` (tac.c:578-595): the prints of the walk alone; the
   code computing the printed values is not part of the result.
   */
  function LowerPrint(tarr: seq<Chain>, g: Gen): (r: Result<Lowered>)
    ensures r.Ok? <==> At(tarr, 0) != []
    ensures r.Fail? ==> r.fault == NullHead
    ensures r.Ok? ==> r.value.gen == g && forall j :: 0 <= j < |r.value.code| ==> r.value.code[j].op == TPrint
    ensures r.Ok? ==> |r.value.code| <= |tarr[0]|
    ensures r.Ok? ==> (r.value.code != [] <==> IsExpr(tarr[0][|tarr[0]| - 1].op))
  {
    var _ :- ValidateFrags(tarr, 1);
    Ok(Lowered(PrintWalk(tarr[0], |tarr[0]| - 1), g))
  }

  // ---------------------------------------------------------------------
  // tac_gencode
  // ---------------------------------------------------------------------

  /** The fragments of the children lowered so far and the state after them. */
  datatype Kids = Kids(frags: seq<Chain>, gen: Gen)

  predicate BinaryKind(k: Kind) {
    k in {Add, Sub, Mul, Div, Lt, Gt, Or, Pow, Not, And, Le, Ge, Eq, Ne}
  }

  /** The kinds that produce no instruction of their own and only join their children's code. */
  predicate Scaffold(k: Kind) {
    k in {Paren, Op, KwChar, KwInt, KwFloat, KwBool, VList, PList, Cmdl, Block, FSig, TVar, Csv, Decl, VDecl}
  }

  /** `tac_gencode` (tac.c:597-696) on a possibly NULL tree: NULL lowers to the empty fragment. */
  function Lower(h: Option<Node>, g: Gen): (r: Result<Lowered>)
    ensures h.None? ==> r == Ok(Lowered([], g))
    ensures r.Ok? ==> Advances(g, r.value.gen)
  {
    match h
    case None => Ok(Lowered([], g))
    case Some(n) => LowerNode(n, g)
  }

  /**
   `tac_gencode` on a node: its children up to the first NULL slot are
   lowered left to right, the NULL fragments among the results are dropped,
   and the node's kind picks the construct. A scaffold node's fragment is its
   children's code, joined.
   */
  function LowerNode(n: Node, g: Gen): (r: Result<Lowered>)
    ensures r.Ok? ==> Advances(g, r.value.gen)
    ensures r.Ok? ==> LowerKids(n, 0, g).Ok?
    ensures n.kind == Sym && Child(n, 0).None? ==> r == Ok(Lowered([Instr(TSym, n.symbol, None, None)], g))
    ensures n.kind == Sym && Child(n, 0).Some? ==> r.Fail?
    decreases n, NumChildren + 1
  {
    var kids :- LowerKids(n, 0, g);
    var tarr := Compact(kids.frags);
    var g1 := kids.gen;
    var r :- match n.kind
      case Sym => LowerSym(n, |kids.frags|, g1)
      case VSym => LowerBinary(TVRead, tarr, g1)
      case Attr => LowerAttr(tarr, g1)
      case VAttr => LowerVAttr(tarr, g1)
      case Call => LowerCall(tarr, g1)
      case FDecl => LowerFDecl(n, tarr, g1)
      case Cond => LowerCond(tarr, g1)
      case For => LowerLoop(tarr, g1)
      case Read => LowerRead(tarr, g1)
      case While => LowerWhile(tarr, g1)
      case Ret => LowerRet(tarr, g1)
      case Print => LowerPrint(tarr, g1)
      case _ =>
        if BinaryKind(n.kind) then LowerBinary(OpcodeOf(n.kind), tarr, g1)
        else Ok(Lowered(CatArr(tarr), g1));
    AdvancesTransitive(g, g1, r.gen);
    Ok(r)
  }

  /**
   The children of `n` from slot `i` up to the first NULL slot, each lowered
   with the state its left sibling left behind.
   */
  function LowerKids(n: Node, i: nat, g: Gen): (r: Result<Kids>)
    requires i <= NumChildren
    ensures r.Ok? ==> |r.value.frags| == FirstNull(n, i, NumChildren) - i
    ensures r.Ok? ==> Advances(g, r.value.gen)
    decreases n, NumChildren - i
  {
    if i == NumChildren || Child(n, i).None? then Ok(Kids([], g))
    else
      var first :- LowerNode(Child(n, i).value, g);
      var rest :- LowerKids(n, i + 1, first.gen);
      AdvancesTransitive(g, first.gen, rest.gen);
      Ok(Kids([first.code] + rest.frags, rest.gen))
  }
}

=== FILE: numerals.dfy ===
/**
 Number spellings the back end reads and writes.

 - `%d` / `%ld` decimal output, used for generated names (`dummy%d`,
   `label%d`) and for data cells (`.long %ld`);
 - `strtol(s, &end, 16)` as `asm_strtol` uses it (asm.c): every literal the
   emitter turns into a number is read in base 16.

 Characters are taken by code point; `long` is 64 bits wide.
 */
module Numerals {
  import opened Outcomes

  const LongMin: int := -0x8000_0000_0000_0000
  const LongMax: int := 0x7fff_ffff_ffff_ffff

  // ---------------------------------------------------------------------
  // Decimal
  // ---------------------------------------------------------------------

  predicate IsDigit(c: char) {
    '0' <= c <= '9'
  }

  function DigitChar(d: nat): (c: char)
    requires d < 10
    ensures IsDigit(c)
  {
    ('0' as int + d) as char
  }

  /** `%d` of a non-negative number: most significant digit first, no leading zeros. */
  function NatToDec(n: nat): (s: string)
    ensures |s| >= 1
    ensures forall i :: 0 <= i < |s| ==> IsDigit(s[i])
    decreases n
  {
    if n < 10 then [DigitChar(n)] else NatToDec(n / 10) + [DigitChar(n % 10)]
  }

  /** `%ld` of any number. */
  function IntToDec(v: int): (s: string)
    ensures |s| >= 1
  {
    if v < 0 then "-" + NatToDec(-v) else NatToDec(v)
  }

  /** The number a string of decimal digits spells. */
  function DecValue(s: string): nat
    requires forall i :: 0 <= i < |s| ==> IsDigit(s[i])
    decreases |s|
  {
    if s == [] then 0
    else
      assert IsDigit(s[|s| - 1]);
      DecValue(s[..|s| - 1]) * 10 + (s[|s| - 1] as int - '0' as int)
  }

  /** Reading back what `%d` printed gives the number again. */
  lemma {:induction false} DecRoundTrip(n: nat)
    ensures DecValue(NatToDec(n)) == n
    decreases n
  {
    if n >= 10 {
      var s := NatToDec(n);
      assert s[..|s| - 1] == NatToDec(n / 10);
      DecRoundTrip(n / 10);
    }
  }

  /** Distinct numbers print differently. */
  lemma NatToDecInjective(m: nat, n: nat)
    requires m != n
    ensures NatToDec(m) != NatToDec(n)
  {
    DecRoundTrip(m);
    DecRoundTrip(n);
  }

  // ---------------------------------------------------------------------
  // Hexadecimal (strtol base 16)
  // ---------------------------------------------------------------------

  /** The value of a hexadecimal digit, either case. */
  function HexDigit(c: char): (r: Option<nat>)
    ensures r.Some? ==> r.value < 16
    ensures r.Some? <==> (IsDigit(c) || 'a' <= c <= 'f' || 'A' <= c <= 'F')
  {
    if IsDigit(c) then Some(c as int - '0' as int)
    else if 'a' <= c <= 'f' then Some(c as int - 'a' as int + 10)
    else if 'A' <= c <= 'F' then Some(c as int - 'A' as int + 10)
    else None
  }

  predicate IsHex(c: char) {
    HexDigit(c).Some?
  }

  predicate AllHex(s: string) {
    forall i :: 0 <= i < |s| ==> IsHex(s[i])
  }

  /** The value of a string of hexadecimal digits. */
  function HexValue(s: string): nat
    requires AllHex(s)
    decreases |s|
  {
    if s == [] then 0 else HexValue(s[..|s| - 1]) * 16 + HexDigit(s[|s| - 1]).value
  }

  /** The characters C's `isspace` accepts in the "C" locale. */
  predicate IsSpace(c: char) {
    c == ' ' || c == '\t' || c == '\n' || c == '\r' || c == '\U{0B}' || c == '\U{0C}'
  }

  /** Index of the first non-space character at or after `i`. */
  function SkipSpaces(s: string, i: nat): (j: nat)
    requires i <= |s|
    ensures i <= j <= |s|
    ensures j < |s| ==> !IsSpace(s[j])
    ensures forall k :: i <= k < j ==> IsSpace(s[k])
    decreases |s| - i
  {
    if i < |s| && IsSpace(s[i]) then SkipSpaces(s, i + 1) else i
  }

  /**
   `asm_strtol` (asm.c:16-29): `strtol(s, &end, 16)` -- leading white space,
   an optional sign, an optional `0x`/`0X`, then hexadecimal digits -- with the
   result replaced by 0 when the value does not fit a `long` (strtol reports
   ERANGE) or when any character is left unconverted.
   */
  function Strtol16(s: string): (r: int)
    ensures LongMin <= r <= LongMax
    ensures r != 0 ==> s != [] && IsHex(s[|s| - 1])
  {
    var i := SkipSpaces(s, 0);
    var k := PrefixEnd(s, SignEnd(s, i));
    var r := DigitsValue(s[k..], i < |s| && s[i] == '-');
    assert r != 0 ==> s[|s| - 1] == s[k..][|s[k..]| - 1];
    r
  }

  /** Past the optional sign at `i`. */
  function SignEnd(s: string, i: nat): (j: nat)
    requires i <= |s|
    ensures i <= j <= |s|
  {
    if i < |s| && (s[i] == '-' || s[i] == '+') then i + 1 else i
  }

  /** Past an optional `0x` or `0X` at `j`, taken only when a digit follows it. */
  function PrefixEnd(s: string, j: nat): (k: nat)
    requires j <= |s|
    ensures j <= k <= |s|
  {
    if j + 2 < |s| && s[j] == '0' && (s[j + 1] == 'x' || s[j + 1] == 'X') && IsHex(s[j + 2]) then j + 2 else j
  }

  /**
   The rest of the string read as digits: 0 when nothing or something other
   than digits is there, or when the value does not fit a `long`.
   */
  function DigitsValue(digits: string, neg: bool): (r: int)
    ensures LongMin <= r <= LongMax
    ensures r != 0 ==> digits != [] && AllHex(digits)
  {
    if digits == [] || !AllHex(digits) then 0
    else
      var h: int := HexValue(digits);
      var v := if neg then -h else h;
      if v < LongMin || v > LongMax then 0 else v
  }

  /** Lower-case hexadecimal spelling of a number, most significant digit first. */
  function NatToHex(n: nat): (s: string)
    ensures |s| >= 1 && AllHex(s)
    decreases n
  {
    var d := n % 16;
    var c := if d < 10 then DigitChar(d) else ('a' as int + d - 10) as char;
    assert IsHex(c);
    if n < 16 then [c] else NatToHex(n / 16) + [c]
  }

  lemma {:induction false} HexRoundTrip(n: nat)
    ensures HexValue(NatToHex(n)) == n
    decreases n
  {
    var s := NatToHex(n);
    if n >= 16 {
      assert s[..|s| - 1] == NatToHex(n / 16);
      HexRoundTrip(n / 16);
    }
  }

  /** Every number a `long` can hold, spelled in hexadecimal, is read back by `asm_strtol`. */
  lemma StrtolReadsHex(n: nat)
    requires n <= LongMax
    ensures Strtol16(NatToHex(n)) == n
  {
    var s := NatToHex(n);
    assert !IsSpace(s[0]) && s[0] != '-' && s[0] != '+';
    assert |s| >= 2 ==> s[1] != 'x' && s[1] != 'X';
    assert s[0..] == s;
    HexRoundTrip(n);
  }

  /** White space before a character that is not white space is skipped exactly. */
  lemma {:induction false} SkipSpacesOver(ws: string, t: string, i: nat)
    requires i <= |ws|
    requires forall k :: 0 <= k < |ws| ==> IsSpace(ws[k])
    requires t != [] && !IsSpace(t[0])
    ensures SkipSpaces(ws + t, i) == |ws|
    decreases |ws| - i
  {
    if i < |ws| {
      assert (ws + t)[i] == ws[i];
      SkipSpacesOver(ws, t, i + 1);
    } else {
      assert (ws + t)[i] == t[0];
    }
  }

  /** The optional sign and base prefix `strtol` accepts before the digits. */
  predicate SignAndPrefix(sign: string, x: string) {
    (sign == "" || sign == "+" || sign == "-") && (x == "" || x == "0x" || x == "0X")
  }

  /** The value `strtol` converts: the digits, negated after a minus sign. */
  function Converted(sign: string, d: string): int
    requires AllHex(d)
  {
    var h: int := HexValue(d);
    if sign == "-" then -h else h
  }

  /**
   A number spelled with leading white space, an optional sign and an
   optional `0x` reads as its value when that fits a `long`; one that does
   not fit, on either side, reads as 0.
   */
  lemma StrtolReadsNumber(ws: string, sign: string, x: string, d: string)
    requires forall k :: 0 <= k < |ws| ==> IsSpace(ws[k])
    requires SignAndPrefix(sign, x)
    requires d != [] && AllHex(d)
    ensures var v := Converted(sign, d);
            Strtol16(ws + sign + x + d) == if LongMin <= v <= LongMax then v else 0
  {
    var s := ws + sign + x + d;
    StrtolSplit(ws, sign, x, d);
    assert s[|ws| + |sign| + |x|..] == d;
  }

  /**
   A character that is not a hexadecimal digit anywhere after the first
   digit leaves characters unconverted, so the string reads as 0; the one
   exception is the `x` of a `0x` prefix.
   */
  lemma StrtolRejectsUnconverted(ws: string, sign: string, x: string, d: string, c: char, rest: string)
    requires forall k :: 0 <= k < |ws| ==> IsSpace(ws[k])
    requires SignAndPrefix(sign, x)
    requires d != [] && AllHex(d) && !IsHex(c)
    requires x == "" && d == "0" ==> c != 'x' && c != 'X'
    ensures Strtol16(ws + sign + x + d + [c] + rest) == 0
  {
    var u := d + [c] + rest;
    assert ws + sign + x + d + [c] + rest == ws + sign + x + u;
    assert u[0] == d[0] && u[|d|] == c;
    assert |u| >= 2 ==> u[1] == (if |d| >= 2 then d[1] else c);
    StrtolSplit(ws, sign, x, u);
    var s := ws + sign + x + u;
    assert s[|ws| + |sign| + |x|..] == u;
    assert !AllHex(u) by {
      assert !IsHex(u[|d|]);
    }
  }

  /**
   Where `asm_strtol`'s reading of white space, sign and prefix ends, for a
   rest that starts with a digit and cannot be read as a second `0x`.
   */
  lemma StrtolSplit(ws: string, sign: string, x: string, u: string)
    requires forall k :: 0 <= k < |ws| ==> IsSpace(ws[k])
    requires SignAndPrefix(sign, x)
    requires u != [] && IsHex(u[0])
    requires x == "" && |u| >= 2 && u[0] == '0' ==> u[1] != 'x' && u[1] != 'X'
    ensures var s := ws + sign + x + u;
            var i := SkipSpaces(s, 0);
            && i == |ws|
            && (i < |s| && s[i] == '-' <==> sign == "-")
            && PrefixEnd(s, SignEnd(s, i)) == |ws| + |sign| + |x|
            && Strtol16(s) == DigitsValue(s[|ws| + |sign| + |x|..], sign == "-")
  {
    Regroup(ws, sign, x, u);
    Heads(sign, x, u);
    SkipSpacesOver(ws, sign + x + u, 0);
    SignSkipped(ws, sign, x + u);
    PrefixSkipped(ws + sign, x, u);
  }

  /** The first character after the white space, and after the sign. */
  lemma Heads(sign: string, x: string, u: string)
    requires SignAndPrefix(sign, x) && u != []
    ensures (sign + x + u)[0] == if sign != "" then sign[0] else if x != "" then '0' else u[0]
    ensures (x + u)[0] == if x != "" then '0' else u[0]
  {
  }

  /** The groupings of a four-part spelling the reading steps look at. */
  lemma Regroup(a: string, b: string, c: string, d: string)
    ensures a + b + c + d == a + (b + c + d)
    ensures a + b + c + d == (a + b) + (c + d)
  {
  }

  /** The sign step takes exactly the sign, when something follows it. */
  lemma SignSkipped(pre: string, sign: string, v: string)
    requires sign == "" || sign == "+" || sign == "-"
    requires v != [] && v[0] != '-' && v[0] != '+'
    ensures var s := pre + sign + v;
            && SignEnd(s, |pre|) == |pre| + |sign|
            && (s[|pre|] == '-' <==> sign == "-")
  {
    var s := pre + sign + v;
    assert s[|pre|] == if sign == "" then v[0] else sign[0];
  }

  /** The prefix step takes exactly the `0x` or `0X` there is, before a rest that starts with a digit. */
  lemma PrefixSkipped(pre: string, x: string, u: string)
    requires x == "" || x == "0x" || x == "0X"
    requires u != [] && IsHex(u[0])
    requires x == "" && |u| >= 2 && u[0] == '0' ==> u[1] != 'x' && u[1] != 'X'
    ensures PrefixEnd(pre + x + u, |pre|) == |pre| + |x|
  {
    var s := pre + x + u;
    var j := |pre|;
    if x == "" {
      assert s[j] == u[0];
      assert |u| >= 2 ==> s[j + 1] == u[1];
    } else {
      assert s[j] == '0' && s[j + 1] == x[1] && s[j + 2] == u[0];
    }
  }


  /** A string with a character that is neither part of the number nor leading space reads as 0. */
  lemma StrtolRejectsTrailing(s: string, c: char)
    requires s != [] && AllHex(s)
    requires !IsHex(c)
    ensures Strtol16(s + [c]) == 0
  {
    var t := s + [c];
    assert !IsHex(t[|t| - 1]);
  }
}

=== FILE: outcomes.dfy ===
/**
 Failure-compatible wrappers shared by every stage of the back end.

 The C program has no recoverable errors: every structural inconsistency ends
 the process through `exit(E_SYNTAX)`, one of the `LOG_*_AND_EXIT` macros or
 `LOG_AND_EXIT`, and a null dereference simply crashes it. Each such exit is a
 `Fail` here, labelled with the reason the source prints.
 */
module Outcomes {

  /** A value that may be absent: the C program's nullable pointer. */
  datatype Option<+T> = None | Some(value: T)

  /** Why a run ends early. */
  datatype Fault =
    | NullHead          // a required node, child or fragment is NULL (LOG_NHEAD_AND_EXIT, exit code E_SYNTAX)
    | NullSymbol        // a required node has no symbol (LOG_NSYM_AND_EXIT, exit code E_SYNTAX)
    | TooManyChildren   // ast_create asked for more than NUM_CHILDREN children (E_SYNTAX)
    | LeafWithChildren  // a symbol leaf that has children (E_SYNTAX)
    | NotATail          // a fragment handle whose `next` link is not NULL (E_SYNTAX)
    | NoSignature       // a function declaration whose first child is not a signature (E_SYNTAX)
    | NotAComparison    // asm_print_cmp on a non-comparison opcode (LOG_AND_EXIT)
    | NotAnExpression   // asm_print_expr on a non-expression opcode (LOG_AND_EXIT)
    | ArgcMismatch      // more arguments than parameters, or no parameter list (LOG_AND_EXIT)
    | MaxArgcExceeded   // a parameter list of MAX_ARGC or more entries (LOG_AND_EXIT)
    | NoVectorSize      // a vector entry without size information (LOG_AND_EXIT)
    | InvalidVectorSize // a vector whose size parses to 0 (LOG_AND_EXIT)
    | Crash             // a NULL dereference or buffer overrun: undefined behaviour, no diagnostic

  /** The exit status `E_SYNTAX` (errors.h) that the explicit exits use. */
  const SyntaxExit := 3

  /** Either a value or the fault that stopped the run. */
  datatype Result<+T> = Ok(value: T) | Fail(fault: Fault) {

    predicate IsFailure() {
      Fail?
    }

    function PropagateFailure<U>(): Result<U>
      requires Fail?
    {
      Fail(fault)
    }

    function Extract(): T
      requires Ok?
    {
      value
    }
  }

  /** `Ok(())` when `condition` holds, otherwise the fault. */
  function Need(condition: bool, fault: Fault): (r: Result<()>)
    ensures r.Ok? <==> condition
    ensures r.Fail? ==> r.fault == fault
  {
    if condition then Ok(()) else Fail(fault)
  }
}

=== FILE: semantic.dfy ===
/**
 The type checker (semantic.c): declaration checks that record natures and
 types in the symbol table, expression typing, the numeric-operand rule, and
 the checks of function calls against their declarations.

 A node's symbol is a spelling; the table supplies its entry. Every check
 that the C code ends with an exit is a `Fail` here. Error counts are the
 numbers the C functions return; their stderr reports are not modelled.
 */
module Semantic {
  import opened Outcomes
  import opened Syntax
  import opened Symbols

  // ---------------------------------------------------------------------
  // Keyword types
  // ---------------------------------------------------------------------

  /** `semantic_get_type` (semantic.c:52-62): the type a type keyword names, unknown for any other node. */
  function TypeOfKeyword(k: Kind): (ty: Type)
    ensures ty != UnknownT <==> k in {KwChar, KwInt, KwFloat, KwBool}
    ensures ty != StrT
  {
    match k
    case KwChar => CharT
    case KwInt => IntT
    case KwFloat => FloatT
    case KwBool => BoolT
    case _ => UnknownT
  }

  /** The keyword's type and its printed spelling (`ast_kw_to_str`) name the same thing. */
  lemma KeywordTypeMatchesSpelling(k: Kind)
    ensures TypeOfKeyword(k) == CharT <==> KwName(k) == "char"
    ensures TypeOfKeyword(k) == IntT <==> KwName(k) == "int"
    ensures TypeOfKeyword(k) == FloatT <==> KwName(k) == "float"
    ensures TypeOfKeyword(k) == BoolT <==> KwName(k) == "bool"
    ensures TypeOfKeyword(k) == UnknownT <==> KwName(k) == "ERROR"
  {
  }

  // ---------------------------------------------------------------------
  // Table/tree consistency
  // ---------------------------------------------------------------------

  /** A possibly absent subtree whose symbols are all in the table. */
  ghost predicate ResolvedOpt(t: Table, h: Option<Node>) {
    h.Some? ==> Resolved(t, h.value)
  }

  /** Every declaration link stored in the table points at a subtree resolved in the table. */
  ghost predicate Closed(t: Table) {
    forall k :: Holds(t, k) && Get(t, k).astinfo.Some? ==> Resolved(t, Get(t, k).astinfo.value)
  }

  /** Two tables hold the same spellings. */
  ghost predicate SameKeys(t: Table, t': Table) {
    Grows(t, t') && Grows(t', t)
  }

  lemma SetInfoSameKeys(t: Table, key: string, info: TypeInfo)
    requires Holds(t, key)
    ensures SameKeys(t, SetInfo(t, key, info))
  {
    var r := SetInfo(t, key, info);
    forall k ensures Holds(t, k) <==> Holds(r, k) {
      if k != key {
        assert Find(r, k) == Find(t, k);
      }
    }
  }

  lemma SetAstSameKeys(t: Table, key: string, ast: Option<Node>)
    requires Holds(t, key)
    ensures SameKeys(t, SetAst(t, key, ast))
  {
    var r := SetAst(t, key, ast);
    forall k ensures Holds(t, k) <==> Holds(r, k) {
      if k != key {
        assert Find(r, k) == Find(t, k);
      }
    }
  }

  /** Resolution is a property of the set of spellings only. */
  lemma ResolvedOptGrows(t: Table, t': Table, h: Option<Node>)
    requires Grows(t, t') && ResolvedOpt(t, h)
    ensures ResolvedOpt(t', h)
  {
    if h.Some? {
      ResolvedGrows(t, t', h.value);
    }
  }

  // ---------------------------------------------------------------------
  // Declarations
  // ---------------------------------------------------------------------

  /** The table after a declaration check, and the number of errors it found (0 or 1). */
  datatype Checked = Checked(table: Table, errors: nat)

  /** What `semantic_check_decl` needs: three children, the first and the last with a symbol. */
  predicate DeclShape(head: Option<Node>) {
    && head.Some?
    && Child(head.value, 0).Some? && Child(head.value, 1).Some? && Child(head.value, 2).Some?
    && Child(head.value, 0).value.symbol.Some? && Child(head.value, 2).value.symbol.Some?
  }

  /**
   `semantic_check_decl` (semantic.c:64-84): the declared name becomes a
   variable of the keyword's type linked to its initial value; one error
   when the name had already been declared (its kind was no longer "identifier").
   */
  function CheckDecl(t: Table, head: Option<Node>): (r: Result<Checked>)
    requires ResolvedOpt(t, head)
    ensures r.Ok? <==> DeclShape(head)
    ensures r.Fail? ==> r.fault == (if ValidateChildren(head, 3).Ok? then NullSymbol else NullHead)
    ensures r.Ok? ==>
              var key := ChildKey(head.value, 0);
              && Find(r.value.table, key) ==
                 Some(Entry(key, TypeInfo(Var, TypeOfKeyword(ChildKind(head.value, 1))), Child(head.value, 2)))
              && Holds(t, key)
              && (r.value.errors == 1 <==> Get(t, key).info.nature != Id)
              && r.value.errors <= 1
              && (forall k :: k != key ==> Find(r.value.table, k) == Find(t, k))
  {
    var h :- ValidateChildren(head, 3);
    if Child(h, 0).value.symbol.None? || Child(h, 2).value.symbol.None? then Fail(NullSymbol)
    else
      var key := ChildKey(h, 0);
      assert Resolved(t, Child(h, 0).value);
      var errors := if Get(t, key).info.nature != Id then 1 else 0;
      var t1 := SetInfo(t, key, TypeInfo(Var, TypeOfKeyword(ChildKind(h, 1))));
      var t2 := SetAst(t1, key, Child(h, 2));
      Ok(Checked(t2, errors))
  }

  /** What `semantic_check_vdecl` needs: two children, the first with a symbol. */
  predicate VDeclShape(head: Option<Node>) {
    && head.Some?
    && Child(head.value, 0).Some? && Child(head.value, 1).Some?
    && Child(head.value, 0).value.symbol.Some?
  }

  /**
   `semantic_check_vdecl` (semantic.c:86-116): the declared name becomes a
   vector of the keyword's type linked to the declaration node itself; one
   error on redeclaration.
   */
  function CheckVDecl(t: Table, head: Option<Node>): (r: Result<Checked>)
    requires ResolvedOpt(t, head)
    ensures r.Ok? <==> VDeclShape(head)
    ensures r.Fail? ==> r.fault == (if ValidateChildren(head, 2).Ok? then NullSymbol else NullHead)
    ensures r.Ok? ==>
              var key := ChildKey(head.value, 0);
              && Find(r.value.table, key) ==
                 Some(Entry(key, TypeInfo(Vec, TypeOfKeyword(ChildKind(head.value, 1))), head))
              && Holds(t, key)
              && (r.value.errors == 1 <==> Get(t, key).info.nature != Id)
              && r.value.errors <= 1
              && (forall k :: k != key ==> Find(r.value.table, k) == Find(t, k))
  {
    var h :- ValidateChildren(head, 2);
    var h' :- ValidateSymbol(head, 1);
    var key := ChildKey(h, 0);
    assert Resolved(t, Child(h, 0).value);
    var errors := if Get(t, key).info.nature != Id then 1 else 0;
    var t1 := SetInfo(t, key, TypeInfo(Vec, TypeOfKeyword(ChildKind(h, 1))));
    var t2 := SetAst(t1, key, head);
    Ok(Checked(t2, errors))
  }

  /** A parameter's name and declared type. */
  datatype Param = Param(key: string, typ: Type)

  /** A parameter-list cell whose argument has a named first child and a type keyword. */
  predicate ParamShape(cell: Node) {
    && Child(cell, 0).Some?
    && Child(Child(cell, 0).value, 0).Some? && Child(Child(cell, 0).value, 1).Some?
    && Child(Child(cell, 0).value, 0).value.symbol.Some?
  }

  /** Every cell of a list is well formed. */
  predicate AllShaped(cells: seq<Node>) {
    forall i :: 0 <= i < |cells| ==> ParamShape(cells[i])
  }

  lemma AllShapedStep(c: Node)
    ensures AllShaped(SpineFrom(c)) <==>
              ParamShape(c) && (Child(c, 1).Some? ==> AllShaped(SpineFrom(Child(c, 1).value)))
  {
    match Child(c, 1)
    case None =>
      assert SpineFrom(c) == [c];
    case Some(next) =>
      assert SpineFrom(c) == [c] + SpineFrom(next);
      AllShapedCons(c, SpineFrom(next));
  }

  lemma AllShapedCons(c: Node, rest: seq<Node>)
    ensures AllShaped([c] + rest) <==> ParamShape(c) && AllShaped(rest)
  {
    var s := [c] + rest;
    if AllShaped(s) {
      forall i | 0 <= i < |rest|
        ensures ParamShape(rest[i])
      {
        assert rest[i] == s[i + 1];
      }
      assert s[0] == c;
    }
    if ParamShape(c) && AllShaped(rest) {
      forall i | 0 <= i < |s|
        ensures ParamShape(s[i])
      {
        if i > 0 {
          assert s[i] == rest[i - 1];
        }
      }
    }
  }

  function ParamOf(cell: Node): Param
    requires ParamShape(cell)
  {
    var arg := Child(cell, 0).value;
    Param(ChildKey(arg, 0), TypeOfKeyword(ChildKind(arg, 1)))
  }

  /**
   The parameters of a signature's list, in list order, as the loop of
   `semantic_check_fdecl` (semantic.c:143-153) reads them; any malformed cell aborts.
   */
  function Params(csv: Option<Node>): (r: Result<seq<Param>>)
    ensures r.Ok? <==> AllShaped(Spine(csv))
    ensures r.Fail? ==> r.fault == NullHead || r.fault == NullSymbol
    ensures r.Ok? ==> |r.value| == |Spine(csv)|
    ensures r.Ok? ==> forall i :: 0 <= i < |r.value| ==> r.value[i] == ParamOf(Spine(csv)[i])
  {
    match csv
    case None => Ok([])
    case Some(c) => ParamsFrom(c)
  }

  function ParamsFrom(c: Node): (r: Result<seq<Param>>)
    ensures r.Ok? <==> AllShaped(SpineFrom(c))
    ensures r.Fail? ==> r.fault == NullHead || r.fault == NullSymbol
    ensures r.Ok? ==> |r.value| == |SpineFrom(c)|
    ensures r.Ok? ==> forall i :: 0 <= i < |r.value| ==> r.value[i] == ParamOf(SpineFrom(c)[i])
    decreases c
  {
    AllShapedStep(c);
    var cell :- ValidateChildren(Some(c), 1);
    var arg :- ValidateChildren(Child(c, 0), 2);
    var named :- ValidateSymbol(Some(arg), 1);
    match Child(c, 1)
    case None => Ok([ParamOf(c)])
    case Some(next) =>
      var rest := ParamsFrom(next);
      if rest.Fail? then Fail(rest.fault)
      else
        ParamsCons(c, next, rest.value);
        Ok([ParamOf(c)] + rest.value)
  }

  /** One more well-formed cell in front of a list puts its parameter in front of the list's. */
  lemma ParamsCons(c: Node, next: Node, ps: seq<Param>)
    requires Child(c, 1) == Some(next) && ParamShape(c) && AllShaped(SpineFrom(next))
    requires |ps| == |SpineFrom(next)| && forall i :: 0 <= i < |ps| ==> ps[i] == ParamOf(SpineFrom(next)[i])
    ensures var r := [ParamOf(c)] + ps;
            |r| == |SpineFrom(c)| && forall i :: 0 <= i < |r| ==> r[i] == ParamOf(SpineFrom(c)[i])
  {
    assert SpineFrom(c) == [c] + SpineFrom(next);
  }

  /** A resolved parameter list names only spellings the table holds. */
  lemma {:induction false} ParamKeysHeld(t: Table, c: Node)
    requires Resolved(t, c) && AllShaped(SpineFrom(c))
    ensures forall i :: 0 <= i < |SpineFrom(c)| ==> Holds(t, ParamOf(SpineFrom(c)[i]).key)
    decreases c
  {
    var arg := Child(c, 0).value;
    assert Resolved(t, arg) && Resolved(t, Child(arg, 0).value);
    AllShapedStep(c);
    if Child(c, 1).Some? {
      var next := Child(c, 1).value;
      ParamKeysHeld(t, next);
      assert SpineFrom(c) == [c] + SpineFrom(next);
    }
  }

  lemma ParamKeysHeldOpt(t: Table, csv: Option<Node>)
    requires ResolvedOpt(t, csv) && AllShaped(Spine(csv))
    ensures forall i :: 0 <= i < |Spine(csv)| ==> Holds(t, ParamOf(Spine(csv)[i]).key)
  {
    if csv.Some? {
      ParamKeysHeld(t, csv.value);
    }
  }

  /** Marks each listed parameter as an argument of its type, in list order. */
  function SetArgs(t: Table, ps: seq<Param>): (r: Table)
    requires forall i :: 0 <= i < |ps| ==> Holds(t, ps[i].key)
    ensures SameKeys(t, r)
    ensures forall i :: 0 <= i < |ps| ==> ArgOf(t, r, ps[i].key)
    ensures forall i :: 0 <= i < |ps| && LastNamed(ps, i) ==> Find(r, ps[i].key).value.info == TypeInfo(Arg, ps[i].typ)
    ensures forall k :: (forall i :: 0 <= i < |ps| ==> ps[i].key != k) ==> Find(r, k) == Find(t, k)
    decreases |ps|
  {
    if ps == [] then t
    else
      var t1 := SetInfo(t, ps[0].key, TypeInfo(Arg, ps[0].typ));
      SetInfoSameKeys(t, ps[0].key, TypeInfo(Arg, ps[0].typ));
      var r := SetArgs(t1, ps[1..]);
      SetArgsStep(t, ps, t1, r);
      r
  }

  /** No parameter after position `i` spells the same key, so its type is the one that stays. */
  ghost predicate LastNamed(ps: seq<Param>, i: nat)
    requires i < |ps|
  {
    forall j :: i < j < |ps| ==> ps[j].key != ps[i].key
  }

  /** In `r`, the entry spelled `key` is an argument and keeps the declaration link it had in `t`. */
  ghost predicate ArgOf(t: Table, r: Table, key: string) {
    && Find(r, key).Some? && Find(t, key).Some?
    && Find(r, key).value.info.nature == Arg
    && Find(r, key).value.astinfo == Find(t, key).value.astinfo
  }

  lemma SetArgsStep(t: Table, ps: seq<Param>, t1: Table, r: Table)
    requires |ps| > 0 && forall i :: 0 <= i < |ps| ==> Holds(t, ps[i].key)
    requires t1 == SetInfo(t, ps[0].key, TypeInfo(Arg, ps[0].typ))
    requires SameKeys(t, t1) && SameKeys(t1, r)
    requires forall i :: 0 <= i < |ps[1..]| ==> ArgOf(t1, r, ps[1..][i].key)
    requires forall i :: 0 <= i < |ps[1..]| && LastNamed(ps[1..], i) ==>
               Find(r, ps[1..][i].key).value.info == TypeInfo(Arg, ps[1..][i].typ)
    requires forall k :: (forall i :: 0 <= i < |ps[1..]| ==> ps[1..][i].key != k) ==> Find(r, k) == Find(t1, k)
    ensures SameKeys(t, r)
    ensures forall i :: 0 <= i < |ps| ==> ArgOf(t, r, ps[i].key)
    ensures forall i :: 0 <= i < |ps| && LastNamed(ps, i) ==> Find(r, ps[i].key).value.info == TypeInfo(Arg, ps[i].typ)
    ensures forall k :: (forall i :: 0 <= i < |ps| ==> ps[i].key != k) ==> Find(r, k) == Find(t, k)
  {
    forall i | 0 <= i < |ps|
      ensures ArgOf(t, r, ps[i].key)
    {
      var k := ps[i].key;
      if i > 0 {
        assert ps[1..][i - 1].key == k;
        assert ArgOf(t1, r, k);
      } else if exists j :: 0 <= j < |ps[1..]| && ps[1..][j].key == k {
        var j :| 0 <= j < |ps[1..]| && ps[1..][j].key == k;
        assert ArgOf(t1, r, ps[1..][j].key);
      } else {
        assert Find(r, k) == Find(t1, k);
      }
    }
    forall i | 0 <= i < |ps| && LastNamed(ps, i)
      ensures Find(r, ps[i].key).value.info == TypeInfo(Arg, ps[i].typ)
    {
      var k := ps[i].key;
      if i > 0 {
        assert ps[1..][i - 1] == ps[i];
        assert LastNamed(ps[1..], i - 1);
      } else {
        forall j | 0 <= j < |ps[1..]|
          ensures ps[1..][j].key != k
        {
          assert ps[1..][j] == ps[j + 1];
        }
        assert Find(r, k) == Find(t1, k);
      }
    }
    forall k | forall i :: 0 <= i < |ps| ==> ps[i].key != k
      ensures Find(r, k) == Find(t, k)
    {
      assert forall i :: 0 <= i < |ps[1..]| ==> ps[1..][i].key == ps[i + 1].key;
      assert Find(r, k) == Find(t1, k);
      assert ps[0].key != k;
    }
  }

  /** What `semantic_check_fdecl` needs of the declaration before it walks the parameters. */
  predicate FDeclShape(head: Option<Node>) {
    && head.Some?
    && Child(head.value, 0).Some? && Child(head.value, 0).value.kind == FSig
    && SigShape(Child(head.value, 0).value)
  }

  /** A signature with a named first child and a result type. */
  predicate SigShape(fsig: Node) {
    Named(fsig, 1) && Child(fsig, 2).Some?
  }

  /** The spellings of the well-formed parameters of a list. */
  ghost function ParamKeys(csv: Option<Node>): set<string> {
    set i | 0 <= i < |Spine(csv)| && ParamShape(Spine(csv)[i]) :: ParamOf(Spine(csv)[i]).key
  }

  /**
   What declaring the function of signature `fsig` does to table `t`: the name
   becomes a function of the result keyword's type (unless a parameter shares
   its spelling) linked to the parameter list, every parameter becomes an
   argument, nothing else changes, and one error is counted when the name was
   already declared.
   */
  ghost predicate FunctionDeclared(t: Table, fsig: Node, c: Checked)
    requires SigShape(fsig)
  {
    var key := ChildKey(fsig, 0);
    var csv := Child(fsig, 1);
    && Holds(t, key)
    && c.errors <= 1
    && (c.errors == 1 <==> Get(t, key).info.nature != Id)
    && Find(c.table, key).Some?
    && Find(c.table, key).value.astinfo == csv
    && (key !in ParamKeys(csv) ==>
        Find(c.table, key).value.info == TypeInfo(Func, TypeOfKeyword(ChildKind(fsig, 2))))
    && (forall k :: k in ParamKeys(csv) ==>
        Find(c.table, k).Some? && Find(c.table, k).value.info.nature == Arg)
    && (Params(csv).Ok? ==>
          var ps := Params(csv).value;
          forall i :: 0 <= i < |ps| && LastNamed(ps, i) ==>
            Find(c.table, ps[i].key).Some? && Find(c.table, ps[i].key).value.info == TypeInfo(Arg, ps[i].typ))
    && (forall k :: k != key && k !in ParamKeys(csv) ==> Find(c.table, k) == Find(t, k))
  }

  /**
   `semantic_check_fdecl` (semantic.c:118-155): declares the function of the
   node's signature. A declaration whose first child is not a signature
   aborts, and a signature without a result type is a NULL dereference.
   */
  function CheckFDecl(t: Table, head: Option<Node>): (r: Result<Checked>)
    requires ResolvedOpt(t, head)
    ensures r.Fail? ==> r.fault in {NullHead, NullSymbol, NoSignature, Crash}
    ensures r.Ok? ==> FDeclShape(head)
    ensures FDeclShape(head) ==>
              var fsig := Child(head.value, 0).value;
              && (r.Ok? <==> AllShaped(Spine(Child(fsig, 1))))
              && (r.Ok? ==> FunctionDeclared(t, fsig, r.value))
  {
    var h :- ValidateChildren(head, 1);
    var fsig := Child(h, 0).value;
    if fsig.kind != FSig then Fail(NoSignature)
    else
      var s :- ValidateSymbol(Some(fsig), 1);
      if Child(fsig, 2).None? then Fail(Crash)
      else
        assert Resolved(t, fsig);
        DeclareFunction(t, fsig)
  }

  /** The effect of `semantic_check_fdecl` once the signature passed its guards (semantic.c:129-154). */
  function DeclareFunction(t: Table, fsig: Node): (r: Result<Checked>)
    requires Resolved(t, fsig) && SigShape(fsig)
    ensures r.Fail? ==> r.fault == NullHead || r.fault == NullSymbol
    ensures r.Ok? <==> AllShaped(Spine(Child(fsig, 1)))
    ensures r.Ok? ==> FunctionDeclared(t, fsig, r.value)
  {
    var key := ChildKey(fsig, 0);
    var csv := Child(fsig, 1);
    assert Resolved(t, Child(fsig, 0).value);
    assert ResolvedOpt(t, csv);
    var errors := if Get(t, key).info.nature != Id then 1 else 0;
    var info := TypeInfo(Func, TypeOfKeyword(ChildKind(fsig, 2)));
    var t1 := SetInfo(t, key, info);
    var t2 := SetAst(t1, key, csv);
    SetInfoSameKeys(t, key, info);
    SetAstSameKeys(t1, key, csv);
    var ps :- Params(csv);
    ParamKeysHeldOpt(t, csv);
    var t3 := SetArgs(t2, ps);
    ParamKeysListed(csv, ps);
    DeclareFunctionFacts(t, fsig, t2, ps, t3, errors);
    Ok(Checked(t3, errors))
  }

  lemma DeclareFunctionFacts(t: Table, fsig: Node, t2: Table, ps: seq<Param>, t3: Table, errors: nat)
    requires SigShape(fsig)
    requires Holds(t, ChildKey(fsig, 0))
    requires errors == if Get(t, ChildKey(fsig, 0)).info.nature != Id then 1 else 0
    requires t2 == SetAst(SetInfo(t, ChildKey(fsig, 0), TypeInfo(Func, TypeOfKeyword(ChildKind(fsig, 2)))),
                          ChildKey(fsig, 0), Child(fsig, 1))
    requires forall i :: 0 <= i < |ps| ==> Holds(t2, ps[i].key)
    requires t3 == SetArgs(t2, ps)
    requires Params(Child(fsig, 1)) == Ok(ps)
    requires forall k :: k in ParamKeys(Child(fsig, 1)) <==> exists i :: 0 <= i < |ps| && ps[i].key == k
    ensures FunctionDeclared(t, fsig, Checked(t3, errors))
  {
    var key := ChildKey(fsig, 0);
    var csv := Child(fsig, 1);
    var t1 := SetInfo(t, key, TypeInfo(Func, TypeOfKeyword(ChildKind(fsig, 2))));
    assert Find(t2, key).Some? && Find(t2, key).value.astinfo == csv;
    if key in ParamKeys(csv) {
      var i :| 0 <= i < |ps| && ps[i].key == key;
      assert ArgOf(t2, t3, ps[i].key);
    } else {
      assert forall i :: 0 <= i < |ps| ==> ps[i].key != key;
      assert Find(t3, key) == Find(t2, key);
    }
    forall k | k in ParamKeys(csv)
      ensures Find(t3, k).Some? && Find(t3, k).value.info.nature == Arg
    {
      var i :| 0 <= i < |ps| && ps[i].key == k;
      assert ArgOf(t2, t3, ps[i].key);
    }
    forall k | k != key && k !in ParamKeys(csv)
      ensures Find(t3, k) == Find(t, k)
    {
      assert forall i :: 0 <= i < |ps| ==> ps[i].key != k;
      assert Find(t3, k) == Find(t2, k);
      assert Find(t2, k) == Find(t1, k);
    }
  }

  /** The parameters read from a list spell exactly its parameter keys. */
  lemma ParamKeysListed(csv: Option<Node>, ps: seq<Param>)
    requires |ps| == |Spine(csv)|
    requires forall i :: 0 <= i < |Spine(csv)| ==> ParamShape(Spine(csv)[i])
    requires forall i :: 0 <= i < |ps| ==> ps[i] == ParamOf(Spine(csv)[i])
    ensures forall k :: k in ParamKeys(csv) <==> exists i :: 0 <= i < |ps| && ps[i].key == k
  {
  }

  /** Declaring a variable twice: the second check reports the redeclaration. */
  lemma DeclTwiceReported(t: Table, head: Option<Node>)
    requires ResolvedOpt(t, head)
    requires CheckDecl(t, head).Ok?
    ensures ResolvedOpt(CheckDecl(t, head).value.table, head)
    ensures CheckDecl(CheckDecl(t, head).value.table, head).Ok?
    ensures CheckDecl(CheckDecl(t, head).value.table, head).value.errors == 1
  {
    var t' := CheckDecl(t, head).value.table;
    var key := ChildKey(head.value, 0);
    forall k | Holds(t, k) ensures Holds(t', k) {
      if k != key {
        assert Find(t', k) == Find(t, k);
      }
    }
    ResolvedOptGrows(t, t', head);
  }

  /** Declaring a vector twice: the second check reports the redeclaration. */
  lemma VDeclTwiceReported(t: Table, head: Option<Node>)
    requires ResolvedOpt(t, head)
    requires CheckVDecl(t, head).Ok?
    ensures ResolvedOpt(CheckVDecl(t, head).value.table, head)
    ensures CheckVDecl(CheckVDecl(t, head).value.table, head).Ok?
    ensures CheckVDecl(CheckVDecl(t, head).value.table, head).value.errors == 1
  {
    var t' := CheckVDecl(t, head).value.table;
    var key := ChildKey(head.value, 0);
    forall k | Holds(t, k) ensures Holds(t', k) {
      if k != key {
        assert Find(t', k) == Find(t, k);
      }
    }
    ResolvedOptGrows(t, t', head);
  }

  /** Declaring a function twice: the second check reports the redeclaration. */
  lemma FDeclTwiceReported(t: Table, head: Option<Node>)
    requires ResolvedOpt(t, head)
    requires CheckFDecl(t, head).Ok?
    ensures ResolvedOpt(CheckFDecl(t, head).value.table, head)
    ensures CheckFDecl(CheckFDecl(t, head).value.table, head).Ok?
    ensures CheckFDecl(CheckFDecl(t, head).value.table, head).value.errors == 1
  {
    var t' := CheckFDecl(t, head).value.table;
    var fsig := Child(head.value, 0).value;
    var key := ChildKey(fsig, 0);
    var csv := Child(fsig, 1);
    forall k | Holds(t, k) ensures Holds(t', k) {
      if k != key && k !in ParamKeys(csv) {
        assert Find(t', k) == Find(t, k);
      }
    }
    ResolvedOptGrows(t, t', head);
  }

  // ---------------------------------------------------------------------
  // Expression typing
  // ---------------------------------------------------------------------

  /** Nodes whose type is that of their first child. */
  predicate Transparent(k: Kind) {
    k in {Op, Paren, Call, VSym}
  }

  predicate Arithmetic(k: Kind) {
    k in {Add, Sub, Mul, Div, Pow}
  }

  predicate Relational(k: Kind) {
    k in {Lt, Gt, Le, Ge, Eq, Ne}
  }

  /** The types that mix freely in arithmetic. */
  predicate NumberType(ty: Type) {
    ty in {IntT, FloatT, CharT}
  }

  /** The literal natures that count as numbers. */
  predicate NumberNature(n: Nature) {
    n in {IntLit, FloatLit, CharLit}
  }

  /** The node the typing rules look at: `n` with transparent wrappers removed, or NULL where a wrapper has no child. */
  function Descend(n: Node): (r: Option<Node>)
    ensures r.Some? ==> !Transparent(r.value.kind)
    decreases n
  {
    if Transparent(n.kind) then
      match Child(n, 0)
      case None => None
      case Some(c) => Descend(c)
    else Some(n)
  }

  /**
   `semantic_get_expr_type` (semantic.c:190-222): arithmetic (pow included) is
   int, comparison is bool, a symbol has its entry's type, wrappers and calls
   and vector reads have their first child's type, anything else (and, or,
   not included) is unknown.
   */
  function ExprType(t: Table, n: Node): (r: Result<Type>)
    requires Resolved(t, n)
    ensures r.Fail? ==> r.fault == NullHead || r.fault == NullSymbol
    ensures Arithmetic(n.kind) ==> r == Ok(IntT)
    ensures Relational(n.kind) ==> r == Ok(BoolT)
    ensures n.kind == Sym && n.symbol.Some? ==> r == Ok(Get(t, n.symbol.value).info.typ)
    ensures n.kind == Sym && n.symbol.None? ==> r == Fail(NullSymbol)
    ensures !Transparent(n.kind) && !Arithmetic(n.kind) && !Relational(n.kind) && n.kind != Sym ==> r == Ok(UnknownT)
    ensures Transparent(n.kind) && Child(n, 0).None? ==> r == Fail(NullHead)
    ensures Transparent(n.kind) && Child(n, 0).Some? ==> r == ExprType(t, Child(n, 0).value)
    decreases n
  {
    match n.kind
    case Op | Paren | Call | VSym =>
      var h :- ValidateChildren(Some(n), 1);
      ExprType(t, Child(n, 0).value)
    case Add | Sub | Mul | Div | Pow => Ok(IntT)
    case Lt | Gt | Le | Ge | Eq | Ne => Ok(BoolT)
    case Sym =>
      if n.symbol.None? then Fail(NullSymbol) else Ok(Get(t, n.symbol.value).info.typ)
    case _ => Ok(UnknownT)
  }

  /**
   Typing looks through every wrapper: a tree whose wrappers end at a missing
   child aborts with the NULL-head fault, and any other tree has the type of
   the node it descends to.
   */
  lemma {:induction false} ExprTypeDescends(t: Table, n: Node)
    requires Resolved(t, n)
    ensures Descend(n).None? ==> ExprType(t, n) == Fail(NullHead)
    ensures Descend(n).Some? ==> Resolved(t, Descend(n).value) && ExprType(t, n) == ExprType(t, Descend(n).value)
    decreases n
  {
    if Transparent(n.kind) && Child(n, 0).Some? {
      assert Resolved(t, Child(n, 0).value);
      ExprTypeDescends(t, Child(n, 0).value);
    }
  }

  /**
   `semantic_check_int_or_float` (semantic.c:224-263): whether an operand may
   take part in arithmetic. Arithmetic results may, comparisons may not, a
   symbol may when its kind is a numeric literal or its type is numeric.
   */
  function IsNumeric(t: Table, n: Node): (r: Result<bool>)
    requires Resolved(t, n)
    ensures r.Fail? ==> r.fault == NullHead || r.fault == NullSymbol
    decreases n
  {
    match n.kind
    case Op | Paren | Call | VSym =>
      var h :- ValidateChildren(Some(n), 1);
      IsNumeric(t, Child(n, 0).value)
    case Add | Sub | Mul | Div | Pow => Ok(true)
    case Lt | Gt | Le | Ge | Eq | Ne => Ok(false)
    case Sym =>
      if n.symbol.None? then Fail(NullSymbol)
      else
        var info := Get(t, n.symbol.value).info;
        Ok(NumberNature(info.nature) || NumberType(info.typ))
    case _ => Ok(false)
  }

  /** The node the typing rules reach is a symbol spelled by a numeric literal entry. */
  predicate LiteralNumberAt(t: Table, n: Node) {
    var d := Descend(n);
    && d.Some? && d.value.kind == Sym && d.value.symbol.Some?
    && Find(t, d.value.symbol.value).Some?
    && NumberNature(Find(t, d.value.symbol.value).value.info.nature)
  }

  /** Typing and the numeric test walk the same nodes and abort on the same trees. */
  lemma {:induction false} SameAborts(t: Table, n: Node)
    requires Resolved(t, n)
    ensures ExprType(t, n).Fail? <==> IsNumeric(t, n).Fail?
    ensures ExprType(t, n).Fail? ==> ExprType(t, n).fault == IsNumeric(t, n).fault
    decreases n
  {
    if Transparent(n.kind) && Child(n, 0).Some? {
      SameAborts(t, Child(n, 0).value);
    }
  }

  /**
   An operand passes the numeric test exactly when its type is int, float or
   char, or the node typing reaches is a numeric literal.
   */
  lemma {:induction false} NumericMeaning(t: Table, n: Node)
    requires Resolved(t, n)
    requires ExprType(t, n).Ok?
    ensures IsNumeric(t, n) == Ok(NumberType(ExprType(t, n).value) || LiteralNumberAt(t, n))
    decreases n
  {
    if Transparent(n.kind) {
      NumericMeaning(t, Child(n, 0).value);
    }
  }

  /**
   `semantic_check_arit` (semantic.c:265-283): the number of operands of a
   binary node (0, 1 or 2) that fail the numeric test.
   */
  function CheckArit(t: Table, head: Option<Node>): (r: Result<nat>)
    requires ResolvedOpt(t, head)
    ensures ValidateChildren(head, 2).Fail? ==> r == Fail(NullHead)
    ensures r.Fail? ==> r.fault == NullHead || r.fault == NullSymbol
    ensures r.Ok? ==> r.value <= 2
    ensures ValidateChildren(head, 2).Ok? ==>
              var l := Child(head.value, 0).value;
              var rt := Child(head.value, 1).value;
              && Resolved(t, l) && Resolved(t, rt)
              && (r.Ok? <==> IsNumeric(t, l).Ok? && IsNumeric(t, rt).Ok?)
              && (r.Ok? ==> (r.value == 0 <==> IsNumeric(t, l).value && IsNumeric(t, rt).value))
              && (r.Ok? ==> (r.value == 2 <==> !IsNumeric(t, l).value && !IsNumeric(t, rt).value))
  {
    var h :- ValidateChildren(head, 2);
    assert Resolved(t, Child(h, 0).value) && Resolved(t, Child(h, 1).value);
    var left :- IsNumeric(t, Child(h, 0).value);
    var right :- IsNumeric(t, Child(h, 1).value);
    Ok((if left then 0 else 1) + (if right then 0 else 1))
  }

  // ---------------------------------------------------------------------
  // Function calls
  // ---------------------------------------------------------------------

  /** `semantic_get_paramct` (semantic.c:358-371): the length of the list linked through slot 1. */
  function ParamCount(h: Option<Node>): (r: nat)
    ensures r == |Spine(h)|
  {
    match h
    case None => 0
    case Some(n) => ParamCountFrom(n)
  }

  function ParamCountFrom(n: Node): (r: nat)
    ensures r == |SpineFrom(n)|
    decreases n
  {
    1 + match Child(n, 1)
        case None => 0
        case Some(c) => ParamCountFrom(c)
  }

  /** Expected and received argument counts, and whether they agree. */
  datatype Counts = Counts(same: bool, expected: nat, got: nat)

  /** `semantic_check_paramct` (semantic.c:373-379). */
  function CheckParamCount(decl: Option<Node>, call: Option<Node>): (r: Counts)
    ensures r.expected == |Spine(decl)| && r.got == |Spine(call)|
    ensures r.same <==> |Spine(decl)| == |Spine(call)|
  {
    var expected := ParamCount(decl);
    var got := ParamCount(call);
    Counts(expected == got, expected, got)
  }

  /** The compatibility class of a type: the three number types share one. */
  function TypeClass(ty: Type): Type {
    if NumberType(ty) then IntT else ty
  }

  /**
   `semantic_is_interchangeable` (semantic.c:381-388): int, float and char
   mix freely; every other type matches only itself.
   */
  function Interchangeable(a: Type, b: Type): (r: bool)
    ensures r <==> TypeClass(a) == TypeClass(b)
  {
    if a == FloatT || a == CharT || a == IntT then b == FloatT || b == CharT || b == IntT
    else a == b
  }

  /** Compatibility is an equivalence. */
  lemma InterchangeableEquivalence(a: Type, b: Type, c: Type)
    ensures Interchangeable(a, a)
    ensures Interchangeable(a, b) ==> Interchangeable(b, a)
    ensures Interchangeable(a, b) && Interchangeable(b, c) ==> Interchangeable(a, c)
  {
  }

  /** A declared parameter type paired with the type of the argument passed for it. */
  datatype TypePair = TypePair(expected: Type, got: Type)

  /**
   The pairs `semantic_check_paramtype` (semantic.c:390-420) compares: it walks
   both lists together while both have a cell, validating each.
   */
  function ParamTypes(t: Table, decl: Option<Node>, call: Option<Node>): (r: Result<seq<TypePair>>)
    requires ResolvedOpt(t, decl) && ResolvedOpt(t, call)
    ensures r.Ok? ==> |r.value| == if |Spine(decl)| < |Spine(call)| then |Spine(decl)| else |Spine(call)|
    ensures r.Fail? ==> r.fault == NullHead || r.fault == NullSymbol
  {
    if decl.None? || call.None? then Ok([]) else ParamTypesFrom(t, decl.value, call.value)
  }

  function ParamTypesFrom(t: Table, d: Node, c: Node): (r: Result<seq<TypePair>>)
    requires Resolved(t, d) && Resolved(t, c)
    ensures r.Ok? ==> |r.value| == if |SpineFrom(d)| < |SpineFrom(c)| then |SpineFrom(d)| else |SpineFrom(c)|
    ensures r.Fail? ==> r.fault == NullHead || r.fault == NullSymbol
    decreases d
  {
    var dcell :- ValidateChildren(Some(d), 1);
    var darg := Child(d, 0).value;
    var named :- ValidateSymbol(Some(darg), 1);
    var ccell :- ValidateChildren(Some(c), 1);
    assert Resolved(t, darg) && Resolved(t, Child(darg, 0).value) && Resolved(t, Child(c, 0).value);
    var expected := Get(t, ChildKey(darg, 0)).info.typ;
    var got :- ExprType(t, Child(c, 0).value);
    var rest :- match (Child(d, 1), Child(c, 1))
                case (Some(d'), Some(c')) => ParamTypesFrom(t, d', c')
                case _ => Ok([]);
    Ok([TypePair(expected, got)] + rest)
  }

  /**
   Pair `k` holds the type the table gives the name of the `k`-th declared
   parameter and the type of the `k`-th argument expression of the call
   (semantic.c:406-407).
   */
  lemma ParamTypesPairs(t: Table, decl: Option<Node>, call: Option<Node>, k: nat)
    requires ResolvedOpt(t, decl) && ResolvedOpt(t, call)
    requires ParamTypes(t, decl, call).Ok? && k < |ParamTypes(t, decl, call).value|
    ensures k < |Spine(decl)| && k < |Spine(call)|
    ensures var p := ParamTypes(t, decl, call).value[k];
            var darg := Child(Spine(decl)[k], 0);
            var carg := Child(Spine(call)[k], 0);
            && darg.Some? && Named(darg.value, 1) && Holds(t, ChildKey(darg.value, 0))
            && p.expected == Get(t, ChildKey(darg.value, 0)).info.typ
            && carg.Some? && Resolved(t, carg.value) && ExprType(t, carg.value) == Ok(p.got)
  {
    ParamTypesFromPairs(t, decl.value, call.value, k);
  }

  lemma {:induction false} ParamTypesFromPairs(t: Table, d: Node, c: Node, k: nat)
    requires Resolved(t, d) && Resolved(t, c)
    requires ParamTypesFrom(t, d, c).Ok? && k < |ParamTypesFrom(t, d, c).value|
    ensures k < |SpineFrom(d)| && k < |SpineFrom(c)|
    ensures var p := ParamTypesFrom(t, d, c).value[k];
            var darg := Child(SpineFrom(d)[k], 0);
            var carg := Child(SpineFrom(c)[k], 0);
            && darg.Some? && Named(darg.value, 1) && Holds(t, ChildKey(darg.value, 0))
            && p.expected == Get(t, ChildKey(darg.value, 0)).info.typ
            && carg.Some? && Resolved(t, carg.value) && ExprType(t, carg.value) == Ok(p.got)
    decreases d
  {
    var darg := Child(d, 0).value;
    assert Resolved(t, darg) && Resolved(t, Child(darg, 0).value) && Resolved(t, Child(c, 0).value);
    if k > 0 {
      var d', c' := Child(d, 1).value, Child(c, 1).value;
      assert Resolved(t, d') && Resolved(t, c');
      ParamTypesFromPairs(t, d', c', k - 1);
      assert SpineFrom(d)[k] == SpineFrom(d')[k - 1];
      assert SpineFrom(c)[k] == SpineFrom(c')[k - 1];
    }
  }

  /** The number of pairs whose types are not interchangeable. */
  function Mismatches(ps: seq<TypePair>): (r: nat)
    ensures r <= |ps|
    ensures r == 0 <==> forall i :: 0 <= i < |ps| ==> Interchangeable(ps[i].expected, ps[i].got)
  {
    if ps == [] then 0
    else
      var rest := Mismatches(ps[1..]);
      assert forall i :: 1 <= i < |ps| ==> ps[i] == ps[1..][i - 1];
      (if Interchangeable(ps[0].expected, ps[0].got) then 0 else 1) + rest
  }

  /**
   `semantic_check_paramtype` (semantic.c:390-420): true when some position's
   argument type is not interchangeable with the declared one. The C function
   counts mismatches but returns `bool`, so the count collapses to 0 or 1.
   */
  function CheckParamTypes(t: Table, decl: Option<Node>, call: Option<Node>): (r: Result<bool>)
    requires ResolvedOpt(t, decl) && ResolvedOpt(t, call)
    ensures r.Ok? <==> ParamTypes(t, decl, call).Ok?
    ensures r.Ok? ==>
              var ps := ParamTypes(t, decl, call).value;
              r.value <==> exists i :: 0 <= i < |ps| && !Interchangeable(ps[i].expected, ps[i].got)
  {
    var ps :- ParamTypes(t, decl, call);
    Ok(Mismatches(ps) > 0)
  }

  /**
   The errors a call to a declared function adds in `semantic_check_fcalls`
   (semantic.c:435-444): one for a count mismatch, otherwise one when some
   argument's type is incompatible.
   */
  function CalleeErrors(t: Table, decl: Option<Node>, args: Option<Node>): (r: Result<nat>)
    requires ResolvedOpt(t, decl) && ResolvedOpt(t, args)
    ensures r.Ok? ==> r.value <= 1
    ensures r.Ok? <==> !CheckParamCount(decl, args).same || ParamTypes(t, decl, args).Ok?
    ensures r.Ok? ==> (r.value == 1 <==> !CheckParamCount(decl, args).same || CheckParamTypes(t, decl, args).value)
  {
    if CheckParamCount(decl, args).same then
      var bad :- CheckParamTypes(t, decl, args);
      Ok(if bad then 1 else 0)
    else Ok(1)
  }

  /**
   The errors one call node adds in `semantic_check_fcalls` (semantic.c:431-445):
   the call must name its callee; an undeclared callee adds none, a declared
   one is checked against its parameter list.
   */
  function CallErrors(t: Table, n: Node): (r: Result<nat>)
    requires Closed(t) && Resolved(t, n)
    ensures r.Ok? ==> r.value <= 1
    ensures !Named(n, 1) ==> r.Fail?
    ensures r.Fail? ==> r.fault in {NullHead, NullSymbol}
    ensures Named(n, 1) && Find(t, ChildKey(n, 0)).None? ==> r == Ok(0)
    ensures Named(n, 1) && Find(t, ChildKey(n, 0)).Some? ==>
              var decl := Find(t, ChildKey(n, 0)).value.astinfo;
              && ResolvedOpt(t, decl) && ResolvedOpt(t, Child(n, 1))
              && r == CalleeErrors(t, decl, Child(n, 1))
  {
    var h :- ValidateSymbol(Some(n), 1);
    match Find(t, ChildKey(n, 0))
    case None => Ok(0)
    case Some(e) =>
      assert Holds(t, e.key) && Get(t, e.key) == e;
      assert ResolvedOpt(t, e.astinfo);
      CalleeErrors(t, e.astinfo, Child(n, 1))
  }

  /** The call nodes `semantic_check_fcalls` visits: children are followed up to the first NULL slot. */
  function CallNodes(n: Node): nat
    decreases n, NumChildren + 1
  {
    (if n.kind == Call then 1 else 0) + CallNodesFrom(n, 0)
  }

  function CallNodesFrom(n: Node, i: nat): nat
    requires i <= NumChildren
    decreases n, NumChildren - i
  {
    if i == NumChildren then 0
    else match Child(n, i)
         case None => 0
         case Some(c) => CallNodes(c) + CallNodesFrom(n, i + 1)
  }

  /**
   `semantic_check_fcalls` (semantic.c:422-455): the call errors of a whole
   subtree, visiting each node's children up to its first NULL slot. Each
   visited call adds at most one error, so a tree without calls has none.
   */
  function CheckFCalls(t: Table, head: Option<Node>): (r: Result<nat>)
    requires Closed(t) && ResolvedOpt(t, head)
    ensures r.Ok? ==> r.value <= if head.Some? then CallNodes(head.value) else 0
  {
    match head
    case None => Ok(0)
    case Some(n) => CheckFCallsAt(t, n)
  }

  function CheckFCallsAt(t: Table, n: Node): (r: Result<nat>)
    requires Closed(t) && Resolved(t, n)
    ensures r.Ok? ==> r.value <= CallNodes(n)
    decreases n, NumChildren + 1
  {
    var here :- if n.kind == Call then CallErrors(t, n) else Ok(0);
    var below :- CheckFCallsFrom(t, n, 0);
    Ok(here + below)
  }

  function CheckFCallsFrom(t: Table, n: Node, i: nat): (r: Result<nat>)
    requires Closed(t) && Resolved(t, n) && i <= NumChildren
    ensures r.Ok? ==> r.value <= CallNodesFrom(n, i)
    decreases n, NumChildren - i
  {
    if i == NumChildren then Ok(0)
    else match Child(n, i)
         case None => Ok(0)
         case Some(c) =>
           var first :- CheckFCallsAt(t, c);
           var rest :- CheckFCallsFrom(t, n, i + 1);
           Ok(first + rest)
  }
}

=== FILE: spelling.dfy ===
/**
 The two string helpers of assembly emission (asm.c:127-146): removing the
 quotes of a string literal's spelling, and keeping only its alphanumeric
 characters so that what is left can name the literal's storage.
 */
module Spelling {
  import opened Outcomes

  /** `isalnum` in the "C" locale. */
  predicate IsAlnum(c: char) {
    'a' <= c <= 'z' || 'A' <= c <= 'Z' || '0' <= c <= '9'
  }

  predicate AllAlnum(s: string) {
    forall i :: 0 <= i < |s| ==> IsAlnum(s[i])
  }

  /**
   `asm_get_str_sanitized` (asm.c:135-146): the alphanumeric characters of
   `s`, in their order.
   */
  function Sanitize(s: string): (r: string)
    ensures |r| <= |s|
    ensures AllAlnum(r)
  {
    if s == [] then [] else Keep(s[0]) + Sanitize(s[1..])
  }

  /** What sanitizing makes of one character. */
  function Keep(c: char): (r: string)
    ensures r == [c] || r == []
    ensures AllAlnum(r) && (r == [c] <==> IsAlnum(c))
  {
    if IsAlnum(c) then [c] else []
  }

  /** Sanitizing a concatenation sanitizes each part. */
  lemma {:induction false} SanitizeAppend(a: string, b: string)
    ensures Sanitize(a + b) == Sanitize(a) + Sanitize(b)
  {
    if a == [] {
      assert a + b == b;
    } else {
      assert (a + b)[0] == a[0] && (a + b)[1..] == a[1..] + b;
      calc {
        Sanitize(a + b);
        Keep(a[0]) + Sanitize(a[1..] + b);
        { SanitizeAppend(a[1..], b); }
        Keep(a[0]) + (Sanitize(a[1..]) + Sanitize(b));
      }
    }
  }

  /** A string is left as it is exactly when every character is alphanumeric. */
  lemma {:induction false} SanitizeFixpoint(s: string)
    ensures Sanitize(s) == s <==> AllAlnum(s)
  {
    if s != [] {
      SanitizeFixpoint(s[1..]);
      if !IsAlnum(s[0]) {
        assert |Sanitize(s)| <= |s[1..]| < |s|;
      }
    }
  }

  /** Sanitizing twice is sanitizing once. */
  lemma SanitizeIdempotent(s: string)
    ensures Sanitize(Sanitize(s)) == Sanitize(s)
  {
    SanitizeFixpoint(Sanitize(s));
  }

  /** Nothing but alphanumeric characters is lost. */
  lemma {:induction false} SanitizeKeepsLength(s: string)
    ensures |Sanitize(s)| == |s| <==> AllAlnum(s)
  {
    if s != [] {
      SanitizeKeepsLength(s[1..]);
    }
  }

  lemma SanitizeStep(s: string, i: nat)
    requires i < |s|
    ensures Sanitize(s[..i + 1]) == Sanitize(s[..i]) + Keep(s[i])
  {
    assert s[..i + 1] == s[..i] + [s[i]];
    SanitizeAppend(s[..i], [s[i]]);
    assert Sanitize([s[i]]) == Keep(s[i]) + Sanitize([]);
  }

  /** Sanitizing only drops characters. */
  lemma {:induction false} SanitizeSubMultiset(s: string)
    ensures multiset(Sanitize(s)) <= multiset(s)
  {
    if s != [] {
      SanitizeSubMultiset(s[1..]);
      assert s == [s[0]] + s[1..];
    }
  }

  /**
   The loop of `asm_get_str_sanitized`: a write index `j` that trails the read
   index `i`, copying each alphanumeric character down.
   */
  method SanitizeInPlace(s: string) returns (r: string)
    ensures r == Sanitize(s)
  {
    var buf := s;
    var j := 0;
    var i := 0;
    while i < |s|
      invariant 0 <= j <= i <= |s| && |buf| == |s|
      invariant buf[..j] == Sanitize(s[..i])
    {
      SanitizeStep(s, i);
      if IsAlnum(s[i]) {
        buf := buf[j := s[i]];
        assert buf[..j + 1] == buf[..j] + [s[i]];
        j := j + 1;
      }
      i := i + 1;
    }
    assert s[..i] == s;
    r := buf[..j];
  }

  /** The double quote that opens and closes a string literal's spelling. */
  const Quote: char := '"'

  /**
   `asm_get_str_wo_quotes` (asm.c:127-133): the spelling without its first and
   last characters, whatever they are; with fewer than two characters the
   buffer size wraps around and the copy overruns.
   */
  function StripQuotes(s: string): (r: Result<string>)
    ensures r.Ok? <==> |s| >= 2
    ensures r.Fail? ==> r.fault == Crash
    ensures r.Ok? ==> |r.value| == |s| - 2 && forall k :: 0 <= k < |r.value| ==> r.value[k] == s[k + 1]
  {
    if |s| < 2 then Fail(Crash) else Ok(s[1..|s| - 1])
  }

  /** Stripping undoes quoting. */
  lemma StripQuoted(x: string)
    ensures StripQuotes([Quote] + x + [Quote]) == Ok(x)
  {
    var s := [Quote] + x + [Quote];
    assert s[1..|s| - 1] == x;
  }

  /** Quoting undoes stripping, for a spelling that is quoted at both ends. */
  lemma QuoteStripped(s: string)
    requires |s| >= 2 && s[0] == Quote && s[|s| - 1] == Quote
    ensures [Quote] + StripQuotes(s).value + [Quote] == s
  {
    assert [Quote] + s[1..|s| - 1] + [Quote] == s;
  }

  /**
   Distinct literals can share a storage name: sanitizing keeps only the
   alphanumeric characters, so spellings that differ elsewhere collapse.
   */
  lemma SanitizeCollapses()
    ensures "a b" != "ab" && Sanitize("a b") == Sanitize("ab") == "ab"
  {
    assert "a b"[1] != "ab"[1];
    assert Sanitize("ab") == "ab" by { SanitizeFixpoint("ab"); }
    assert Sanitize("a b") == "a" + Sanitize(" b");
  }
}

=== FILE: storage.dfy ===
/**
 The data half of assembly emission and the whole output (asm.c:400-530):
 the storage each symbol-table entry gets, bucket by bucket and chain by
 chain, and `asm_print` -- the code of every instruction, then the storage,
 then the two format strings the runtime calls use.
 */
module Storage {
  import opened Outcomes
  import opened Numerals
  import opened Syntax
  import opened Symbols
  import opened Ir
  import opened Emission
  import opened Spelling
  import opened Instructions

  // ---------------------------------------------------------------------
  // One entry (asm.c:409-496)
  // ---------------------------------------------------------------------

  /** The lines that open the storage of a symbol: section, visibility, size in bytes, label. */
  function Header(name: string, bytes: int): seq<Asm> {
    [TextSection, Globl(name), DataSection, Size(name, bytes), Mark(Named(name))]
  }

  /**
   The value one cell of a vector's initializer list gives: the symbol of its
   first child, else its own symbol; when neither is there the C code only
   logs, and the cell repeats the value before it.
   */
  function CellValue(n: Node, prev: int): int {
    match Child(n, 0)
    case Some(c) => if c.symbol.Some? then Strtol16(c.symbol.value) else prev
    case None => if n.symbol.Some? then Strtol16(n.symbol.value) else prev
  }

  /**
   The loop of asm.c:435-454: `size` cells, each the next value of the list
   while the list lasts, then zeros; the list continues in child 1.
   */
  function VecCells(list: Option<Node>, size: int, prev: int): seq<Asm>
    decreases size
  {
    if size <= 0 then []
    else
      match list
      case None => [LongInt(0)] + VecCells(None, size - 1, prev)
      case Some(n) =>
        var v := CellValue(n, prev);
        [LongInt(v)] + VecCells(Child(n, 1), size - 1, v)
  }

  /** Every value the initializer list starting at `n` holds, in list order. */
  function InitialsFrom(n: Node, prev: int): (r: seq<int>)
    ensures |r| >= 1 && r[0] == CellValue(n, prev)
    decreases n
  {
    var v := CellValue(n, prev);
    [v] + match Child(n, 1) case None => [] case Some(c) => InitialsFrom(c, v)
  }

  function Initials(list: Option<Node>, prev: int): seq<int> {
    match list
    case None => []
    case Some(n) => InitialsFrom(n, prev)
  }

  /**
   A vector gets exactly `size` cells (none when `size` is negative): the
   list's values in order while they last, then zeros.
   */
  lemma {:induction false} VecCellsSpec(list: Option<Node>, size: int, prev: int)
    ensures var r, vs := VecCells(list, size, prev), Initials(list, prev);
            && |r| == (if size <= 0 then 0 else size)
            && forall j :: 0 <= j < |r| ==> r[j] == LongInt(if j < |vs| then vs[j] else 0)
    decreases size
  {
    if size > 0 {
      var r, vs := VecCells(list, size, prev), Initials(list, prev);
      match list
      case None =>
        VecCellsSpec(None, size - 1, prev);
        assert r == [LongInt(0)] + VecCells(None, size - 1, prev);
      case Some(n) =>
        var v := CellValue(n, prev);
        var rest, ws := VecCells(Child(n, 1), size - 1, v), Initials(Child(n, 1), v);
        VecCellsSpec(Child(n, 1), size - 1, v);
        assert r == [LongInt(v)] + rest && vs == [v] + ws;
        forall j | 1 <= j < |r|
          ensures r[j] == LongInt(if j < |vs| then vs[j] else 0)
        {
          assert r[j] == rest[j - 1];
        }
    }
  }

  /** A scalar's initial value: the symbol of its declaration's value node, or 0. */
  function Initializer(ast: Option<Node>): int {
    if ast.Some? && ast.value.symbol.Some? then Strtol16(ast.value.symbol.value) else 0
  }

  /**
   `asm_print_hash_node` (asm.c:409-496): the storage of one entry. A vector
   needs a size, and one that parses to 0 is refused; a string literal is
   labelled by its sanitized unquoted spelling; a function is only made
   visible; literals of the other kinds and labels get nothing.
   */
  function EntryLines(e: Entry): (r: Result<seq<Asm>>)
    ensures r.Fail? ==> e.info.nature in {Vec, StrLit} && r.fault in {NoVectorSize, InvalidVectorSize, Crash}
    ensures r.Ok? && e.info.nature in {Id, Var, Arg, IntLit} ==> |r.value| == 6 && r.value[4] == Mark(Named(VarPrefix + e.key))
  {
    var name := VarPrefix + e.key;
    match e.info.nature
    case Vec =>
      if e.astinfo.None? || e.astinfo.value.symbol.None? then Fail(NoVectorSize)
      else
        var size := Strtol16(e.astinfo.value.symbol.value);
        if size == 0 then Fail(InvalidVectorSize)
        else Ok(Header(name, size * 4) + VecCells(Child(e.astinfo.value, 2), size, 0))
    case IntLit => Ok(Header(name, 4) + [LongKey(e.key)])
    case StrLit =>
      var copy :- StripQuotes(e.key);
      Ok([DataSection, Mark(Named(VarPrefix + Sanitize(copy))), StringData(e.key)])
    case Id | Var | Arg => Ok(Header(name, 4) + [LongInt(Initializer(e.astinfo))])
    case Func => Ok([TextSection, Globl(e.key)])
    case _ => Ok([])
  }

  /** The size of a vector entry, as the table records it. */
  function VecSize(e: Entry): int
    requires e.astinfo.Some? && e.astinfo.value.symbol.Some?
  {
    Strtol16(e.astinfo.value.symbol.value)
  }

  /**
   Storage fails exactly for a vector without a size or with size 0, and for
   a string literal too short to have two quotes.
   */
  lemma EntryFaults(e: Entry)
    ensures var r := EntryLines(e);
            && (r == Fail(NoVectorSize) <==> e.info.nature == Vec && (e.astinfo.None? || e.astinfo.value.symbol.None?))
            && (r == Fail(InvalidVectorSize) <==>
                  e.info.nature == Vec && e.astinfo.Some? && e.astinfo.value.symbol.Some? && VecSize(e) == 0)
            && (r == Fail(Crash) <==> e.info.nature == StrLit && |e.key| < 2)
            && (r.Fail? ==> r.fault in {NoVectorSize, InvalidVectorSize, Crash})
  {
  }

  /**
   A vector's storage: visible, `4 * size` bytes, labelled by its key, then
   its `size` cells -- the initializer values in order, then zeros.
   */
  lemma VectorStorage(e: Entry)
    requires e.info.nature == Vec && EntryLines(e).Ok?
    ensures e.astinfo.Some? && e.astinfo.value.symbol.Some?
    ensures var r, size := EntryLines(e).value, VecSize(e);
            var vs := Initials(Child(e.astinfo.value, 2), 0);
            && size != 0
            && r[..5] == Header(VarPrefix + e.key, 4 * size)
            && |r| == 5 + (if size < 0 then 0 else size)
            && forall j :: 5 <= j < |r| ==> r[j] == LongInt(if j - 5 < |vs| then vs[j - 5] else 0)
  {
    var size := VecSize(e);
    var cells := VecCells(Child(e.astinfo.value, 2), size, 0);
    VecCellsSpec(Child(e.astinfo.value, 2), size, 0);
    var r := EntryLines(e).value;
    assert r == Header(VarPrefix + e.key, size * 4) + cells;
    assert forall j :: 5 <= j < |r| ==> r[j] == cells[j - 5];
  }

  /**
   A variable, parameter or plain identifier gets one visible 4-byte cell
   labelled by its key, holding its initializer or 0.
   */
  lemma ScalarStorage(e: Entry)
    requires e.info.nature in {Id, Var, Arg}
    ensures EntryLines(e) == Ok(Header(VarPrefix + e.key, 4) + [LongInt(Initializer(e.astinfo))])
    ensures e.astinfo.None? ==> EntryLines(e).value[5] == LongInt(0)
  {
  }

  /** An integer literal is a cell labelled by its spelling and holding that spelling. */
  lemma IntegerStorage(e: Entry)
    requires e.info.nature == IntLit
    ensures EntryLines(e) == Ok(Header(VarPrefix + e.key, 4) + [LongKey(e.key)])
  {
  }

  /** A function only gets `.globl` of its bare name: no data and no label of its own. */
  lemma FunctionStorage(e: Entry)
    requires e.info.nature == Func
    ensures EntryLines(e).Ok? && |EntryLines(e).value| == 2
    ensures EntryLines(e).value[1] == Globl(e.key)
    ensures forall x :: x in EntryLines(e).value ==> !x.Mark? && !x.LongInt? && !x.LongKey?
  {
  }

  /**
   A quoted string literal's storage holds its spelling verbatim under the
   label made of the sanitized text between the quotes.
   */
  lemma StringStorage(x: string)
    ensures var key := [Quote] + x + [Quote];
            forall info: TypeInfo, ast: Option<Node> | info.nature == StrLit ::
              EntryLines(Entry(key, info, ast)) ==
              Ok([DataSection, Mark(Named(VarPrefix + Sanitize(x))), StringData(key)])
  {
    StripQuoted(x);
  }

  /** The labels a run of lines defines. */
  function Labels(lines: seq<Asm>): (r: seq<Target>)
    ensures |r| <= |lines|
    ensures forall t :: t in r <==> Mark(t) in lines
  {
    if lines == [] then []
    else (if lines[0].Mark? then [lines[0].at] else []) + Labels(lines[1..])
  }

  /** Every entry that gets data defines exactly one label; the others define none. */
  lemma OneLabelPerDatum(e: Entry)
    requires EntryLines(e).Ok?
    ensures e.info.nature in {Vec, IntLit, StrLit, Id, Var, Arg} ==> |Labels(EntryLines(e).value)| == 1
    ensures e.info.nature !in {Vec, IntLit, StrLit, Id, Var, Arg} ==> Labels(EntryLines(e).value) == []
  {
    var r := EntryLines(e).value;
    match e.info.nature
    case Vec =>
      var cells := VecCells(Child(e.astinfo.value, 2), VecSize(e), 0);
      VecCellsSpec(Child(e.astinfo.value, 2), VecSize(e), 0);
      HeaderThen(e.key, VecSize(e) * 4, cells);
    case IntLit =>
      HeaderThen(e.key, 4, [LongKey(e.key)]);
    case StrLit =>
      assert Labels(r) == [r[1].at] + Labels(r[2..]);
    case Id =>
      HeaderThen(e.key, 4, [LongInt(Initializer(e.astinfo))]);
    case Var =>
      HeaderThen(e.key, 4, [LongInt(Initializer(e.astinfo))]);
    case Arg =>
      HeaderThen(e.key, 4, [LongInt(Initializer(e.astinfo))]);
    case Func =>
      assert Labels(r) == Labels(r[1..]);
    case _ =>
  }

  /** A header followed by data lines defines only the header's label. */
  lemma HeaderThen(key: string, bytes: int, data: seq<Asm>)
    requires forall j :: 0 <= j < |data| ==> !data[j].Mark?
    ensures |Labels(Header(VarPrefix + key, bytes) + data)| == 1
  {
    LabelsAppend(Header(VarPrefix + key, bytes), data);
    NoMarksNoLabels(data);
    HeaderLabels(VarPrefix + key, bytes);
  }

  /** A header marks its name and nothing else. */
  lemma HeaderLabels(name: string, bytes: int)
    ensures Labels(Header(name, bytes)) == [Named(name)]
  {
    var h := Header(name, bytes);
    assert h[1..][1..][1..][1..][1..] == [];
    assert Labels(h[4..]) == [Named(name)] by {
      assert h[4..] == [Mark(Named(name))];
    }
    assert Labels(h) == Labels(h[1..]) == Labels(h[2..]) == Labels(h[3..]) == Labels(h[4..]) by {
      assert h[1..][1..] == h[2..] && h[2..][1..] == h[3..] && h[3..][1..] == h[4..];
    }
  }

  lemma {:induction false} LabelsAppend(a: seq<Asm>, b: seq<Asm>)
    ensures Labels(a + b) == Labels(a) + Labels(b)
  {
    if a == [] {
      assert a + b == b;
    } else {
      assert (a + b)[0] == a[0] && (a + b)[1..] == a[1..] + b;
      LabelsAppend(a[1..], b);
    }
  }

  lemma NoMarksNoLabels(lines: seq<Asm>)
    requires forall j :: 0 <= j < |lines| ==> !lines[j].Mark?
    ensures Labels(lines) == []
  {
  }

  // ---------------------------------------------------------------------
  // The table (asm.c:498-511)
  // ---------------------------------------------------------------------

  /** The storage of a run of entries, in order; the first failure ends it. */
  function EntriesLines(es: seq<Entry>): (r: Result<seq<Asm>>)
    ensures r.Fail? ==> r.fault in {NoVectorSize, InvalidVectorSize, Crash}
    decreases |es|
  {
    if es == [] then Ok([])
    else
      var h :- EntryLines(es[0]);
      var rest :- EntriesLines(es[1..]);
      Ok(h + rest)
  }

  /** The walk of `asm_print_hash`: bucket after bucket, each chain from its head. */
  function BucketsLines(bs: seq<Bucket>): (r: Result<seq<Asm>>)
    ensures r.Fail? ==> r.fault in {NoVectorSize, InvalidVectorSize, Crash}
    decreases |bs|
  {
    if bs == [] then Ok([])
    else
      var h :- EntriesLines(bs[0]);
      var rest :- BucketsLines(bs[1..]);
      Ok(h + rest)
  }

  /** The entries of the buckets, in bucket order and chain order. */
  function EntriesOf(bs: seq<Bucket>): seq<Entry>
    decreases |bs|
  {
    if bs == [] then [] else bs[0] + EntriesOf(bs[1..])
  }

  /** The opening and closing comment lines of the storage section (asm.c:501, 510). */
  const HashStart: Asm := Comment("HASH_START")
  const HashEnd: Asm := Comment("HASH_END")

  /** `asm_print_hash` (asm.c:498-511). */
  function HashLines(t: Table): (r: Result<seq<Asm>>)
    ensures r.Ok? ==> |r.value| >= 2 && r.value[0] == HashStart && r.value[|r.value| - 1] == HashEnd
    ensures r.Fail? ==> r.fault in {NoVectorSize, InvalidVectorSize, Crash}
  {
    var body :- BucketsLines(t);
    Ok([HashStart] + body + [HashEnd])
  }

  /** Storing two runs of entries one after the other. */
  lemma {:induction false} EntriesAppend(a: seq<Entry>, b: seq<Entry>)
    ensures EntriesLines(a + b) ==
            match EntriesLines(a)
            case Fail(f) => Fail(f)
            case Ok(x) => (match EntriesLines(b) case Fail(f) => Fail(f) case Ok(y) => Ok(x + y))
    decreases |a|
  {
    if a == [] {
      assert a + b == b;
      if EntriesLines(b).Ok? {
        assert [] + EntriesLines(b).value == EntriesLines(b).value;
      }
    } else {
      assert (a + b)[0] == a[0] && (a + b)[1..] == a[1..] + b;
      EntriesAppend(a[1..], b);
      if EntryLines(a[0]).Ok? && EntriesLines(a[1..]).Ok? && EntriesLines(b).Ok? {
        var h, x, y := EntryLines(a[0]).value, EntriesLines(a[1..]).value, EntriesLines(b).value;
        assert h + (x + y) == (h + x) + y;
      }
    }
  }

  /**
   The storage section lists the entries bucket by bucket in index order and
   each chain from its head: it is the storage of the flattened table.
   */
  lemma {:induction false} BucketOrder(bs: seq<Bucket>)
    ensures BucketsLines(bs) == EntriesLines(EntriesOf(bs))
    decreases |bs|
  {
    if bs != [] {
      BucketOrder(bs[1..]);
      EntriesAppend(bs[0], EntriesOf(bs[1..]));
    }
  }

  /** The storage of a run of entries fails exactly when one entry's storage fails, and then with the first such fault. */
  lemma {:induction false} EntriesFault(es: seq<Entry>)
    ensures EntriesLines(es).Fail? <==> exists k :: 0 <= k < |es| && EntryLines(es[k]).Fail?
    ensures EntriesLines(es).Fail? ==>
              exists k :: 0 <= k < |es| && EntryLines(es[k]).Fail? && EntriesLines(es).fault == EntryLines(es[k]).fault
                          && forall j :: 0 <= j < k ==> EntryLines(es[j]).Ok?
    decreases |es|
  {
    if es != [] {
      EntriesFault(es[1..]);
      if EntryLines(es[0]).Ok? {
        if exists k :: 0 <= k < |es[1..]| && EntryLines(es[1..][k]).Fail? {
          var k :| 0 <= k < |es[1..]| && EntryLines(es[1..][k]).Fail?;
          assert es[1..][k] == es[k + 1];
        }
        if exists k :: 0 <= k < |es| && EntryLines(es[k]).Fail? {
          var k :| 0 <= k < |es| && EntryLines(es[k]).Fail?;
          assert k > 0 && es[1..][k - 1] == es[k];
        }
        if EntriesLines(es).Fail? {
          var k :| 0 <= k < |es[1..]| && EntryLines(es[1..][k]).Fail? && EntriesLines(es[1..]).fault == EntryLines(es[1..][k]).fault
                   && forall j :: 0 <= j < k ==> EntryLines(es[1..][j]).Ok?;
          assert es[1..][k] == es[k + 1];
          forall j | 0 <= j < k + 1
            ensures EntryLines(es[j]).Ok?
          {
            if j > 0 {
              assert es[j] == es[1..][j - 1];
            }
          }
        }
      }
    }
  }

  /** A table of empty buckets gets only the two comment lines. */
  lemma {:induction false} NoEntries(bs: seq<Bucket>)
    requires forall i :: 0 <= i < |bs| ==> bs[i] == []
    ensures EntriesOf(bs) == []
    decreases |bs|
  {
    if bs != [] {
      NoEntries(bs[1..]);
      assert forall i :: 0 <= i < |bs[1..]| ==> bs[1..][i] == bs[i + 1];
    }
  }

  lemma EmptyTableStorage()
    ensures HashLines(Empty()) == Ok([HashStart, HashEnd])
  {
    NoEntries(Empty());
    BucketOrder(Empty());
    assert [HashStart] + [] + [HashEnd] == [HashStart, HashEnd];
  }

  /** `asm_print_hash` as the C loops run it: every bucket by index, every chain from its head. */
  method PrintHash(t: Table) returns (r: Result<seq<Asm>>)
    ensures r == HashLines(t)
  {
    var out: seq<Asm> := [];
    var i := 0;
    BucketOrder(t);
    while i < |t|
      invariant 0 <= i <= |t|
      invariant BucketsLines(t[..i]).Ok? && out == BucketsLines(t[..i]).value
    {
      var b := t[i];
      var k := 0;
      var chain: seq<Asm> := [];
      while k < |b|
        invariant 0 <= k <= |b|
        invariant EntriesLines(b[..k]) == Ok(chain)
      {
        var e := EntryLines(b[k]);
        EntriesAppend(b[..k], [b[k]]);
        assert b[..k + 1] == b[..k] + [b[k]];
        assert EntriesLines([b[k]]) == (match e case Fail(f) => Fail(f) case Ok(x) => Ok(x + []));
        if e.Fail? {
          BucketsPrefixFault(t, i, b[..k + 1]);
          return Fail(e.fault);
        }
        assert e.value + [] == e.value;
        chain := chain + e.value;
        k := k + 1;
      }
      assert b[..k] == b;
      BucketsStep(t, i);
      out := out + chain;
      i := i + 1;
    }
    assert t[..i] == t;
    return Ok([HashStart] + out + [HashEnd]);
  }

  /** One more bucket walked. */
  lemma BucketsStep(bs: seq<Bucket>, i: nat)
    requires i < |bs|
    ensures BucketsLines(bs[..i + 1]) ==
            match BucketsLines(bs[..i])
            case Fail(f) => Fail(f)
            case Ok(x) => (match EntriesLines(bs[i]) case Fail(f) => Fail(f) case Ok(y) => Ok(x + y))
  {
    BucketOrder(bs[..i + 1]);
    BucketOrder(bs[..i]);
    EntriesOfSnoc(bs[..i], bs[i]);
    assert bs[..i + 1] == bs[..i] + [bs[i]];
    EntriesAppend(EntriesOf(bs[..i]), bs[i]);
  }

  lemma {:induction false} EntriesOfSnoc(bs: seq<Bucket>, b: Bucket)
    ensures EntriesOf(bs + [b]) == EntriesOf(bs) + b
    decreases |bs|
  {
    if bs == [] {
      assert EntriesOf([b]) == b + EntriesOf([]);
      assert [] + [b] == [b];
    } else {
      assert (bs + [b])[0] == bs[0] && (bs + [b])[1..] == bs[1..] + [b];
      EntriesOfSnoc(bs[1..], b);
    }
  }

  /** A fault inside bucket `i`, after the buckets before it were stored, is the fault of the whole walk. */
  lemma BucketsPrefixFault(t: Table, i: nat, chain: seq<Entry>)
    requires i < |t| && BucketsLines(t[..i]).Ok? && chain <= t[i] && EntriesLines(chain).Fail?
    ensures HashLines(t) == Fail(EntriesLines(chain).fault)
  {
    var rest := t[i][|chain|..];
    assert t[i] == chain + rest;
    EntriesAppend(chain, rest);
    BucketsStep(t, i);
    assert t == t[..i + 1] + t[i + 1..];
    BucketsSplit(t[..i + 1], t[i + 1..]);
  }

  lemma BucketsSplit(a: seq<Bucket>, b: seq<Bucket>)
    ensures BucketsLines(a).Fail? ==> BucketsLines(a + b) == Fail(BucketsLines(a).fault)
  {
    BucketOrder(a + b);
    BucketOrder(a);
    EntriesOfAppend(a, b);
    EntriesAppend(EntriesOf(a), EntriesOf(b));
  }

  lemma {:induction false} EntriesOfAppend(a: seq<Bucket>, b: seq<Bucket>)
    ensures EntriesOf(a + b) == EntriesOf(a) + EntriesOf(b)
    decreases |a|
  {
    if a == [] {
      assert a + b == b;
    } else {
      assert (a + b)[0] == a[0] && (a + b)[1..] == a[1..] + b;
      EntriesOfAppend(a[1..], b);
    }
  }

  // ---------------------------------------------------------------------
  // The whole output (asm.c:513-530)
  // ---------------------------------------------------------------------

  /** `asm_print_fixed_init` (asm.c:513-522): the two format strings, between comment lines. */
  const Trailer: seq<Asm> :=
    [Comment("#INI_START"), Mark(Named(PrintfInt)), StringData("\"%d \""),
     Mark(Named(ScanfInt)), StringData("\"%d\""), Comment("#INI_END")]

  /** `asm_print` (asm.c:524-530): code, storage, trailer. */
  function AsmPrint(c: Chain, t: Table): (r: Result<seq<Asm>>)
    ensures r.Ok? <==> TacsLines(c, Start, t).Ok? && HashLines(t).Ok?
    ensures r.Ok? ==> |r.value| >= |Trailer| && r.value[|r.value| - |Trailer|..] == Trailer
    ensures r.Ok? ==> TacsLines(c, Start, t).value.lines <= r.value
  {
    var code :- TacsLines(c, Start, t);
    var data :- HashLines(t);
    Ok(code.lines + data + Trailer)
  }

  /**
   The output is the code of every instruction head to tail, then the
   storage of every entry in bucket and chain order, then the trailer; a
   fault in the code comes first, then one in the storage.
   */
  lemma OutputOrder(c: Chain, t: Table)
    ensures var r, code, data := AsmPrint(c, t), TacsLines(c, Start, t), EntriesLines(EntriesOf(t));
            && (r.Ok? <==> code.Ok? && data.Ok?)
            && (code.Fail? ==> r == Fail(code.fault))
            && (code.Ok? && data.Fail? ==> r == Fail(data.fault))
            && (r.Ok? ==> r.value == code.value.lines + [HashStart] + data.value + [HashEnd] + Trailer)
  {
    BucketOrder(t);
    var code, data := TacsLines(c, Start, t), EntriesLines(EntriesOf(t));
    if code.Ok? && data.Ok? {
      var x, y := code.value.lines, data.value;
      assert x + ([HashStart] + y + [HashEnd]) + Trailer == x + [HashStart] + y + [HashEnd] + Trailer;
    }
  }

  /**
   Both format strings the code can name -- `print` of a number and `read`
   -- are defined in every complete output, after all the code.
   */
  lemma FormatsDefined(c: Chain, t: Table)
    requires AsmPrint(c, t).Ok?
    ensures var r := AsmPrint(c, t).value;
            |r| >= 6 && r[|r| - 5] == Mark(Named(PrintfInt)) && r[|r| - 3] == Mark(Named(ScanfInt))
  {
  }

  /**
   The storage `print` loads a string literal from is the one the literal's
   table entry defines: the label of the literal's storage is the address the
   print lines read and pass.
   */
  lemma PrintedStringIsStored(key: string, t: Table)
    requires Find(t, key).Some? && Find(t, key).value.info.nature == StrLit
    requires PrintLines(key, t).Ok?
    ensures var p, s := PrintLines(key, t).value, EntryLines(Find(t, key).value);
            && s.Ok?
            && p[0].Load? && p[0].from.Whole? && p[2] == Lea(VarPrefix + p[0].from.sym, Rdi)
            && Mark(Named(VarPrefix + p[0].from.sym)) in s.value
  {
    PrintLinesSpec(key, t);
    var e := Find(t, key).value;
    assert IsStr(Find(t, key));
    assert EntryLines(e).value[1] == Mark(Named(VarPrefix + Sanitize(key[1..|key| - 1])));
  }

  /**
   Every scalar, vector and integer literal is labelled by the storage name
   the code's operands use for its key, and made visible under it.
   */
  lemma OperandsAreStored(e: Entry)
    requires e.info.nature in {Vec, IntLit, Id, Var, Arg} && EntryLines(e).Ok?
    ensures Mark(Named(VarPrefix + e.key)) in EntryLines(e).value
    ensures Globl(VarPrefix + e.key) in EntryLines(e).value
  {
    var r := EntryLines(e).value;
    assert r[1] == Globl(VarPrefix + e.key) && r[4] == Mark(Named(VarPrefix + e.key));
  }
}

=== FILE: symbols.dfy ===
/**
 The symbol table (hash.h, hash.c): one global chained hash of HASH_SIZE
 buckets, keyed by spelling.

 The table is a sequence of buckets, each bucket the chain of entries from its
 head. Entries are values; an entry is identified by its key, which is what
 the syntax tree and the instructions hold. The hidden counters of the name
 generators are passed in and handed back.
 */
module Symbols {
  import opened Outcomes
  import opened Syntax
  import Numerals

  /** HASH_SIZE (hash.h:7). */
  const HashSize: nat := 997

  /** `enum hashnature_t` (hash.h:10-13). */
  datatype Nature = Id | IntLit | FloatLit | CharLit | BoolLit | StrLit | Arg | Var | Func | Vec | Label

  /** `enum hashtype_t` (hash.h:15-18). */
  datatype Type = IntT | FloatT | CharT | BoolT | StrT | UnknownT

  /** `struct hash_typeinfo` (hash.h:20-23). */
  datatype TypeInfo = TypeInfo(nature: Nature, typ: Type)

  /** `struct hash_node` without its chain link: the chain is the bucket's order. */
  datatype Entry = Entry(key: string, info: TypeInfo, astinfo: Option<Node>)

  type Bucket = seq<Entry>

  /** `HASH_TABLE` (hash.h:8). */
  type Table = t: seq<Bucket> | |t| == HashSize witness seq(HashSize, _ => [])

  /** The table `hash_init` produces. */
  function Empty(): Table {
    seq(HashSize, _ => [])
  }

  // ---------------------------------------------------------------------
  // Addressing
  // ---------------------------------------------------------------------

  /** One step of `hash_address`'s accumulator. */
  function Mix(acc: nat, c: char): nat {
    (acc * (c as nat)) % HashSize + 1
  }

  /** The accumulator of `hash_address` after reading all of `key`, left to right. */
  function Accumulate(key: string): (a: nat)
    ensures 1 <= a <= HashSize
    decreases |key|
  {
    if key == [] then 1 else Mix(Accumulate(key[..|key| - 1]), key[|key| - 1])
  }

  /** The bucket of `key`. */
  function Address(key: string): (a: nat)
    ensures a < HashSize
    ensures key == [] ==> a == 0
  {
    Accumulate(key) - 1
  }

  /**
   `hash_address` (hash.c:16-23), with its loop: the result always names a
   bucket, and the empty key lands in bucket 0.
   */
  method HashAddress(key: string) returns (a: nat)
    ensures a == Address(key)
    ensures a < HashSize
  {
    var acc: nat := 1;
    var i := 0;
    while i < |key|
      invariant 0 <= i <= |key|
      invariant acc == Accumulate(key[..i])
    {
      assert key[..i + 1][..i] == key[..i];
      acc := (acc * (key[i] as nat)) % HashSize + 1;
      i := i + 1;
    }
    assert key[..i] == key;
    a := acc - 1;
  }

  // ---------------------------------------------------------------------
  // Lookup
  // ---------------------------------------------------------------------

  /** The first entry of a chain whose key is `key`, scanning from the head. */
  function FindIn(b: Bucket, key: string): (r: Option<Entry>)
    ensures r.Some? ==> r.value.key == key && r.value in b
    ensures r.None? <==> forall i :: 0 <= i < |b| ==> b[i].key != key
  {
    if b == [] then None
    else if b[0].key == key then Some(b[0])
    else FindIn(b[1..], key)
  }

  /** `_hash_find` / `hash_find` (hash.c:37-63): the entry spelled exactly `key`, or NULL. */
  function Find(t: Table, key: string): (r: Option<Entry>)
    ensures r.Some? ==> r.value.key == key && r.value in t[Address(key)]
    ensures r.None? <==> forall i :: 0 <= i < |t[Address(key)]| ==> t[Address(key)][i].key != key
  {
    FindIn(t[Address(key)], key)
  }

  /** The table holds an entry spelled `key`. */
  predicate Holds(t: Table, key: string) {
    Find(t, key).Some?
  }

  /** The entry spelled `key`. */
  function Get(t: Table, key: string): (e: Entry)
    requires Holds(t, key)
    ensures e.key == key
  {
    Find(t, key).value
  }

  /** Every entry sits in the bucket of its key, and no chain spells a key twice. */
  ghost predicate Valid(t: Table) {
    && (forall b, i :: 0 <= b < HashSize && 0 <= i < |t[b]| ==> Address(t[b][i].key) == b)
    && (forall b, i, j :: 0 <= b < HashSize && 0 <= i < j < |t[b]| ==> t[b][i].key != t[b][j].key)
  }

  /** In a valid table, a failed lookup means no entry anywhere has that key. */
  lemma AbsentEverywhere(t: Table, key: string)
    requires Valid(t)
    requires Find(t, key).None?
    ensures forall b, i :: 0 <= b < HashSize && 0 <= i < |t[b]| ==> t[b][i].key != key
  {
  }

  /** Every key `t` holds, `t'` still holds. */
  ghost predicate Grows(t: Table, t': Table) {
    forall k :: Holds(t, k) ==> Holds(t', k)
  }

  // ---------------------------------------------------------------------
  // Insertion
  // ---------------------------------------------------------------------

  datatype Inserted = Inserted(table: Table, entry: Entry)

  /**
   `hash_insert` (hash.c:65-85): an existing spelling returns its entry and
   leaves the table as it was; a new spelling gets an entry with the given
   typeinfo and no declaration link at the head of its bucket.
   */
  function Insert(t: Table, key: string, info: TypeInfo): (r: Inserted)
    ensures r.entry.key == key
    ensures Holds(t, key) ==> r.table == t && r.entry == Get(t, key)
    ensures !Holds(t, key) ==> r.entry == Entry(key, info, None)
    ensures !Holds(t, key) ==> r.table[Address(key)] == [r.entry] + t[Address(key)]
    ensures forall b :: 0 <= b < HashSize && b != Address(key) ==> r.table[b] == t[b]
  {
    match Find(t, key)
    case Some(e) => Inserted(t, e)
    case None =>
      var a := Address(key);
      var e := Entry(key, info, None);
      Inserted(t[a := [e] + t[a]], e)
  }

  /** After an insertion the key is found, and it is found as the returned entry. */
  lemma FindAfterInsert(t: Table, key: string, info: TypeInfo)
    ensures Find(Insert(t, key, info).table, key) == Some(Insert(t, key, info).entry)
  {
  }

  /** Insertion changes no other key's lookup. */
  lemma InsertKeepsOthers(t: Table, key: string, info: TypeInfo, k: string)
    requires k != key
    ensures Find(Insert(t, key, info).table, k) == Find(t, k)
  {
    var r := Insert(t, key, info);
    if !Holds(t, key) && Address(k) == Address(key) {
      var b := r.table[Address(k)];
      assert b[1..] == t[Address(k)];
    }
  }

  /** Insertion only adds keys. */
  lemma InsertGrows(t: Table, key: string, info: TypeInfo)
    ensures Grows(t, Insert(t, key, info).table)
  {
    forall k | Holds(t, k)
      ensures Holds(Insert(t, key, info).table, k)
    {
      if k != key {
        InsertKeepsOthers(t, key, info, k);
      } else {
        FindAfterInsert(t, key, info);
      }
    }
  }

  /** Inserting the same spelling twice: the second call changes nothing and returns the first entry. */
  lemma InsertIdempotent(t: Table, key: string, info: TypeInfo, info': TypeInfo)
    ensures var r := Insert(t, key, info);
            Insert(r.table, key, info') == r
  {
    FindAfterInsert(t, key, info);
  }

  /** Insertion keeps every entry in its key's bucket and every chain free of repeats. */
  lemma InsertKeepsValid(t: Table, key: string, info: TypeInfo)
    requires Valid(t)
    ensures Valid(Insert(t, key, info).table)
  {
    var r := Insert(t, key, info);
    if !Holds(t, key) {
      var a := Address(key);
      forall b, i, j | 0 <= b < HashSize && 0 <= i < j < |r.table[b]|
        ensures r.table[b][i].key != r.table[b][j].key
      {
        if b == a && i == 0 {
          assert r.table[b][j] == t[a][j - 1];
        } else if b == a {
          assert r.table[b][i] == t[a][i - 1] && r.table[b][j] == t[a][j - 1];
        }
      }
      forall b, i | 0 <= b < HashSize && 0 <= i < |r.table[b]|
        ensures Address(r.table[b][i].key) == b
      {
        if b == a && i > 0 {
          assert r.table[b][i] == t[a][i - 1];
        }
      }
    }
  }

  // ---------------------------------------------------------------------
  // Field setters
  // ---------------------------------------------------------------------

  /** A chain with its first entry spelled `key` replaced by `e`. */
  function ReplaceIn(b: Bucket, key: string, e: Entry): (r: Bucket)
    requires e.key == key
    ensures |r| == |b|
    ensures forall k :: FindIn(r, k) == (if k == key && FindIn(b, k).Some? then Some(e) else FindIn(b, k))
  {
    if b == [] then []
    else if b[0].key == key then [e] + b[1..]
    else
      var r := [b[0]] + ReplaceIn(b[1..], key, e);
      assert r[1..] == ReplaceIn(b[1..], key, e);
      r
  }

  /** The table with the entry spelled `e.key` replaced by `e`. */
  function Update(t: Table, e: Entry): (r: Table)
    requires Holds(t, e.key)
    ensures Find(r, e.key) == Some(e)
    ensures forall k :: k != e.key ==> Find(r, k) == Find(t, k)
  {
    var a := Address(e.key);
    t[a := ReplaceIn(t[a], e.key, e)]
  }

  /**
   `hash_set_typeinfo` (hash.c:157-162): the entry's kind and type become
   `info`; its key and declaration link stay, and every other entry is as it was.
   */
  function SetInfo(t: Table, key: string, info: TypeInfo): (r: Table)
    requires Holds(t, key)
    ensures Find(r, key) == Some(Get(t, key).(info := info))
    ensures forall k :: k != key ==> Find(r, k) == Find(t, k)
  {
    Update(t, Get(t, key).(info := info))
  }

  /**
   `hash_set_astinfo` (hash.c:182-188): the entry's declaration link becomes
   `ast` (possibly NULL); its key and typeinfo stay, and every other entry is as it was.
   */
  function SetAst(t: Table, key: string, ast: Option<Node>): (r: Table)
    requires Holds(t, key)
    ensures Find(r, key) == Some(Get(t, key).(astinfo := ast))
    ensures forall k :: k != key ==> Find(r, k) == Find(t, k)
  {
    Update(t, Get(t, key).(astinfo := ast))
  }

  /** Replacing an entry by one of the same spelling keeps the table valid. */
  lemma UpdateKeepsValid(t: Table, e: Entry)
    requires Valid(t) && Holds(t, e.key)
    ensures Valid(Update(t, e))
  {
    var a := Address(e.key);
    var r := Update(t, e);
    ReplaceKeepsKeys(t[a], e.key, e);
  }

  /** Replacing by an entry of the same spelling keeps every position's spelling. */
  lemma ReplaceKeepsKeys(b: Bucket, key: string, e: Entry)
    requires e.key == key
    ensures forall i :: 0 <= i < |b| ==> ReplaceIn(b, key, e)[i].key == b[i].key
  {
    if b != [] && b[0].key != key {
      ReplaceKeepsKeys(b[1..], key, e);
      var r := ReplaceIn(b, key, e);
      assert forall i :: 1 <= i < |b| ==> r[i] == ReplaceIn(b[1..], key, e)[i - 1];
    }
  }

  /** The setters neither add nor remove spellings. */
  lemma UpdateKeepsKeys(t: Table, e: Entry)
    requires Holds(t, e.key)
    ensures Grows(t, Update(t, e)) && Grows(Update(t, e), t)
  {
  }

  // ---------------------------------------------------------------------
  // Counting undeclared identifiers
  // ---------------------------------------------------------------------

  /** Entries of a chain whose kind is still "identifier". */
  function IdsIn(b: Bucket): nat {
    if b == [] then 0 else (if b[0].info.nature == Id then 1 else 0) + IdsIn(b[1..])
  }

  /** Entries of buckets `i..` whose kind is still "identifier". */
  function IdsFrom(t: Table, i: nat): nat
    requires i <= HashSize
    decreases HashSize - i
  {
    if i == HashSize then 0 else IdsIn(t[i]) + IdsFrom(t, i + 1)
  }

  /**
   `hash_fprint_ids` (hash.c:164-180) as a count: the number of entries, over
   every bucket and every chain, whose kind is `hn_id_t` -- the identifiers
   that no declaration claimed.
   */
  method CountIds(t: Table) returns (count: nat)
    ensures count == IdsFrom(t, 0)
  {
    count := 0;
    var i := 0;
    while i < HashSize
      invariant 0 <= i <= HashSize
      invariant count + IdsFrom(t, i) == IdsFrom(t, 0)
    {
      var node := t[i];
      var inBucket := 0;
      while node != []
        invariant inBucket + IdsIn(node) == IdsIn(t[i])
      {
        if node[0].info.nature == Id {
          inBucket := inBucket + 1;
        }
        node := node[1..];
      }
      count := count + inBucket;
      i := i + 1;
    }
  }

  /** Changing one bucket changes the total by that bucket's change. */
  lemma {:induction false} IdsFromUpdate(t: Table, a: nat, b: Bucket, i: nat)
    requires a < HashSize && i <= HashSize
    ensures IdsFrom(t[a := b], i) ==
            IdsFrom(t, i) + (if i <= a then IdsIn(b) - IdsIn(t[a]) else 0)
    decreases HashSize - i
  {
    if i < HashSize {
      IdsFromUpdate(t, a, b, i + 1);
    }
  }

  /** A new identifier adds one to the count of undeclared identifiers; anything else adds nothing. */
  lemma IdsAfterInsert(t: Table, key: string, info: TypeInfo)
    ensures IdsFrom(Insert(t, key, info).table, 0) ==
            IdsFrom(t, 0) + (if !Holds(t, key) && info.nature == Id then 1 else 0)
  {
    if !Holds(t, key) {
      var a := Address(key);
      var e := Entry(key, info, None);
      assert ([e] + t[a])[1..] == t[a];
      IdsFromUpdate(t, a, [e] + t[a], 0);
    }
  }

  // ---------------------------------------------------------------------
  // Generated names
  // ---------------------------------------------------------------------

  /** The spelling `hash_create_dummy` uses for counter value `n`: "dummy<n mod 999>". */
  function DummyKey(n: nat): string {
    "dummy" + Numerals.NatToDec(n % 999)
  }

  /** The spelling `hash_create_label` uses for counter value `n`: "label<n mod 999>". */
  function LabelKey(n: nat): string {
    "label" + Numerals.NatToDec(n % 999)
  }

  /** A generated entry and the counter's next value. */
  datatype Fresh = Fresh(table: Table, entry: Entry, next: nat)

  /**
   `hash_create_dummy` (hash.c:190-198): inserts "dummy<n mod 999>" as a
   variable of unknown type and advances the counter.
   */
  function CreateDummy(t: Table, counter: nat): (r: Fresh)
    ensures r.next == counter + 1
    ensures r.entry.key == DummyKey(counter)
    ensures Find(r.table, r.entry.key) == Some(r.entry)
    ensures !Holds(t, DummyKey(counter)) ==> r.entry.info == TypeInfo(Var, UnknownT)
    ensures Holds(t, DummyKey(counter)) ==> r.table == t
    ensures Grows(t, r.table)
  {
    var ins := Insert(t, DummyKey(counter), TypeInfo(Var, UnknownT));
    FindAfterInsert(t, DummyKey(counter), TypeInfo(Var, UnknownT));
    InsertGrows(t, DummyKey(counter), TypeInfo(Var, UnknownT));
    Fresh(ins.table, ins.entry, counter + 1)
  }

  /**
   `hash_create_label` (hash.c:200-208): inserts "label<n mod 999>" with kind
   label and advances the counter.
   */
  function CreateLabel(t: Table, counter: nat): (r: Fresh)
    ensures r.next == counter + 1
    ensures r.entry.key == LabelKey(counter)
    ensures Find(r.table, r.entry.key) == Some(r.entry)
    ensures !Holds(t, LabelKey(counter)) ==> r.entry.info == TypeInfo(Label, UnknownT)
    ensures Holds(t, LabelKey(counter)) ==> r.table == t
    ensures Grows(t, r.table)
  {
    var ins := Insert(t, LabelKey(counter), TypeInfo(Label, UnknownT));
    FindAfterInsert(t, LabelKey(counter), TypeInfo(Label, UnknownT));
    InsertGrows(t, LabelKey(counter), TypeInfo(Label, UnknownT));
    Fresh(ins.table, ins.entry, counter + 1)
  }

  /** The first 999 counter values give 999 different spellings in each family. */
  lemma GeneratedKeysDistinct(m: nat, n: nat)
    requires m < 999 && n < 999 && m != n
    ensures DummyKey(m) != DummyKey(n)
    ensures LabelKey(m) != LabelKey(n)
  {
    Numerals.NatToDecInjective(m, n);
    assert DummyKey(m)[5..] == Numerals.NatToDec(m);
    assert DummyKey(n)[5..] == Numerals.NatToDec(n);
    assert LabelKey(m)[5..] == Numerals.NatToDec(m);
    assert LabelKey(n)[5..] == Numerals.NatToDec(n);
  }

  /** After 999 values the spellings repeat, so a later call finds the earlier entry. */
  lemma GeneratedKeysRepeat(n: nat)
    ensures DummyKey(n + 999) == DummyKey(n)
    ensures LabelKey(n + 999) == LabelKey(n)
  {
    assert (n + 999) % 999 == n % 999;
  }

  /** Temporaries and labels never share a spelling. */
  lemma GeneratedFamiliesDisjoint(m: nat, n: nat)
    ensures DummyKey(m) != LabelKey(n)
  {
    assert DummyKey(m)[0] == 'd' && LabelKey(n)[0] == 'l';
  }

  /** Three digits at most: every generated spelling fits the 9-byte buffer with its terminator. */
  lemma GeneratedKeysFit(n: nat)
    ensures |DummyKey(n)| <= 8 && |LabelKey(n)| <= 8
  {
    var m := n % 999;
    if m >= 10 {
      if m >= 100 {
        assert Numerals.NatToDec(m) == Numerals.NatToDec(m / 10) + [Numerals.DigitChar(m % 10)];
        assert |Numerals.NatToDec(m / 10)| == 2;
      }
    }
  }

  // ---------------------------------------------------------------------
  // Queries used by later stages
  // ---------------------------------------------------------------------

  /** `hash_is_str` (hash.c:211-218): a present entry whose kind or type is string. */
  function IsStr(e: Option<Entry>): (r: bool)
    ensures r ==> e.Some?
  {
    e.Some? && (e.value.info.nature == StrLit || e.value.info.typ == StrT)
  }

  /** Every symbol a subtree carries is spelled by an entry of `t`. */
  ghost predicate Resolved(t: Table, n: Node)
    decreases n
  {
    && (n.symbol.Some? ==> Holds(t, n.symbol.value))
    && forall i :: 0 <= i < NumChildren && Child(n, i).Some? ==> Resolved(t, Child(n, i).value)
  }

  /** A subtree resolved in a table stays resolved as the table grows. */
  lemma {:induction false} ResolvedGrows(t: Table, t': Table, n: Node)
    requires Grows(t, t') && Resolved(t, n)
    ensures Resolved(t', n)
    decreases n
  {
    forall i | 0 <= i < NumChildren && Child(n, i).Some?
      ensures Resolved(t', Child(n, i).value)
    {
      ResolvedGrows(t, t', Child(n, i).value);
    }
  }
}

=== FILE: syntax.dfy ===
/**
 The syntax tree (ast.h) and the guards and constructors of ast.c that every
 later stage relies on.

 A node has a kind, an optional symbol and a fixed array of NUM_CHILDREN child
 slots, of which any may be NULL. A symbol is referred to by its spelling: the
 spelling is the identity of a symbol-table entry.
 */
module Syntax {
  import opened Outcomes

  /** NUM_CHILDREN (ast.h:10). */
  const NumChildren: nat := 10
  /** MAX_ARGC (ast.h:11). */
  const MaxArgc: nat := 50

  /** `enum atype_t` (ast.h:37-94). */
  datatype Kind =
    | Sym
    | Add | Sub | Mul | Div | Lt | Gt | Le | Ge | Eq | Ne | Pow | Or | And | Not | Paren | Op
    | Attr | VAttr
    | Call
    | Read | Print | Ret
    | Cond
    | While
    | For
    | Csv | Cmdl | VList | PList
    | Block
    | Decl | VDecl
    | VSym
    | FDecl | FSig
    | KwChar | KwInt | KwFloat | KwBool
    | TVar

  /** `struct ast_node` (ast.h:96-100). */
  datatype Node = Node(kind: Kind, symbol: Option<string>, children: seq<Option<Node>>)

  /** Child slot `i`; the slots past those stored are NULL, as `ast_create` leaves them. */
  function Child(n: Node, i: nat): (c: Option<Node>)
    ensures c.Some? ==> c.value < n
  {
    if i < |n.children| then n.children[i] else None
  }

  /** The spelling of child `i`'s symbol, for callers that validated it. */
  function ChildKey(n: Node, i: nat): string
    requires Child(n, i).Some? && Child(n, i).value.symbol.Some?
  {
    Child(n, i).value.symbol.value
  }

  /** The kind of child `i`, for callers that validated it. */
  function ChildKind(n: Node, i: nat): Kind
    requires Child(n, i).Some?
  {
    Child(n, i).value.kind
  }

  /**
   `ast_create` (ast.c:50-79): a node whose first slots hold `kids` in order
   and whose remaining slots up to NUM_CHILDREN are NULL; more than
   NUM_CHILDREN children abort the run.
   */
  function Create(kind: Kind, symbol: Option<string>, kids: seq<Option<Node>>): (r: Result<Node>)
    ensures r.Ok? <==> |kids| <= NumChildren
    ensures r.Fail? ==> r.fault == TooManyChildren
    ensures r.Ok? ==> r.value.kind == kind && r.value.symbol == symbol
    ensures r.Ok? ==> |r.value.children| == NumChildren
    ensures r.Ok? ==> forall i :: 0 <= i < NumChildren ==>
                        Child(r.value, i) == (if i < |kids| then kids[i] else None)
  {
    if |kids| > NumChildren then Fail(TooManyChildren)
    else Ok(Node(kind, symbol, kids + seq(NumChildren - |kids|, _ => None)))
  }

  /** Index of the first NULL slot among the first `count`, starting at `i` (or `count`). */
  function FirstNull(n: Node, i: nat, count: nat): (j: nat)
    requires i <= count
    ensures i <= j <= count
    ensures forall k :: i <= k < j ==> Child(n, k).Some?
    ensures j < count ==> Child(n, j).None?
    decreases count - i
  {
    if i == count then i else if Child(n, i).None? then i else FirstNull(n, i + 1, count)
  }

  /**
   `ast_validate_children` (ast.c:23-33): the node itself when it is present,
   `count` is at most NUM_CHILDREN and its first `count` slots are all
   non-NULL; otherwise the run aborts with "NULL head".
   */
  function ValidateChildren(head: Option<Node>, count: nat): (r: Result<Node>)
    ensures r.Ok? <==> count <= NumChildren && head.Some? &&
                       forall i :: 0 <= i < count ==> Child(head.value, i).Some?
    ensures r.Ok? ==> r.value == head.value
    ensures r.Fail? ==> r.fault == NullHead
  {
    if count > NumChildren || head.None? then Fail(NullHead)
    else if FirstNull(head.value, 0, count) < count then Fail(NullHead)
    else Ok(head.value)
  }

  /** The first slot among the first `count`, from `i`, that is NULL or has no symbol. */
  function FirstUnnamed(n: Node, i: nat, count: nat): (j: nat)
    requires i <= count
    ensures i <= j <= count
    ensures forall k :: i <= k < j ==> Child(n, k).Some? && Child(n, k).value.symbol.Some?
    ensures j < count ==> Child(n, j).None? || Child(n, j).value.symbol.None?
    decreases count - i
  {
    if i == count then i
    else if Child(n, i).None? || Child(n, i).value.symbol.None? then i
    else FirstUnnamed(n, i + 1, count)
  }

  /** Every one of the first `count` slots holds a node with a symbol. */
  predicate Named(n: Node, count: nat) {
    forall i :: 0 <= i < count ==> Child(n, i).Some? && Child(n, i).value.symbol.Some?
  }

  /**
   `ast_validate_symbol` (ast.c:35-48): like `ast_validate_children`, and in
   addition each of the first `count` children must carry a symbol. The first
   offending slot decides the diagnostic: a NULL child is "NULL head", a child
   without a symbol is "NULL head symbol".
   */
  function ValidateSymbol(head: Option<Node>, count: nat): (r: Result<Node>)
    ensures r.Ok? <==> count <= NumChildren && head.Some? && Named(head.value, count)
    ensures r.Ok? ==> r.value == head.value
    ensures r.Fail? && r.fault == NullSymbol ==>
              head.Some? && exists i :: 0 <= i < count && Child(head.value, i).Some? && Child(head.value, i).value.symbol.None?
    ensures r.Fail? ==> r.fault == NullHead || r.fault == NullSymbol
  {
    if count > NumChildren || head.None? then Fail(NullHead)
    else
      var j := FirstUnnamed(head.value, 0, count);
      if j == count then Ok(head.value)
      else if Child(head.value, j).None? then Fail(NullHead)
      else Fail(NullSymbol)
  }

  /** A node that passes `ast_validate_symbol` also passes `ast_validate_children`. */
  lemma SymbolGuardImpliesChildGuard(head: Option<Node>, count: nat)
    requires ValidateSymbol(head, count).Ok?
    ensures ValidateChildren(head, count) == ValidateSymbol(head, count)
  {
  }

  /** `ast_kw_to_str` (ast.c:11-21): the spelling of a type keyword, "ERROR" for any other node. */
  function KwName(k: Kind): (s: string)
    ensures s != "ERROR" <==> k in {KwChar, KwInt, KwFloat, KwBool}
  {
    match k
    case KwChar => "char"
    case KwInt => "int"
    case KwFloat => "float"
    case KwBool => "bool"
    case _ => "ERROR"
  }

  /**
   The nodes of a list linked through slot 1 (argument, parameter and
   initialiser lists), starting at `h`.
   */
  function Spine(h: Option<Node>): (s: seq<Node>)
    ensures h.None? <==> s == []
    ensures h.Some? ==> s[0] == h.value
    ensures forall i :: 0 <= i < |s| - 1 ==> Child(s[i], 1) == Some(s[i + 1])
    ensures |s| > 0 ==> Child(s[|s| - 1], 1).None?
  {
    match h
    case None => []
    case Some(n) => SpineFrom(n)
  }

  function SpineFrom(n: Node): (s: seq<Node>)
    ensures |s| >= 1 && s[0] == n
    ensures forall i :: 0 <= i < |s| - 1 ==> Child(s[i], 1) == Some(s[i + 1])
    ensures Child(s[|s| - 1], 1).None?
    decreases n
  {
    match Child(n, 1)
    case None => [n]
    case Some(c) => [n] + SpineFrom(c)
  }
}
